=== FILE: README.md ===
# A Dafny model of the CA ANZ directory scraper's core

The scraper walks the "Find a CA" directory of Chartered Accountants ANZ one Australian postcode
at a time, and this project models the parts that have logic of their own:

- **the postcode catalogue** (`australian-postcodes.js`): expanding the per-state ranges into
  zero-padded four-character postcodes, sorting them, filtering by state, validity and state
  lookup, sampling, and statistics;
- **member extraction** (`headed-scraper.js`): the structured tier over container elements, the
  text tier over the page's visible lines, and how `extractMemberData` chooses between them;
- **the two bounded browser loops**: navigation with three attempts, and the Load More loop with
  its fifty-click limit;
- **the run**: `searchPostcode`'s result shaping, the resume index, the per-postcode loop, and the
  final aggregation of `saveFinalResults`.

The browser is never modelled. Whatever it does appears as an input:

- navigation attempts are a function from the attempt number to `Loaded(title)` or
  `Threw(message, pauseError)`, where `pauseError` is what the pause before the next attempt threw, if anything;
- Load More rounds are a function from the click count to what the buttons showed;
- a search sees a `SearchEnv`: the message of an exception thrown before extraction, or the page;
- each position of the run loop sees a `Turn`: the errors thrown by the form reset and by the
  pause, and the search's environment.

The regular expressions are fields of a `Matchers` value. `Members.Sound` states the only facts
the code relies on about them:

- every match is non-empty;
- the structured tier's designation pattern can only capture one of CA, CPA, FCCA, ACCA or CTA.

Modules:

| module | file | models |
|---|---|---|
| `Wrappers` | wrappers.dfy | `Option` and `Result` |
| `Text` | text.dfy | `trim`, `split`, `includes`, `toUpperCase`, `toString`, `padStart`, and string order |
| `Sorting` | sorting.dfy | the default `Array.prototype.sort` on strings, as an insertion sort with its uniqueness |
| `Postcodes` | postcodes.dfy | the `AustralianPostcodes` class |
| `Members` | members.dfy | the member record, the pattern parameters and the two name splits |
| `TextScan` | textscan.dfy | the text tier of `extractMemberData` |
| `Containers` | containers.dfy | `extractFromContainers` and the tier choice of `extractMemberData` |
| `Driver` | driver.dfy | `navigateToSearchPage` and `automateLoadMore` |
| `Orchestrator` | orchestrator.dfy | `searchPostcode`, `scrapeAllPostcodes` and `saveFinalResults` |

How each operation is checked:

- The text tier is proved equal to a reference that builds one member per email line. Each member
  is filled from the lines between its email line and the next one.
- The sorted catalogue is proved to be the only ascending arrangement of the generated records,
  so it does not depend on the engine's sorting algorithm.
- The text scan, the Load More loop, the per-postcode loop (as written and corrected) and the
  aggregation loop of `saveFinalResults` are each proved equal to a recursive reference over the
  same inputs.
- The navigation loop is specified by what the three attempts did: which one loaded, or which
  error ended the retries (`Driver.Navigates`, `Driver.NavigationFails`).
- The statistics loop is specified entry by entry: one entry per state, in order, counting that
  state's list.

Where the code and its design description disagree, the model follows the code:

- A one-token name in the structured tier gives a last name equal to the first name, not an
  empty one (headed-scraper.js:552-553).
- The text tier's name window is scanned from its earliest line forward. The candidate farthest
  from the email line wins, not the closest one (headed-scraper.js:402).
- In the structured tier only the address falls back to a pattern over the element's text. The
  name and the company come from selectors only (headed-scraper.js:529-544).

Two facts proved about the catalogue are worth knowing:

- The file's header comment says the catalogue holds about 2,644 postcodes. The ranges it lists
  expand to 9,101 (`Postcodes.TotalIs9101`).
- The container count that decides whether the structured tier is tried does not look for
  `.result-item` or `.card` (headed-scraper.js:335). Those two selectors are tried later, so
  containers that only they match are never used (`Containers.UnprobedContainersIgnored`).

## Model

| member | source | states |
|---|---|---|
| `Postcodes.CatalogueIsSortedGeneration` | australian-postcodes.js:59-80 | the catalogue is ascending by value and holds exactly the records the generation loops produce; any other ascending arrangement of those records equals it |
| `Postcodes.CatalogueMember` | australian-postcodes.js:62-72 | a record is in the catalogue iff its value lies in a range listed for its state; its postcode is then four digits that read back as its value |
| `Postcodes.ListedUnique` | australian-postcodes.js:12-50 | no value is listed for two different states: the ranges are disjoint |
| `Postcodes.CatalogueSize` | australian-postcodes.js:59-80 | sorting keeps every generated record: there are as many as the sum of the range sizes |
| `Postcodes.AllPostcodesSorted` | australian-postcodes.js:85-87 | `getAllPostcodes` is strictly ascending as strings, so it has no duplicates |
| `Postcodes.ByState` | australian-postcodes.js:92-96 | the postcodes of a state are strictly ascending |
| `Postcodes.ByStateAnyCase` | australian-postcodes.js:92-96 | a state name in any letter case gives that state's list |
| `Postcodes.ByStateUnknown` | australian-postcodes.js:92-96 | a name that upper-cases to no state gives the empty list |
| `Postcodes.StateListSound` | australian-postcodes.js:92-96 | every postcode of a state's list has a value listed for that state |
| `Postcodes.StateListComplete` | australian-postcodes.js:92-96 | every four-digit postcode whose value is listed for a state is in that state's list |
| `Postcodes.Normalize` | australian-postcodes.js:138 | a string of four or more characters is unchanged; a shorter one gets zeros in front up to four |
| `Postcodes.IsValid` | australian-postcodes.js:137-140 | valid iff the zero-padded input is one of the catalogue's postcodes |
| `Postcodes.ValidNumber` | australian-postcodes.js:137-140 | a number given as its decimal string is valid iff some state lists it |
| `Postcodes.ValidWide` | australian-postcodes.js:137-140 | a number of five or more digits is never valid |
| `Postcodes.GetState` | australian-postcodes.js:145-149 | `getState` gives null exactly when `isValid` is false |
| `Postcodes.GetStateListed` | australian-postcodes.js:145-149 | `getState` gives a state iff the zero-padded input's value is listed for that state |
| `Postcodes.GetStateInByState` | australian-postcodes.js:145-149 | for a four-character postcode, `getState` gives a state iff the postcode is in that state's list |
| `Postcodes.TotalCount` | australian-postcodes.js:154-156 | the total count is the number of postcodes `getAllPostcodes` returns |
| `Postcodes.TotalIs9101` | australian-postcodes.js:154-156 | the ranges hold 9,101 values, and that is the total count |
| `Postcodes.StateCountIs` | australian-postcodes.js:165 | a state's count is the sum of the sizes of its ranges |
| `Postcodes.CountStates` | australian-postcodes.js:164-166 | one entry per state, in order, keyed by the state and counting its list |
| `Postcodes.CountsAddUp` | australian-postcodes.js:161-171 | per-state counts taken over all nine states sum to 9,101 |
| `Postcodes.GetStatistics` | australian-postcodes.js:161-171 | the nine states in declaration order with their counts, then `TOTAL` equal to the total count, which the per-state counts sum to |
| `Postcodes.SampleAt` | australian-postcodes.js:124-128 | the `k`-th sample of a state is its postcode at index `k·step`, `step = floor(len/count)` |
| `Postcodes.SampleSize` | australian-postcodes.js:124-128 | a state with postcodes contributes exactly `count` samples for a positive `count` |
| `Postcodes.SampleRepeatsFirst` | australian-postcodes.js:124-128 | asking for more samples than a state has makes `step` zero, so its first postcode is repeated `count` times |
| `Postcodes.GatherOrigin` | australian-postcodes.js:120-129 | every sample comes from the list of a state other than `EXTERNAL` |
| `Postcodes.SamplePostcodes` | australian-postcodes.js:117-132 | the samples are sorted and are a rearrangement of the per-state picks |
| `Postcodes.SampleCount` | australian-postcodes.js:117-132 | a positive `count` gives exactly `8·count` samples |
| `Postcodes.DefaultSamples` | australian-postcodes.js:117-132 | without a count, five samples are taken from each of the eight states: forty in all |
| `Postcodes.SamplesValid` | australian-postcodes.js:117-132 | every sample is valid and belongs to a state other than `EXTERNAL` |
| `Postcodes.MajorCitiesListed` | australian-postcodes.js:101-111 | each major-city postcode is valid and belongs to its city's state or territory |
| `Text.Trim` | headed-scraper.js:362 | the result is the input with only whitespace removed, and only in front of and behind it; it neither starts nor ends with whitespace, and is empty iff the input is all whitespace |
| `Text.TrimUnique` | headed-scraper.js:362 | any slice of the input with only whitespace around it that neither starts nor ends with whitespace, and is empty only for an all-whitespace input, is the trimmed input |
| `Text.Words` | headed-scraper.js:415 | the tokens of a name are non-empty and contain no space |
| `Text.WordsOfJoin` | headed-scraper.js:420 | tokens joined by single spaces split back into the same tokens |
| `Text.NonEmptySnoc` | headed-scraper.js:354 | filtering out empty strings from a list with one more string adds it at the end iff it is non-empty, so order is kept |
| `Text.NonEmptyAppend` | headed-scraper.js:354 | filtering a concatenation filters each part and keeps them in order |
| `Text.SplitAround` | headed-scraper.js:354 | splitting two strings joined by the separator gives the first's pieces followed by the second's |
| `Text.PadStart` | australian-postcodes.js:66 | a string already long enough is unchanged; otherwise fill characters go in front up to the width |
| `Text.DecimalRoundTrip` | australian-postcodes.js:66 | the decimal rendering of a number reads back as that number |
| `Text.Pad4Shape` | australian-postcodes.js:66 | the padded form of a value below 10,000 is four digits that read back as the value |
| `Text.Pad4Order` | australian-postcodes.js:77 | for four-character postcodes, string order and numeric order agree |
| `Text.ToUpper` | australian-postcodes.js:94 | upper-casing keeps the length and maps each character |
| `Sorting.SortStrings` | australian-postcodes.js:131 | the sorted samples are in non-decreasing order and are a rearrangement of the input |
| `Sorting.SortedUnique` | australian-postcodes.js:131 | two sorted rearrangements of the same strings are equal |
| `Members.SplitStructured` | headed-scraper.js:551-554 | first and last parts have no spaces; the first is empty iff there are no tokens; a middle part needs more than two tokens |
| `Members.SplitText` | headed-scraper.js:415-423 | a name is split iff it has at least two tokens, and then into the same parts as the structured split |
| `Members.SplitRecovers` | headed-scraper.js:551-554 | first part, then the middle part's tokens, then the last part give back the tokens; one token is both first and last name |
| `TextScan.PageLines` | headed-scraper.js:354-362 | the lines are the trimmed non-blank pieces of the text split at newlines, and every such piece is among them |
| `TextScan.PageLinesOfLine` | headed-scraper.js:354-362 | a text without a newline gives its trimmed self as its only line, or no line when it is blank |
| `TextScan.PageLinesJoin` | headed-scraper.js:354-362 | the lines of two texts joined by a newline are the first text's lines followed by the second's, so order is kept |
| `TextScan.FindNameSpec` | headed-scraper.js:402-425 | the window yields no name iff none of its lines is a candidate; otherwise it yields its earliest candidate |
| `TextScan.StartMember` | headed-scraper.js:381-426 | a new member has the line's email and empty fields; its name is the window's candidate, split only when it has two or more tokens |
| `TextScan.Absorb` | headed-scraper.js:430-466 | a line never changes the email or the name, and never overwrites a field already set |
| `TextScan.FirstHitSpec` | headed-scraper.js:430-466 | a field's first hit is missing iff no non-boilerplate line supplies it; otherwise it comes from the earliest line that does |
| `TextScan.FillFirstHits` | headed-scraper.js:430-466 | after the lines up to the next email line, each field holds its earlier value or else its first hit; the name and email are unchanged |
| `TextScan.NextEmail` | headed-scraper.js:365-373 | the first non-boilerplate line with an email at or after a position, or the end |
| `TextScan.Collect` | headed-scraper.js:361-480 | the reference has no member iff no email line is left; its first member is that of the next email line |
| `TextScan.ScanLine` | headed-scraper.js:361-467 | one pass of the loop pushes at most the open member, counts what it pushes, and keeps the scan in step with the reference |
| `TextScan.PushLast` | headed-scraper.js:469-473 | pushing the open member at the end completes the reference's members |
| `TextScan.ScanLines` | headed-scraper.js:354-480 | the count equals the number of members, and the members are exactly the reference's |
| `TextScan.TextExtract` | headed-scraper.js:351-488 | the text tier over the page's visible text gives one member per email line, with its count |
| `TextScan.RecordFields` | headed-scraper.js:373-466 | each member's email is its line's match, and each other field is the first value supplied from its email line up to the next |
| `Containers.FirstText` | headed-scraper.js:529 | the first non-empty selector text, or empty iff every selector gives an empty text |
| `Containers.FirstStateLine` | headed-scraper.js:540-544 | the address fallback picks the earliest line that names a state abbreviation in any letter case |
| `Containers.StructuredMember` | headed-scraper.js:513-575 | a container is dropped iff its text has no email; otherwise each field comes from its selector chain or pattern, the phone and designation are the patterns' matches or empty, and the name is split by the structured rule |
| `Containers.Present` | headed-scraper.js:575 | dropping nulls keeps only present values, and keeps none iff none is present |
| `Containers.PresentSnoc` | headed-scraper.js:575 | dropping nulls from a list with one more element adds that element's value at the end iff it is present, so order is kept |
| `Containers.FromElements` | headed-scraper.js:512-576 | the members of a selector's containers are empty iff no container's text has an email |
| `Containers.FromElementsSnoc` | headed-scraper.js:512-576 | no containers give no members; one more container adds its member at the end iff its text has an email |
| `Containers.ExtractFromContainers` | headed-scraper.js:494-586 | the members of the earliest selector that yields any, or empty iff no selector yields any |
| `Containers.ExtractMemberData` | headed-scraper.js:330-488 | the structured tier answers iff a probe selector matches and the containers yield members; otherwise the text tier runs over the visible text |
| `Containers.StructuredNameParts` | headed-scraper.js:551-554 | a structured member's name parts give back its tokens; one token is both first and last name |
| `Containers.UnprobedContainersIgnored` | headed-scraper.js:335-338 | a page that none of the probe selectors matches goes to the text tier, whatever `.result-item` or `.card` match |
| `Driver.Navigate` | headed-scraper.js:61-103 | succeeds iff one of the three attempts loads after every earlier attempt threw and its pause went through, at that attempt, whatever its title; otherwise fails with the third attempt's message, or with the error of a pause before the next attempt that threw |
| `Driver.LoadRound` | headed-scraper.js:278-321 | a round goes on only after a counted click on a button that stays; it counts its click iff the click went through, and it stops for the stated reason |
| `Driver.LoadMore` | headed-scraper.js:274-322 | the loop's clicks, presses and stop reason are those of the round-by-round reference |
| `Driver.LoadFrom` | headed-scraper.js:274-322 | never more than fifty clicks, with one press recorded per click |
| `Driver.LoadBounds` | headed-scraper.js:277-316 | the limit is reached iff all fifty rounds clicked a button that stayed; otherwise the first round that did not decides the reason and the count |
| `Driver.LoadPresses` | headed-scraper.js:287-293 | each press is the button its round chose: the primary one whenever it was ready |
| `Orchestrator.SearchPostcodeAsWritten` | headed-scraper.js:690-723 | as written, a search without an exception is an error iff the structured tier answered; an error has no members, and a success counts exactly its members |
| `Orchestrator.SearchPostcode` | headed-scraper.js:690-723 | a search is an error iff it threw, carrying the message; otherwise it returns either tier's members with their count |
| `Orchestrator.StructuredResultLost` | headed-scraper.js:704-721 | as written, a page the structured tier answers gives an error result although the containers yielded members |
| `Orchestrator.SearchVersionsAgree` | headed-scraper.js:690-723 | away from the structured tier the written and intended searches agree |
| `Orchestrator.StructuredPathReachable` | headed-scraper.js:335-345 | a page with one container holding an email takes the structured tier and, as written, ends in the error |
| `Orchestrator.PostcodeList` | headed-scraper.js:740-746 | a given list is used as it is, even an empty one; without one the run covers the whole catalogue |
| `Orchestrator.IndexOf` | headed-scraper.js:751 | `-1` iff the value is absent; otherwise the position of its first occurrence |
| `Orchestrator.ResumeIndex` | headed-scraper.js:749-758 | the position of the first occurrence of a truthy resume postcode that is in the list, and 0 otherwise |
| `Orchestrator.StepAsWritten` | headed-scraper.js:782-816 | as written, a position records its outcome, then a second, failed entry for the same postcode iff its search ran, another postcode follows and the pause threw |
| `Orchestrator.RunAsWritten` | headed-scraper.js:776-817 | as written, the loop records nothing before the start index and at least one result per position it visits |
| `Orchestrator.RunAsWrittenLength` | headed-scraper.js:776-817 | as written, the loop records one result per position plus one per failed pause |
| `Orchestrator.PauseFailureDuplicates` | headed-scraper.js:789-816 | as written, a failed pause records its postcode twice: the search's result and then an error |
| `Orchestrator.Run` | headed-scraper.js:776-817 | the intended loop records one result per position from the start index |
| `Orchestrator.RunPositions` | headed-scraper.js:776-817 | the `k`-th result is the outcome at position `start + k`: the reset's error, or the search's result |
| `Orchestrator.RunPostcodes` | headed-scraper.js:776-817 | the results name the postcodes from the start index to the end, in list order |
| `Orchestrator.RunVersionsAgree` | headed-scraper.js:776-817 | without failed pauses, and with searches that agree, the written and intended loops record the same results |
| `Orchestrator.SearchedCount` | headed-scraper.js:784-792 | the processed count never exceeds the number of positions visited |
| `Orchestrator.AllSearched` | headed-scraper.js:784-792 | when no reset fails, every position visited counts as processed |
| `Orchestrator.Visit` | headed-scraper.js:782-792 | one position's result is the reset's error or the search's result, and it is processed iff its search ran |
| `Orchestrator.RunLoop` | headed-scraper.js:760-817 | the intended loop's results are the reference's, its processed count is the number of searches run, and its member total sums the results' counts |
| `Orchestrator.VisitAsWritten` | headed-scraper.js:782-816 | as written, one position records the reset's error, or the search's result followed by an error when the pause after it throws; it is processed iff its search ran, and adds that search's count |
| `Orchestrator.RunLoopAsWritten` | headed-scraper.js:760-817 | the loop as written records the reference's results, one per position plus one per failed pause; its processed count is the number of searches run, and its member total sums the results' counts |
| `Orchestrator.Summarize` | headed-scraper.js:885-891 | a summary entry keeps the postcode and count, is failed iff the error is truthy, and carries the error only then |
| `Orchestrator.SummaryState` | headed-scraper.js:916-920 | a summary entry has no state iff its postcode is not valid |
| `Orchestrator.SuccessesAndFailures` | headed-scraper.js:876-881 | successful and failed postcodes add up to the number of results |
| `Orchestrator.TallyTracks` | headed-scraper.js:876-892 | one result's tally keeps the running totals equal to those of the results so far |
| `Orchestrator.SaveFinalResults` | headed-scraper.js:868-905 | the summary counts all, successful and failed results; the members are the successful results' in order; their counts sum to the total; one summary entry per result |
| `Orchestrator.SuccessCounts` | headed-scraper.js:882 | when failed results count nothing, summing only the successful ones gives the same total |
| `Orchestrator.SearchesAccounted` | headed-scraper.js:690-723 | both versions of the search count exactly their members, and count nothing on an error |
| `Orchestrator.RunAccounted` | headed-scraper.js:776-817 | every result of the intended loop counts exactly its members, and nothing on an error |
| `Orchestrator.RunAsWrittenAccounted` | headed-scraper.js:789-816 | every result of the loop as written, the duplicate pause errors included, counts exactly its members, and nothing on an error |
| `Orchestrator.TotalIsMembers` | headed-scraper.js:868-892 | when every result counts exactly its members, the successful results' counts sum to the number of members collected |
| `Orchestrator.RunAndSave` | headed-scraper.js:776-831 | as written, after navigation: one result per postcode from the start index plus one per failed pause; the processed count is the number of searches run and the member total sums the results' counts; the saved file counts all, successful and failed results, keeps the successful results' members in order, has one summary entry per result, and its member total equals the run's and the number of members saved |
| `Orchestrator.ScrapeAllPostcodes` | headed-scraper.js:725-846 | as written: the run fails iff the browser fails to start or navigation fails, rethrowing that error unchanged and saving nothing; otherwise it returns the written loop's results from the resume index, one per postcode plus one per failed pause, with the searches run and the results' summed counts as its totals, and the saved file is the aggregate of those results, whose member total is the run's and the number of members saved |
| `Orchestrator.RunAndSaveIntended` | headed-scraper.js:776-831 | with both corrections: one result per postcode from the start index; the processed count is the number of searches run and the member total sums the results' counts; the saved file is the aggregate of those results, and its member total equals the run's and the number of members saved |
| `Orchestrator.ScrapeAllPostcodesIntended` | headed-scraper.js:725-846 | with both corrections: the run fails iff the browser fails to start or navigation fails, rethrowing that error unchanged and saving nothing; otherwise it returns one result per postcode from the resume index, with the searches run and the results' summed counts as its totals, and the saved file is the aggregate of those results, whose member total is the number of members saved |

## Left out

- Playwright: launching the browser, network interception, filling and submitting the form, and
  forcing the button enabled. Only their outcomes are modelled: loaded or threw, ready or not,
  and the page as text and container elements.
- `waitForTimeout` pauses: they have no logical effect. Where a pause can throw, the throw is an
  input: the pause between navigation attempts, the pause after a Load More click, and the pause
  between postcodes.
- Logging, screenshots and the progress percentage.
- `saveToJSON`, `saveProgressResults` and the file write in `saveFinalResults`. These are file
  I/O and `JSON.stringify`. The progress save catches its own errors, and so does the final
  write, so neither can change the run.
- The summary's `scrape_completed` timestamp and its constant `status`: a clock and a constant.
- `scrapeAll`, the one-search run: it is not part of the modelled core.
- The CLI in scrape-all-postcodes.js and the manual test in test-headed.js: not part of this model.
- The regular expressions themselves. They are parameters, and `Members.Sound` is all the model
  assumes of them.
- The text tier's name pattern is anchored at both ends, so its capture is the whole line. The
  model takes a name-shaped predicate and uses the line.
- Member fields the scraper always leaves empty or null: member type, specialties, special
  conditions, specialisation, longitude and latitude.
- Letter case covers ASCII letters only. This applies to `toUpperCase` and to patterns with the
  `i` flag.
- Lengths count characters, not UTF-16 code units.
- Non-integer or non-numeric `count` arguments to `getSamplePostcodes`: `count` is an integer.
- The record's `postcode` field is derived from its value. Every record is generated that way.
- The statistics object is a sequence of (key, count) pairs in the order of its keys.
- `getStateForPostcode` builds a new catalogue on every call. It is modelled as the one catalogue's
  `getState`.
- The outer `catch` of `scrapeAllPostcodes` saves partial results, but only when some result was
  recorded. Only starting the browser and navigating can throw there, and both happen before any
  result exists, so that save never happens.
- Which step of a search threw: filling the form, starting the search, the pause after Load More
  or reading the page. A search's environment carries only the message, because the `catch` in
  `searchPostcode` records only the message.

## Findings

`Orchestrator.ScrapeAllPostcodes` and `Orchestrator.RunAndSave` model the run as written, with both
defects below. `Orchestrator.ScrapeAllPostcodesIntended` and `Orchestrator.RunAndSaveIntended` are
the same run with both corrected.

| source | as written | input that shows it | evidently intended | confidence | as-written member | corrected member |
|---|---|---|---|---|---|---|
| headed-scraper.js:338-346, 704-721 | after a structured extraction, `extractMemberData` returns `undefined`; `searchPostcode` then reads `data.totalCount`, throws a `TypeError`, and records the postcode as failed with no members | a results page with one `.member-card` whose text is `a@b.au` | the structured members are returned with their count, as the text tier's are | high, not executed | `Orchestrator.SearchPostcodeAsWritten` (`Orchestrator.StructuredResultLost`, `Orchestrator.StructuredPathReachable`, `Orchestrator.ScrapeAllPostcodes`) | `Orchestrator.SearchPostcode` (`Orchestrator.ScrapeAllPostcodesIntended`) |
| headed-scraper.js:789-816 | the search's result is pushed before the pause between postcodes; if that pause throws, the `catch` pushes a second, failed result for the same postcode | a list of two postcodes whose first search succeeds and whose first pause throws | one result per postcode, and a failed pause does not turn a searched postcode into a failure | medium, not executed | `Orchestrator.RunAsWritten` (`Orchestrator.PauseFailureDuplicates`, `Orchestrator.RunAsWrittenLength`, `Orchestrator.RunLoopAsWritten`, `Orchestrator.RunAndSave`, `Orchestrator.ScrapeAllPostcodes`) | `Orchestrator.Run` (`Orchestrator.RunLoop`, `Orchestrator.RunAndSaveIntended`, `Orchestrator.ScrapeAllPostcodesIntended`) |

=== FILE: containers.dfy ===
/**
 * The structured tier of member extraction and the choice between the two tiers: each container
 * element matched by the first productive selector becomes a member when its text holds an email
 * address; when no container yields a member the text tier runs over the page's visible text.
 */
module Containers {
  import opened Wrappers
  import opened Text
  import opened Members
  import TextScan

  /**
   * One container element: its `textContent`, the `textContent` of the first descendant matching
   * each selector that matches one, and the `href` of its first link containing `http`.
   */
  datatype Element = Element(textContent: string, found: map<string, string>, link: Option<string>)

  /** The rendered results page: the elements each selector matches, and `document.body.innerText`. */
  datatype Page = Page(containers: map<string, seq<Element>>, innerText: string)

  /** The selectors whose combined count decides whether the structured tier is tried. */
  const ProbeSelectors: seq<string> :=
    [".member-card"] + [".search-result"] + [".member-listing"] + ["[data-member]"] + [".member"] +
    [".listing-item"]

  /** The selectors the structured tier tries, in order. */
  const ContainerSelectors: seq<string> :=
    [".member-card"] + [".search-result"] + [".member-listing"] + ["[data-member]"] + [".member"] +
    [".listing-item"] + [".result-item"] + [".card"]

  const NameSelectors: seq<string> :=
    [".name"] + [".member-name"] + ["h3"] + ["h2"] + ["h4"] + [".title"]
  const CompanySelectors: seq<string> :=
    [".company"] + [".business"] + [".organization"]
  const AddressSelectors: seq<string> :=
    [".address"] + [".location"]

  /** The state abbreviations the address fallback looks for, ignoring letter case. */
  const StateTokens: seq<string> :=
    ["VIC"] + ["NSW"] + ["QLD"] + ["SA"] + ["WA"] + ["NT"] + ["ACT"] + ["TAS"]

  function Select(page: Page, sel: string): seq<Element> {
    if sel in page.containers then page.containers[sel] else []
  }

  /** Whether any of `sels` matches an element. */
  predicate AnyMatched(page: Page, sels: seq<string>) {
    sels != [] && (|Select(page, sels[0])| > 0 || AnyMatched(page, sels[1..]))
  }

  /** `getText(sel)`: the trimmed text of the first descendant matching `sel`, or empty. */
  function GetText(el: Element, sel: string): string {
    if sel in el.found then Trim(el.found[sel]) else ""
  }

  /** `getText(a) || getText(b) || …`: the first non-empty text among `sels`, or empty. */
  function FirstText(el: Element, sels: seq<string>): (r: string)
    ensures r == [] <==> forall k :: 0 <= k < |sels| ==> GetText(el, sels[k]) == []
    ensures r != [] ==> exists k :: 0 <= k < |sels| && GetText(el, sels[k]) == r &&
                          forall j :: 0 <= j < k ==> GetText(el, sels[j]) == []
  {
    FirstNonEmpty(sel => GetText(el, sel), sels)
  }

  /** Whether `line` mentions a state abbreviation in any letter case. */
  predicate MentionsState(line: string, tokens: seq<string>) {
    tokens != [] && (ContainsIgnoringCase(line, tokens[0]) || MentionsState(line, tokens[1..]))
  }

  /** The first of `lines` mentioning a state abbreviation. */
  function FirstStateLine(lines: seq<string>): (r: Option<string>)
    ensures r.None? <==> forall k :: 0 <= k < |lines| ==> !MentionsState(lines[k], StateTokens)
    ensures r.Some? ==> exists k :: 0 <= k < |lines| && lines[k] == r.value && MentionsState(lines[k], StateTokens) &&
                          forall j :: 0 <= j < k ==> !MentionsState(lines[j], StateTokens)
  {
    if lines == [] then None
    else if MentionsState(lines[0], StateTokens) then Some(lines[0])
    else
      var r := FirstStateLine(lines[1..]);
      assert forall k :: 1 <= k < |lines| ==> lines[k] == lines[1..][k - 1];
      r
  }

  /**
   * The address fallback: the whole first line of the element's text that mentions a state
   * abbreviation (the pattern spans the line around the abbreviation), trimmed; empty if none.
   */
  function FallbackAddress(text: string): string {
    match FirstStateLine(Split(text, '\n'))
    case None => ""
    case Some(line) => Trim(line)
  }

  /**
   * One container as a member, or nothing when its text holds no email address. The name,
   * company and address are the first non-empty texts of their selector chains, the address
   * falling back to the first line naming a state; the name is split by the structured rule.
   */
  function StructuredMember(m: Matchers, el: Element): (r: Option<Member>)
    ensures r.None? <==> m.email(el.textContent).None?
    ensures r.Some? ==> var x := r.value;
      && x.email == m.email(el.textContent).value
      && x.name == FirstText(el, NameSelectors)
      && x.company == FirstText(el, CompanySelectors)
      && NameParts(x.firstName, x.middleName, x.lastName) == SplitStructured(x.name)
      && x.preferredName == x.firstName
      && (FirstText(el, AddressSelectors) != [] ==> x.businessAddress == FirstText(el, AddressSelectors))
      && (FirstText(el, AddressSelectors) == [] ==> x.businessAddress == FallbackAddress(el.textContent))
      && x.phone == m.phone(el.textContent).GetOr("")
      && x.designation == m.designation(el.textContent).GetOr("")
      && (Sound(m) ==> x.designation == [] || x.designation in DesignationWords)
      && x.companyWebsite == el.link
  {
    var text := el.textContent;
    match m.email(text)
    case None => None
    case Some(email) =>
      var name := FirstText(el, NameSelectors);
      var company := FirstText(el, CompanySelectors);
      var phone := match m.phone(text) case Some(p) => p case None => "";
      var given := FirstText(el, AddressSelectors);
      var address := if given != [] then given else FallbackAddress(text);
      var designation := match m.designation(text) case Some(d) => d case None => "";
      var parts := SplitStructured(name);
      Some(Member(name, parts.first, parts.first, parts.middle, parts.last, company, address, phone,
                  email, el.link, designation))
  }

  /** `xs.map(f).filter(x => x !== null)`: the present results of `f`, in order. */
  function Present<T, U>(f: T -> Option<U>, xs: seq<T>): (r: seq<U>)
    ensures |r| <= |xs|
    ensures r == [] <==> forall k :: 0 <= k < |xs| ==> f(xs[k]).None?
    ensures forall k :: 0 <= k < |r| ==> exists j :: 0 <= j < |xs| && f(xs[j]) == Some(r[k])
  {
    if xs == [] then []
    else
      var rest := Present(f, xs[1..]);
      assert forall k :: 1 <= k < |xs| ==> xs[k] == xs[1..][k - 1];
      match f(xs[0])
      case None => rest
      case Some(x) =>
        var r := [x] + rest;
        assert forall k :: 1 <= k < |r| ==> r[k] == rest[k - 1];
        r
  }

  /** Filtering keeps order: an element added at the end adds its value at the end, if it has one. */
  lemma {:induction false} PresentSnoc<T, U>(f: T -> Option<U>, xs: seq<T>, x: T)
    ensures Present(f, xs + [x]) == Present(f, xs) + (if f(x).Some? then [f(x).value] else [])
    decreases |xs|
  {
    if xs != [] {
      assert (xs + [x])[1..] == xs[1..] + [x];
      PresentSnoc(f, xs[1..], x);
    } else {
      assert [x][1..] == [];
    }
  }

  /** The members of a list of containers: those with an email address, in document order. */
  function FromElements(m: Matchers, els: seq<Element>): (r: seq<Member>)
    ensures |r| <= |els|
    ensures r == [] <==> forall k :: 0 <= k < |els| ==> m.email(els[k].textContent).None?
  {
    var r := Present(el => StructuredMember(m, el), els);
    assert forall k :: 0 <= k < |els| ==> (StructuredMember(m, els[k]).None? <==> m.email(els[k].textContent).None?);
    r
  }

  /**
   * One member per container whose text holds an email address, in document order: a container
   * added at the end adds its member at the end, or nothing when its text has no email.
   */
  lemma FromElementsSnoc(m: Matchers, els: seq<Element>, el: Element)
    ensures FromElements(m, []) == []
    ensures FromElements(m, els + [el]) ==
            FromElements(m, els) + (if m.email(el.textContent).Some? then [StructuredMember(m, el).value] else [])
  {
    PresentSnoc(el => StructuredMember(m, el), els, el);
  }

  /**
   * A loop over `sels` that stops at the first one whose `f` is non-empty and returns it; empty
   * when every one is empty.
   */
  function FirstNonEmpty<T>(f: string -> seq<T>, sels: seq<string>): (r: seq<T>)
    ensures r == [] <==> forall k :: 0 <= k < |sels| ==> f(sels[k]) == []
    ensures r != [] ==> exists k :: 0 <= k < |sels| && r == f(sels[k]) &&
                          forall j :: 0 <= j < k ==> f(sels[j]) == []
  {
    if sels == [] then []
    else if f(sels[0]) != [] then f(sels[0])
    else
      var r := FirstNonEmpty(f, sels[1..]);
      assert forall k :: 1 <= k < |sels| ==> sels[k] == sels[1..][k - 1];
      r
  }

  /** The members one selector yields: none unless it matches elements. */
  function Group(m: Matchers, page: Page, sel: string): (r: seq<Member>)
    ensures r == FromElements(m, Select(page, sel))
  {
    var els := Select(page, sel);
    if |els| > 0 then FromElements(m, els) else []
  }

  /**
   * `extractFromContainers`: the members of the first selector, in order, that matches elements
   * and yields at least one member; empty when none does.
   */
  function ExtractFromContainers(m: Matchers, page: Page): (r: seq<Member>)
    ensures r == [] <==> forall k :: 0 <= k < |ContainerSelectors| ==> Group(m, page, ContainerSelectors[k]) == []
    ensures r != [] ==> exists k :: 0 <= k < |ContainerSelectors| && r == Group(m, page, ContainerSelectors[k]) &&
                          forall j :: 0 <= j < k ==> Group(m, page, ContainerSelectors[j]) == []
  {
    FirstNonEmpty(sel => Group(m, page, sel), ContainerSelectors)
  }

  /**
   * What `extractMemberData` leaves behind. `Structured` is its early return: the members are
   * stored on the scraper but nothing is returned. `Textual` returns the count and the members.
   */
  datatype Extraction =
    | Structured(members: seq<Member>)
    | Textual(totalCount: nat, members: seq<Member>)

  /** Whether the structured tier answers: a probe selector matches and the containers yield members. */
  predicate StructuredApplies(m: Matchers, page: Page) {
    AnyMatched(page, ProbeSelectors) && ExtractFromContainers(m, page) != []
  }

  /** The tier choice as a function of the page, with the text tier given by its reference. */
  function ExtractionOf(m: Matchers, page: Page): Extraction {
    if StructuredApplies(m, page) then Structured(ExtractFromContainers(m, page))
    else
      var members := TextScan.Collect(m, TextScan.PageLines(page.innerText), 0);
      Textual(|members|, members)
  }

  /**
   * `extractMemberData`: the structured tier when a probe selector matches and the containers
   * yield members; otherwise the text tier over the page's visible text.
   */
  method ExtractMemberData(m: Matchers, page: Page) returns (x: Extraction)
    ensures x.Structured? <==> AnyMatched(page, ProbeSelectors) && ExtractFromContainers(m, page) != []
    ensures x.Structured? ==> x.members == ExtractFromContainers(m, page)
    ensures x.Textual? ==> x.totalCount == |x.members|
    ensures x.Textual? && Sound(m) ==> x.members == TextScan.Collect(m, TextScan.PageLines(page.innerText), 0)
    ensures Sound(m) ==> x == ExtractionOf(m, page)
  {
    if AnyMatched(page, ProbeSelectors) {
      var structured := ExtractFromContainers(m, page);
      if |structured| > 0 {
        return Structured(structured);
      }
    }
    var count, members := TextScan.TextExtract(m, page.innerText);
    x := Textual(count, members);
  }

  /**
   * The structured tier splits a name of two or more tokens into first, middle and last parts
   * that recover its tokens; a one-token name is reported as both first and last name.
   */
  lemma {:induction false} StructuredNameParts(m: Matchers, el: Element)
    requires StructuredMember(m, el).Some?
    ensures var x := StructuredMember(m, el).value; var w := Words(x.name);
      && (|w| >= 2 ==> w == [x.firstName] + Words(x.middleName) + [x.lastName])
      && (|w| == 1 ==> x.firstName == x.lastName == w[0] && x.middleName == [])
  {
    SplitRecovers(StructuredMember(m, el).value.name);
  }

  /**
   * Containers that only the last two selectors match are never used: the probe does not look
   * for them, so such a page goes to the text tier.
   */
  lemma {:induction false} UnprobedContainersIgnored(m: Matchers, page: Page)
    requires forall k :: 0 <= k < |ProbeSelectors| ==> Select(page, ProbeSelectors[k]) == []
    ensures ExtractionOf(m, page).Textual?
  {
    NoneMatched(page, ProbeSelectors);
  }

  lemma {:induction false} NoneMatched(page: Page, sels: seq<string>)
    requires forall k :: 0 <= k < |sels| ==> Select(page, sels[k]) == []
    ensures !AnyMatched(page, sels)
  {
    if sels != [] {
      assert Select(page, sels[0]) == [];
      NoneMatched(page, sels[1..]);
    }
  }
}

=== FILE: driver.dfy ===
/**
 * Driving the search page: navigation with up to three attempts, and the Load More loop that
 * clicks until the button goes away, nothing is clickable, an error occurs or fifty clicks are done.
 * What the browser does on each attempt or round is a parameter.
 */
module Driver {
  import opened Wrappers
  import opened Text

  /* ---------------------------------------------------------------------------
   * Navigation
   * ------------------------------------------------------------------------- */

  const MaxRetries: nat := 3

  /**
   * One navigation attempt: the page loaded with this title, or the attempt threw `message`;
   * after a throw that is not the last attempt's, the pause before retrying may throw too.
   */
  datatype Attempt = Loaded(title: string) | Threw(message: string, pauseError: Option<string>)

  /**
   * A successful navigation: the attempt that succeeded, and whether the title confirmed the
   * search page (both cases return normally; the check only decides what is logged).
   */
  datatype Arrival = Arrival(attempt: nat, confirmed: bool)

  predicate Confirms(title: string) {
    Contains(title, "Find a Chartered Accountant") || Contains(title, "CA ANZ")
  }

  /** Attempts `1..k-1` all threw, and the pause after each of them went through. */
  predicate RetriedUpTo(attempts: nat -> Attempt, k: nat) {
    forall j :: 1 <= j < k ==> attempts(j).Threw? && attempts(j).pauseError.None?
  }

  /** Navigation succeeds: some attempt loads, after earlier attempts that threw and were retried. */
  predicate Navigates(attempts: nat -> Attempt) {
    exists k :: 1 <= k <= MaxRetries && attempts(k).Loaded? && RetriedUpTo(attempts, k)
  }

  /**
   * Navigation fails with `e`: every attempt threw and the third attempt's message names the
   * failure, or the pause before a retry threw `e` first.
   */
  predicate NavigationFails(attempts: nat -> Attempt, e: string) {
    || (RetriedUpTo(attempts, MaxRetries) && attempts(MaxRetries).Threw?
        && e == NavigationError(attempts(MaxRetries).message))
    || (exists k :: 1 <= k < MaxRetries && RetriedUpTo(attempts, k) && attempts(k).Threw?
                    && attempts(k).pauseError == Some(e))
  }

  /** The error thrown when every attempt failed, built from the last attempt's message. */
  function NavigationError(message: string): (e: string)
    ensures e == "Navigation failed after 3 attempts: " + message
  {
    "Navigation failed after " + ToDecimal(MaxRetries) + " attempts: " + message
  }

  /**
   * `navigateToSearchPage`: attempts 1, 2, 3 in turn; the first that loads ends the loop; a
   * pause before a retry that throws ends it with the pause's own error; if the third attempt
   * throws, the error names its message.
   */
  method Navigate(attempts: nat -> Attempt) returns (r: Result<Arrival>)
    ensures r.Success? <==> Navigates(attempts)
    ensures r.Success? ==> var k := r.value.attempt;
      && 1 <= k <= MaxRetries && attempts(k).Loaded? && RetriedUpTo(attempts, k)
      && r.value.confirmed == Confirms(attempts(k).title)
    ensures r.Failure? ==> NavigationFails(attempts, r.error)
  {
    var attempt := 1;
    while attempt <= MaxRetries
      invariant 1 <= attempt <= MaxRetries
      invariant RetriedUpTo(attempts, attempt)
      decreases MaxRetries - attempt
    {
      match attempts(attempt)
      case Loaded(title) =>
        return Success(Arrival(attempt, Confirms(title)));
      case Threw(message, pauseError) =>
        if attempt == MaxRetries {
          return Failure(NavigationError(message));
        }
        if pauseError.Some? {
          return Failure(pauseError.value);
        }
        attempt := attempt + 1;
    }
    assert false;
  }

  /* ---------------------------------------------------------------------------
   * Load More
   * ------------------------------------------------------------------------- */

  const MaxClicks: nat := 50

  datatype Button = Primary | Alternative

  /** What happens after a button is clicked. */
  datatype AfterClick =
    | ClickThrew                                  // the click itself threw
    | WaitThrew                                   // the click went through, the wait afterwards threw
    | Settled(stillVisible: bool, stillEnabled: bool)

  /**
   * One round of the loop: whether the primary (`.btn-result`) and the alternative (a button
   * reading "load more") buttons are visible and enabled, and what the click led to; or the
   * visibility checks themselves threw.
   */
  datatype Round =
    | Probe(primaryReady: bool, alternativeReady: bool, after: AfterClick)
    | ProbeThrew

  /** Why the loop ended. */
  datatype Stop = NoButton | ButtonGone | Error | Limit

  datatype LoadReport = LoadReport(clicks: nat, pressed: seq<Button>, stop: Stop)

  /** The button a round clicks: the primary one when ready, else the alternative when ready. */
  function Chosen(round: Round): Option<Button> {
    match round
    case ProbeThrew => None
    case Probe(p, a, _) => if p then Some(Primary) else if a then Some(Alternative) else None
  }

  /** A round after which the loop goes on: a button was clicked and is still there. */
  predicate Continues(round: Round) {
    round.Probe? && Chosen(round).Some? && round.after == Settled(true, true)
  }

  /** Whether a round that ends the loop had already clicked (and counted) its button. */
  predicate ClickedBeforeStop(round: Round) {
    round.Probe? && Chosen(round).Some? && (round.after.WaitThrew? || round.after.Settled?)
  }

  /** How a round that does not continue ends the loop. */
  function StopOf(round: Round): Stop {
    match round
    case ProbeThrew => Error
    case Probe(_, _, after) =>
      if Chosen(round).None? then NoButton
      else if after.Settled? then ButtonGone
      else Error
  }

  /** The reference: the rounds from click count `n` on, as a recursion over the rounds. */
  function LoadFrom(rounds: nat -> Round, n: nat): (r: LoadReport)
    requires n <= MaxClicks
    ensures n <= r.clicks <= MaxClicks && |r.pressed| == r.clicks - n
    decreases MaxClicks - n
  {
    if n == MaxClicks then LoadReport(n, [], Limit)
    else
      var round := rounds(n);
      if Continues(round) then
        var rest := LoadFrom(rounds, n + 1);
        LoadReport(rest.clicks, [Chosen(round).value] + rest.pressed, rest.stop)
      else if ClickedBeforeStop(round) then
        LoadReport(n + 1, [Chosen(round).value], StopOf(round))
      else
        LoadReport(n, [], StopOf(round))
  }

  /** A report with `pressed` in front of its presses: what the rounds before it add. */
  function Prepend(pressed: seq<Button>, r: LoadReport): LoadReport {
    LoadReport(r.clicks, pressed + r.pressed, r.stop)
  }

  /**
   * One round of `automateLoadMore`'s loop at click count `n`: pick a ready button (the primary
   * one first), click it, count it, and look whether it is still visible and enabled. The loop
   * goes on (`None`) only after a counted click on a button that stayed.
   */
  method LoadRound(round: Round, n: nat, pressed: seq<Button>) returns (n': nat, pressed': seq<Button>, stop: Option<Stop>)
    ensures stop.None? <==> Continues(round)
    ensures stop.None? ==> n' == n + 1 && pressed' == pressed + [Chosen(round).value]
    ensures stop.Some? ==> stop.value == StopOf(round)
    ensures stop.Some? && ClickedBeforeStop(round) ==> n' == n + 1 && pressed' == pressed + [Chosen(round).value]
    ensures stop.Some? && !ClickedBeforeStop(round) ==> n' == n && pressed' == pressed
  {
    n', pressed' := n, pressed;
    var button := Chosen(round);
    if button.None? {
      return n', pressed', Some(StopOf(round));
    }
    var after := round.after;
    if after == ClickThrew {
      return n', pressed', Some(Error);
    }
    pressed' := pressed + [button.value];
    n' := n + 1;
    if after == WaitThrew {
      return n', pressed', Some(Error);
    }
    if !after.stillVisible || !after.stillEnabled {
      return n', pressed', Some(ButtonGone);
    }
    stop := None;
  }

  /**
   * `automateLoadMore` as written: while fewer than fifty clicks, pick a ready button, click it,
   * count it, and stop when it is gone or disabled; no ready button or any error also stops.
   */
  method LoadMore(rounds: nat -> Round) returns (r: LoadReport)
    ensures r == LoadFrom(rounds, 0)
  {
    var clickCount := 0;
    var pressed: seq<Button> := [];
    while clickCount < MaxClicks
      invariant 0 <= clickCount <= MaxClicks
      invariant LoadFrom(rounds, 0) == Prepend(pressed, LoadFrom(rounds, clickCount))
      decreases MaxClicks - clickCount
    {
      var n, p, stop := LoadRound(rounds(clickCount), clickCount, pressed);
      if stop.Some? {
        LoadEnds(rounds, clickCount, pressed);
        return LoadReport(n, p, stop.value);
      }
      LoadGoesOn(rounds, clickCount, pressed);
      clickCount, pressed := n, p;
    }
    r := LoadReport(clickCount, pressed, Limit);
  }

  /** A round after which the loop goes on moves its press in front of the rounds after it. */
  lemma {:induction false} LoadGoesOn(rounds: nat -> Round, n: nat, pressed: seq<Button>)
    requires n < MaxClicks && Continues(rounds(n))
    ensures Prepend(pressed, LoadFrom(rounds, n))
         == Prepend(pressed + [Chosen(rounds(n)).value], LoadFrom(rounds, n + 1))
  {
    LoadContinues(rounds, n);
    var rest := LoadFrom(rounds, n + 1);
    assert pressed + ([Chosen(rounds(n)).value] + rest.pressed) == (pressed + [Chosen(rounds(n)).value]) + rest.pressed;
  }

  /** A round that ends the loop: the report is the presses so far and the round's own, if counted. */
  lemma {:induction false} LoadEnds(rounds: nat -> Round, n: nat, pressed: seq<Button>)
    requires n < MaxClicks && !Continues(rounds(n))
    ensures Prepend(pressed, LoadFrom(rounds, n))
         == if ClickedBeforeStop(rounds(n))
            then LoadReport(n + 1, pressed + [Chosen(rounds(n)).value], StopOf(rounds(n)))
            else LoadReport(n, pressed, StopOf(rounds(n)))
  {
    LoadStops(rounds, n);
  }

  /** A round after which the loop goes on adds its press to those of the rounds after it. */
  lemma {:induction false} LoadContinues(rounds: nat -> Round, n: nat)
    requires n < MaxClicks && Continues(rounds(n))
    ensures var rest := LoadFrom(rounds, n + 1);
      LoadFrom(rounds, n) == LoadReport(rest.clicks, [Chosen(rounds(n)).value] + rest.pressed, rest.stop)
  {
  }

  /** A round that ends the loop: it counts its press when the click went through. */
  lemma {:induction false} LoadStops(rounds: nat -> Round, n: nat)
    requires n < MaxClicks && !Continues(rounds(n))
    ensures LoadFrom(rounds, n) == if ClickedBeforeStop(rounds(n))
                                   then LoadReport(n + 1, [Chosen(rounds(n)).value], StopOf(rounds(n)))
                                   else LoadReport(n, [], StopOf(rounds(n)))
  {
  }

  /** Round `k` is the first from `n` on that does not continue. */
  predicate StopsAt(rounds: nat -> Round, n: nat, k: nat) {
    n <= k < MaxClicks && !Continues(rounds(k)) && forall j :: n <= j < k ==> Continues(rounds(j))
  }

  /** The click count of a loop that stopped at round `k`. */
  function ClicksAt(rounds: nat -> Round, k: nat): nat {
    if ClickedBeforeStop(rounds(k)) then k + 1 else k
  }

  /**
   * The loop clicks at most fifty times; it reaches the limit exactly when every one of the
   * fifty rounds clicked a button that stayed; otherwise the round at which it stopped is the
   * first that did not continue.
   */
  lemma {:induction false} LoadBounds(rounds: nat -> Round, n: nat)
    requires n <= MaxClicks
    ensures var r := LoadFrom(rounds, n);
      && (r.stop == Limit <==> r.clicks == MaxClicks && forall k :: n <= k < MaxClicks ==> Continues(rounds(k)))
      && (r.stop != Limit ==> exists k :: StopsAt(rounds, n, k) && r.stop == StopOf(rounds(k)) && r.clicks == ClicksAt(rounds, k))
    decreases MaxClicks - n
  {
    if n < MaxClicks {
      var round := rounds(n);
      if Continues(round) {
        LoadBounds(rounds, n + 1);
      } else {
        assert StopsAt(rounds, n, n);
      }
    }
  }

  /** Each press is the button its round chose, the primary one whenever it was ready. */
  lemma {:induction false} LoadPresses(rounds: nat -> Round, n: nat)
    requires n <= MaxClicks
    ensures forall i :: 0 <= i < |LoadFrom(rounds, n).pressed| ==>
              Chosen(rounds(n + i)) == Some(LoadFrom(rounds, n).pressed[i])
    decreases MaxClicks - n
  {
    if n < MaxClicks && Continues(rounds(n)) {
      LoadPresses(rounds, n + 1);
      var rest := LoadFrom(rounds, n + 1);
      var r := LoadFrom(rounds, n);
      assert r.pressed == [Chosen(rounds(n)).value] + rest.pressed;
      forall i | 1 <= i < |r.pressed|
        ensures Chosen(rounds(n + i)) == Some(r.pressed[i])
      {
        var j := i - 1;
        assert 0 <= j < |rest.pressed|;
        assert Chosen(rounds((n + 1) + j)) == Some(rest.pressed[j]);
        assert r.pressed[i] == rest.pressed[j];
      }
    }
  }
}

=== FILE: members.dfy ===
/**
 * The member record both extraction tiers produce, the two ways they split a display name into
 * first, middle and last parts, and the page-text patterns they match, taken as parameters.
 */
module Members {
  import opened Wrappers
  import opened Text

  /**
   * One member as stored in `searchDetails`. The fields the scraper always leaves empty or null
   * (member type, specialties, special conditions, specialisation, longitude, latitude) are omitted.
   */
  datatype Member = Member(
    name: string,
    preferredName: string,
    firstName: string,
    middleName: string,
    lastName: string,
    company: string,
    businessAddress: string,
    phone: string,
    email: string,
    companyWebsite: Option<string>,
    designation: string)

  /**
   * The regular expressions of the extraction code, as functions from a text to its first match.
   * `email`, `phone` and `website` give the matched text (or its first capture group);
   * `nameShaped` says whether a whole line has the shape of a personal name; `designation` is the
   * structured tier's word-bounded designation pattern.
   */
  datatype Matchers = Matchers(
    email: string -> Option<string>,
    phone: string -> Option<string>,
    website: string -> Option<string>,
    nameShaped: string -> bool,
    designation: string -> Option<string>)

  /** The designations the structured tier's pattern can capture. */
  const DesignationWords: set<string> := {"CA", "CPA", "FCCA", "ACCA", "CTA"}

  /**
   * What the patterns guarantee about their matches: every pattern needs at least one character,
   * and the designation pattern can only capture one of its alternatives.
   */
  ghost predicate Sound(m: Matchers) {
    && (forall s :: m.email(s).Some? ==> m.email(s).value != [])
    && (forall s :: m.phone(s).Some? ==> m.phone(s).value != [])
    && (forall s :: m.website(s).Some? ==> m.website(s).value != [])
    && (forall s :: m.designation(s).Some? ==> m.designation(s).value in DesignationWords)
  }

  /** JavaScript truthiness of a string-or-null field. */
  predicate Truthy(o: Option<string>) {
    o.Some? && o.value != []
  }

  /* ---------------------------------------------------------------------------
   * Name splitting
   * ------------------------------------------------------------------------- */

  datatype NameParts = NameParts(first: string, middle: string, last: string)

  /**
   * The structured tier's split: the first token (or empty), the last token (or empty) and, with
   * more than two tokens, the interior ones joined by single spaces. A one-token name is both the
   * first and the last name.
   */
  function SplitStructured(name: string): (p: NameParts)
    ensures ' ' !in p.first && ' ' !in p.last
    ensures p.first == [] <==> Words(name) == []
    ensures p.middle != [] ==> |Words(name)| > 2
  {
    var parts := Words(name);
    var first := if |parts| > 0 then parts[0] else "";
    var last := if |parts| > 0 then parts[|parts| - 1] else "";
    var middle := if |parts| > 2 then Join(parts[1..|parts| - 1], ' ') else "";
    NameParts(first, middle, last)
  }

  /**
   * The text tier's split: only a name of at least two tokens is split, and then into the same
   * parts as the structured tier's split.
   */
  function SplitText(name: string): (r: Option<NameParts>)
    ensures r.Some? <==> |Words(name)| >= 2
    ensures r.Some? ==> r.value == SplitStructured(name) && r.value.first != []
  {
    var parts := Words(name);
    if |parts| >= 2 then
      var middle := if |parts| > 2 then Join(parts[1..|parts| - 1], ' ') else "";
      Some(NameParts(parts[0], middle, parts[|parts| - 1]))
    else
      None
  }

  lemma {:induction false} WordsOfEmpty()
    ensures Words("") == []
  {
    assert Split("", ' ') == [[]];
  }

  /**
   * The parts recover the tokens: first, then the tokens of the middle part, then last. One token
   * is reported as both first and last name; no token leaves every part empty.
   */
  lemma {:induction false} SplitRecovers(name: string)
    ensures var w, p := Words(name), SplitStructured(name);
      && (|w| >= 2 ==> w == [p.first] + Words(p.middle) + [p.last])
      && (|w| == 1 ==> p == NameParts(w[0], "", w[0]))
      && (|w| == 0 ==> p == NameParts("", "", ""))
  {
    var w := Words(name);
    if |w| > 2 {
      TokensAround(w);
    } else if |w| == 2 {
      WordsOfEmpty();
      assert w == [w[0]] + [] + [w[1]];
    }
  }

  /** More than two tokens are the first, the tokens of the interior joined by spaces, and the last. */
  lemma {:induction false} TokensAround(w: seq<string>)
    requires |w| > 2 && forall k :: 0 <= k < |w| ==> w[k] != [] && ' ' !in w[k]
    ensures w == [w[0]] + Words(Join(w[1..|w| - 1], ' ')) + [w[|w| - 1]]
  {
    var inner := w[1..|w| - 1];
    WordsOfJoin(inner);
    assert w == [w[0]] + inner + [w[|w| - 1]];
  }
}

=== FILE: orchestrator.dfy ===
/**
 * The run over many postcodes: the result of one postcode search, where the run resumes, the
 * loop that searches each postcode in turn, and the final aggregate of all results. What the
 * browser does is a parameter: per postcode, whether resetting the form throws, what the search
 * sees, and whether the pause before the next postcode throws.
 */
module Orchestrator {
  import opened Wrappers
  import opened Members
  import opened Containers
  import TextScan
  import Postcodes
  import Driver

  /* ---------------------------------------------------------------------------
   * One postcode search
   * ------------------------------------------------------------------------- */

  /** What `searchPostcode` returns; `error` is present only on the error path. */
  datatype SearchResult = SearchResult(postcode: string, totalCount: nat, members: seq<Member>, error: Option<string>)

  /**
   * What one search meets: the message of an exception thrown before extraction completes
   * (filling the form, starting the search, the pause after the Load More loop, reading the
   * page), if any; and the results page as the extraction sees it.
   */
  datatype SearchEnv = SearchEnv(thrown: Option<string>, page: Page)

  /** The message of the `TypeError` raised by reading `totalCount` of `undefined`. */
  const UndefinedTotalCount: string := "Cannot read properties of undefined (reading 'totalCount')"

  /** The result recorded for a postcode whose search or loop step threw `message`. */
  function ErrorResult(postcode: string, message: string): SearchResult {
    SearchResult(postcode, 0, [], Some(message))
  }

  /**
   * `searchPostcode` as written: after a structured extraction `extractMemberData` returns
   * nothing, so reading its `totalCount` throws and the postcode is reported as an error.
   */
  function SearchPostcodeAsWritten(m: Matchers, postcode: string, env: SearchEnv): (r: SearchResult)
    ensures r.postcode == postcode
    ensures r.error.Some? ==> r.totalCount == 0 && r.members == []
    ensures r.error.None? ==> r.totalCount == |r.members|
    ensures env.thrown.None? ==> (r.error.None? <==> !StructuredApplies(m, env.page))
  {
    match env.thrown
    case Some(message) => ErrorResult(postcode, message)
    case None =>
      match ExtractionOf(m, env.page)
      case Structured(_) => ErrorResult(postcode, UndefinedTotalCount)
      case Textual(count, members) => SearchResult(postcode, count, members, None)
  }

  /**
   * `searchPostcode` as evidently intended: either tier's members are returned with their count;
   * only an exception makes the result an error.
   */
  function SearchPostcode(m: Matchers, postcode: string, env: SearchEnv): (r: SearchResult)
    ensures r.postcode == postcode
    ensures r.error.None? <==> env.thrown.None?
    ensures r.error.Some? ==> r.totalCount == 0 && r.members == [] && r.error == env.thrown
    ensures r.error.None? ==> r.totalCount == |r.members|
    ensures r.error.None? && StructuredApplies(m, env.page) ==> r.members == ExtractFromContainers(m, env.page)
    ensures r.error.None? && !StructuredApplies(m, env.page) ==>
              r.members == TextScan.Collect(m, TextScan.PageLines(env.page.innerText), 0)
  {
    match env.thrown
    case Some(message) => ErrorResult(postcode, message)
    case None =>
      match ExtractionOf(m, env.page)
      case Structured(members) => SearchResult(postcode, |members|, members, None)
      case Textual(count, members) => SearchResult(postcode, count, members, None)
  }

  /**
   * As written, a search whose page the structured tier answers loses its members: the result
   * is an error with no members although the containers yielded some.
   */
  lemma {:induction false} StructuredResultLost(m: Matchers, postcode: string, env: SearchEnv)
    requires env.thrown.None? && StructuredApplies(m, env.page)
    ensures SearchPostcodeAsWritten(m, postcode, env) == ErrorResult(postcode, UndefinedTotalCount)
    ensures SearchPostcode(m, postcode, env).members == ExtractFromContainers(m, env.page) != []
  {
  }

  /** Off the structured path the two versions agree. */
  lemma {:induction false} SearchVersionsAgree(m: Matchers, postcode: string, env: SearchEnv)
    requires env.thrown.Some? || !StructuredApplies(m, env.page)
    ensures SearchPostcodeAsWritten(m, postcode, env) == SearchPostcode(m, postcode, env)
  {
  }

  /** A page the structured tier answers: one `.member-card` whose text is an email address. */
  function WitnessPage(): Page {
    Page(map[".member-card" := [Element("a@b.au", map[], None)]], "")
  }

  /** Patterns under which only the text `a@b.au` holds an email address. */
  function WitnessMatchers(): Matchers {
    Matchers(s => if s == "a@b.au" then Some(s) else None, s => None, s => None, s => false, s => None)
  }

  /** The structured path is reachable, so the lost result is not a vacuous case. */
  lemma {:induction false} StructuredPathReachable()
    ensures StructuredApplies(WitnessMatchers(), WitnessPage())
    ensures SearchPostcodeAsWritten(WitnessMatchers(), "2000", SearchEnv(None, WitnessPage())).error
            == Some(UndefinedTotalCount)
  {
    var m, page := WitnessMatchers(), WitnessPage();
    var el := Element("a@b.au", map[], None);
    assert Select(page, ProbeSelectors[0]) == [el];
    assert StructuredMember(m, el).Some?;
    assert FromElements(m, [el]) != [];
    assert Group(m, page, ContainerSelectors[0]) != [];
  }

  /* ---------------------------------------------------------------------------
   * Where the run starts
   * ------------------------------------------------------------------------- */

  /** `Array.prototype.indexOf` with strict equality: the first position of `x`, or -1. */
  function IndexOf(list: seq<string>, x: string): (i: int)
    ensures i == -1 <==> x !in list
    ensures i >= -1
    ensures 0 <= i ==> i < |list| && list[i] == x && x !in list[..i]
  {
    if list == [] then -1
    else if list[0] == x then 0
    else
      var j := IndexOf(list[1..], x);
      assert list == [list[0]] + list[1..];
      if j == -1 then -1
      else
        assert list[..j + 1] == [list[0]] + list[1..][..j];
        j + 1
  }

  /** The postcodes to process: the caller's list when given (even an empty one), else the catalogue. */
  function PostcodeList(postcodes: Option<seq<string>>): (list: seq<string>)
    ensures postcodes.Some? ==> list == postcodes.value
    ensures postcodes.None? ==> list == Postcodes.AllPostcodes()
  {
    match postcodes
    case Some(list) => list
    case None => Postcodes.AllPostcodes()
  }

  /**
   * `startIndex`: the first position of a non-empty `resumeFrom` in the list; the beginning when
   * `resumeFrom` is absent, empty or not in the list.
   */
  function ResumeIndex(list: seq<string>, resumeFrom: Option<string>): (start: nat)
    ensures start == 0 || start < |list|
    ensures Truthy(resumeFrom) && resumeFrom.value in list ==>
              list[start] == resumeFrom.value && resumeFrom.value !in list[..start]
    ensures !(Truthy(resumeFrom) && resumeFrom.value in list) ==> start == 0
  {
    if Truthy(resumeFrom) then
      var i := IndexOf(list, resumeFrom.value);
      if i == -1 then 0 else i
    else
      0
  }

  /* ---------------------------------------------------------------------------
   * The per-postcode loop
   * ------------------------------------------------------------------------- */

  /**
   * What the loop meets at one position: the message thrown by resetting the form (only tried
   * after the first postcode of the run), the search's environment, and the message thrown by
   * the pause before the next postcode (only taken when a next postcode exists).
   */
  datatype Turn = Turn(resetError: Option<string>, search: SearchEnv, delayError: Option<string>)

  /** A search of one postcode: `searchPostcode` as written or as intended, for a fixed set of patterns. */
  type Search = (string, SearchEnv) -> SearchResult

  /** Whether position `i` reaches its search: the first position, or one whose reset succeeded. */
  predicate Searched(start: nat, i: nat, t: Turn) {
    !(i > start && t.resetError.Some?)
  }

  /** The result the loop records for position `i`: the reset's error, or the search's result. */
  function Outcome(search: Search, list: seq<string>, start: nat, i: nat, t: Turn): SearchResult
    requires i < |list|
  {
    if Searched(start, i, t) then search(list[i], t.search)
    else ErrorResult(list[i], t.resetError.value)
  }

  /**
   * The loop body as written: the search's result is pushed before the pause, so a pause that
   * throws makes the `catch` push a second, failed result for the same postcode.
   */
  function StepAsWritten(search: Search, list: seq<string>, start: nat, i: nat, t: Turn): (r: seq<SearchResult>)
    requires i < |list|
    ensures 1 <= |r| <= 2 && r[0] == Outcome(search, list, start, i, t)
    ensures |r| == 2 <==> Searched(start, i, t) && i < |list| - 1 && t.delayError.Some?
    ensures |r| == 2 ==> r[1] == ErrorResult(list[i], t.delayError.value)
  {
    var r := Outcome(search, list, start, i, t);
    if Searched(start, i, t) && i < |list| - 1 && t.delayError.Some? then
      [r, ErrorResult(list[i], t.delayError.value)]
    else
      [r]
  }

  /** The results the loop as written has recorded once it has visited positions `start..i-1`. */
  function RunAsWritten(search: Search, list: seq<string>, start: nat, i: nat, turns: nat -> Turn): (r: seq<SearchResult>)
    requires i <= |list|
    ensures i <= start ==> r == []
    ensures start <= i ==> |r| >= i - start
  {
    if i <= start then []
    else RunAsWritten(search, list, start, i - 1, turns) + StepAsWritten(search, list, start, i - 1, turns(i - 1))
  }

  /** The number of positions in `start..i-1` whose pause throws after a search. */
  function PauseFailures(list: seq<string>, start: nat, i: nat, turns: nat -> Turn): nat {
    if i <= start then 0
    else
      var t := turns(i - 1);
      PauseFailures(list, start, i - 1, turns) + (if Searched(start, i - 1, t) && i - 1 < |list| - 1 && t.delayError.Some? then 1 else 0)
  }

  /** As written, the loop records one result per position plus one per failed pause. */
  lemma {:induction false} RunAsWrittenLength(search: Search, list: seq<string>, start: nat, i: nat, turns: nat -> Turn)
    requires start <= i <= |list|
    ensures |RunAsWritten(search, list, start, i, turns)| == i - start + PauseFailures(list, start, i, turns)
  {
    if i > start {
      RunAsWrittenLength(search, list, start, i - 1, turns);
    }
  }

  /** What the loop as written records up to one position stays at the front of what it records later. */
  lemma {:induction false} RunAsWrittenPrefix(search: Search, list: seq<string>, start: nat, i: nat, n: nat, turns: nat -> Turn)
    requires i <= n <= |list|
    ensures RunAsWritten(search, list, start, i, turns) <= RunAsWritten(search, list, start, n, turns)
    decreases n
  {
    if i < n {
      RunAsWrittenPrefix(search, list, start, i, n - 1, turns);
    }
  }

  /**
   * As written, a failed pause after a searched postcode records that postcode twice in the
   * run's results: its search's result and right after it an error carrying the pause's message.
   */
  lemma {:induction false} PauseFailureDuplicates(search: Search, list: seq<string>, start: nat, i: nat, turns: nat -> Turn)
    requires start <= i < |list| - 1 && Searched(start, i, turns(i)) && turns(i).delayError.Some?
    ensures var rs, j := RunAsWritten(search, list, start, |list|, turns), |RunAsWritten(search, list, start, i, turns)|;
      && j + 1 < |rs|
      && rs[j] == search(list[i], turns(i).search)
      && rs[j + 1] == ErrorResult(list[i], turns(i).delayError.value)
  {
    var before := RunAsWritten(search, list, start, i, turns);
    var upTo := RunAsWritten(search, list, start, i + 1, turns);
    assert upTo == before + [search(list[i], turns(i).search), ErrorResult(list[i], turns(i).delayError.value)];
    RunAsWrittenPrefix(search, list, start, i + 1, |list|, turns);
  }

  /** The results the intended loop has recorded once it has visited positions `start..i-1`. */
  function Run(search: Search, list: seq<string>, start: nat, i: nat, turns: nat -> Turn): (rs: seq<SearchResult>)
    requires i <= |list|
    ensures |rs| == if start <= i then i - start else 0
  {
    if i <= start then []
    else Run(search, list, start, i - 1, turns) + [Outcome(search, list, start, i - 1, turns(i - 1))]
  }

  /** The intended loop records, at offset `k`, the outcome of position `start + k`. */
  lemma {:induction false} RunPositions(search: Search, list: seq<string>, start: nat, i: nat, turns: nat -> Turn)
    requires i <= |list|
    ensures forall k :: 0 <= k < |Run(search, list, start, i, turns)| ==>
              Run(search, list, start, i, turns)[k] == Outcome(search, list, start, start + k, turns(start + k))
  {
    if i > start {
      RunPositions(search, list, start, i - 1, turns);
      var rs := Run(search, list, start, i, turns);
      assert forall k :: 0 <= k < |rs| - 1 ==> rs[k] == Run(search, list, start, i - 1, turns)[k];
    }
  }

  /**
   * With a search that keeps the postcode, the intended loop records exactly the postcodes from
   * the starting position, in order.
   */
  lemma {:induction false} RunPostcodes(search: Search, list: seq<string>, start: nat, turns: nat -> Turn)
    requires start <= |list|
    requires forall p, env :: search(p, env).postcode == p
    ensures var rs := Run(search, list, start, |list|, turns);
      |rs| == |list| - start && forall k :: 0 <= k < |rs| ==> rs[k].postcode == list[start + k]
  {
    RunPositions(search, list, start, |list|, turns);
  }

  /**
   * Where every pause succeeds and both searches agree, the loop as written records what was
   * intended.
   */
  lemma {:induction false} RunVersionsAgree(written: Search, intended: Search, list: seq<string>, start: nat, i: nat,
                                            turns: nat -> Turn)
    requires i <= |list|
    requires forall j :: start <= j < i ==>
               turns(j).delayError.None? && written(list[j], turns(j).search) == intended(list[j], turns(j).search)
    ensures RunAsWritten(written, list, start, i, turns) == Run(intended, list, start, i, turns)
  {
    if i > start {
      assert StepAsWritten(written, list, start, i - 1, turns(i - 1)) == [Outcome(intended, list, start, i - 1, turns(i - 1))];
      RunVersionsAgree(written, intended, list, start, i - 1, turns);
    }
  }

  /** The sum of the results' `totalCount`s, in loop order. */
  function SumCounts(rs: seq<SearchResult>): nat {
    if rs == [] then 0 else SumCounts(rs[..|rs| - 1]) + rs[|rs| - 1].totalCount
  }

  /** The number of positions in `start..i` whose search was reached. */
  function SearchedCount(start: nat, i: nat, turns: nat -> Turn): (n: nat)
    ensures start <= i ==> n <= i - start
    decreases i
  {
    if i <= start then 0
    else SearchedCount(start, i - 1, turns) + (if Searched(start, i - 1, turns(i - 1)) then 1 else 0)
  }

  /** Every position up to `i` is searched when no reset throws. */
  lemma {:induction false} AllSearched(start: nat, i: nat, turns: nat -> Turn)
    requires start <= i
    requires forall j :: start < j < i ==> turns(j).resetError.None?
    ensures SearchedCount(start, i, turns) == i - start
    decreases i
  {
    if i > start {
      AllSearched(start, i - 1, turns);
    }
  }

  /** One iteration of the intended loop: reset unless first, then search. */
  method Visit(search: Search, list: seq<string>, start: nat, i: nat, t: Turn) returns (r: SearchResult, searched: bool)
    requires start <= i < |list|
    ensures r == Outcome(search, list, start, i, t)
    ensures searched <==> Searched(start, i, t)
  {
    if i > start && t.resetError.Some? {
      return ErrorResult(list[i], t.resetError.value), false;
    }
    r := search(list[i], t.search);
    searched := true;
  }

  /**
   * The loop of `scrapeAllPostcodes` as intended: one result per position from `start`, in
   * order; `processedCount` counts the positions whose search was reached, and `totalMembers`
   * adds up the recorded counts.
   */
  method RunLoop(search: Search, list: seq<string>, start: nat, turns: nat -> Turn)
      returns (results: seq<SearchResult>, processedCount: nat, totalMembers: nat)
    requires start <= |list|
    ensures results == Run(search, list, start, |list|, turns)
    ensures processedCount == SearchedCount(start, |list|, turns) <= |results|
    ensures totalMembers == SumCounts(results)
  {
    results, processedCount, totalMembers := [], 0, 0;
    var i := start;
    while i < |list|
      invariant start <= i <= |list|
      invariant results == Run(search, list, start, i, turns)
      invariant processedCount == SearchedCount(start, i, turns)
      invariant totalMembers == SumCounts(results)
    {
      var r, searched := Visit(search, list, start, i, turns(i));
      assert (results + [r])[..|results|] == results;
      results := results + [r];
      if searched {
        processedCount := processedCount + 1;
      }
      totalMembers := totalMembers + r.totalCount;
      i := i + 1;
    }
  }

  /* ---------------------------------------------------------------------------
   * The final aggregate
   * ------------------------------------------------------------------------- */

  /** `result.error` is truthy: present and non-empty. An empty message counts as success. */
  predicate IsFailed(r: SearchResult) {
    Truthy(r.error)
  }

  datatype Status = Succeeded | Failed

  /** One entry of `postcode_summary`. */
  datatype PostcodeSummary = PostcodeSummary(
    postcode: string,
    memberCount: nat,
    state: Option<Postcodes.State>,
    status: Status,
    error: Option<string>)

  /** The `summary` block, without the completion timestamp and the constant status. */
  datatype Summary = Summary(processed: nat, successful: nat, failed: nat, totalMembers: nat)

  datatype FinalOutput = FinalOutput(summary: Summary, postcodeSummary: seq<PostcodeSummary>, allMembers: seq<Member>)

  /**
   * The summary entry of one result: its state as `stateOf` (the catalogue's `getState`) gives it,
   * failed iff its error is truthy, and the error only then.
   */
  function Summarize(r: SearchResult, stateOf: string -> Option<Postcodes.State>): (s: PostcodeSummary)
    ensures s.postcode == r.postcode && s.memberCount == r.totalCount
    ensures s.status == Failed <==> IsFailed(r)
    ensures s.error.Some? <==> IsFailed(r)
    ensures s.error.Some? ==> s.error == r.error
  {
    PostcodeSummary(r.postcode, r.totalCount, stateOf(r.postcode),
                    if IsFailed(r) then Failed else Succeeded,
                    if IsFailed(r) then r.error else None)
  }

  /** With the catalogue's lookup, an entry has no state exactly when its postcode is not valid. */
  lemma {:induction false} SummaryState(r: SearchResult)
    ensures Summarize(r, Postcodes.GetState).state.None? <==> !Postcodes.IsValid(r.postcode)
  {
  }

  /** The results that did not fail, in order. */
  function Successes(rs: seq<SearchResult>): (s: seq<SearchResult>)
    ensures |s| <= |rs|
    ensures forall k :: 0 <= k < |s| ==> !IsFailed(s[k])
  {
    if rs == [] then []
    else
      var last := rs[|rs| - 1];
      Successes(rs[..|rs| - 1]) + (if IsFailed(last) then [] else [last])
  }

  /** The results that failed, in order. */
  function Failures(rs: seq<SearchResult>): (s: seq<SearchResult>)
    ensures forall k :: 0 <= k < |s| ==> IsFailed(s[k])
  {
    if rs == [] then []
    else
      var last := rs[|rs| - 1];
      Failures(rs[..|rs| - 1]) + (if IsFailed(last) then [last] else [])
  }

  /** Every result is either a success or a failure. */
  lemma {:induction false} SuccessesAndFailures(rs: seq<SearchResult>)
    ensures |Successes(rs)| + |Failures(rs)| == |rs|
  {
    if rs != [] {
      SuccessesAndFailures(rs[..|rs| - 1]);
    }
  }

  /** The members of `rs`, one result after the other. */
  function MembersOf(rs: seq<SearchResult>): seq<Member> {
    if rs == [] then [] else MembersOf(rs[..|rs| - 1]) + rs[|rs| - 1].members
  }

  /** Appending a result to the list of results. */
  lemma {:induction false} Snoc(rs: seq<SearchResult>, r: SearchResult)
    ensures Successes(rs + [r]) == Successes(rs) + (if IsFailed(r) then [] else [r])
    ensures Failures(rs + [r]) == Failures(rs) + (if IsFailed(r) then [r] else [])
    ensures SumCounts(rs + [r]) == SumCounts(rs) + r.totalCount
    ensures MembersOf(rs + [r]) == MembersOf(rs) + r.members
  {
    assert (rs + [r])[..|rs|] == rs;
  }

  /** The running totals of `saveFinalResults`. */
  datatype Totals = Totals(successful: nat, failed: nat, totalMembers: nat, allMembers: seq<Member>)

  /** Whether `t` holds the totals of the results `rs`. */
  predicate TotalsOf(t: Totals, rs: seq<SearchResult>) {
    && t.successful == |Successes(rs)|
    && t.failed == |Failures(rs)|
    && t.totalMembers == SumCounts(Successes(rs))
    && t.allMembers == MembersOf(Successes(rs))
  }

  /** One iteration of the aggregation: a failure is counted; a success is counted and its members kept. */
  function Tally(t: Totals, r: SearchResult): Totals {
    if IsFailed(r) then t.(failed := t.failed + 1)
    else Totals(t.successful + 1, t.failed, t.totalMembers + r.totalCount, t.allMembers + r.members)
  }

  /** Tallying the next result keeps the totals those of the results so far. */
  lemma {:induction false} TallyTracks(t: Totals, rs: seq<SearchResult>, r: SearchResult)
    requires TotalsOf(t, rs)
    ensures TotalsOf(Tally(t, r), rs + [r])
  {
    Snoc(rs, r);
    if IsFailed(r) {
      FailedTallied(t, rs, r);
    } else {
      SucceededTallied(t, rs, r);
    }
  }

  lemma {:induction false} FailedTallied(t: Totals, rs: seq<SearchResult>, r: SearchResult)
    requires TotalsOf(t, rs) && IsFailed(r)
    requires Successes(rs + [r]) == Successes(rs) && Failures(rs + [r]) == Failures(rs) + [r]
    ensures TotalsOf(Tally(t, r), rs + [r])
  {
  }

  lemma {:induction false} SucceededTallied(t: Totals, rs: seq<SearchResult>, r: SearchResult)
    requires TotalsOf(t, rs) && !IsFailed(r)
    requires Successes(rs + [r]) == Successes(rs) + [r] && Failures(rs + [r]) == Failures(rs)
    ensures TotalsOf(Tally(t, r), rs + [r])
  {
    Snoc(Successes(rs), r);
  }

  /**
   * `saveFinalResults`: one summary entry per result in order; a result counts as failed iff its
   * error is truthy; the successful results' members are concatenated in order and their counts
   * added up.
   */
  method SaveFinalResults(results: seq<SearchResult>, stateOf: string -> Option<Postcodes.State>)
      returns (out: FinalOutput)
    ensures out.summary.processed == |results|
    ensures out.summary.successful == |Successes(results)|
    ensures out.summary.failed == |Failures(results)|
    ensures out.summary.totalMembers == SumCounts(Successes(results))
    ensures out.allMembers == MembersOf(Successes(results))
    ensures |out.postcodeSummary| == |results|
    ensures forall k :: 0 <= k < |results| ==> out.postcodeSummary[k] == Summarize(results[k], stateOf)
  {
    var totals := Totals(0, 0, 0, []);
    var summaries: seq<PostcodeSummary> := [];
    for i := 0 to |results|
      invariant TotalsOf(totals, results[..i])
      invariant |summaries| == i
      invariant forall k :: 0 <= k < i ==> summaries[k] == Summarize(results[k], stateOf)
    {
      var r := results[i];
      assert results[..i + 1] == results[..i] + [r];
      TallyTracks(totals, results[..i], r);
      totals := Tally(totals, r);
      summaries := summaries + [Summarize(r, stateOf)];
    }
    assert results[..|results|] == results;
    out := FinalOutput(Summary(|results|, totals.successful, totals.failed, totals.totalMembers),
                       summaries, totals.allMembers);
  }

  /** Dropping the failed results does not change the sum when failed results count nothing. */
  lemma {:induction false} SuccessCounts(rs: seq<SearchResult>)
    requires forall k :: 0 <= k < |rs| && rs[k].error.Some? ==> rs[k].totalCount == 0
    ensures SumCounts(Successes(rs)) == SumCounts(rs)
  {
    if rs != [] {
      var init, last := rs[..|rs| - 1], rs[|rs| - 1];
      assert rs == init + [last];
      assert forall k :: 0 <= k < |init| ==> init[k] == rs[k];
      SuccessCounts(init);
      Snoc(init, last);
      if IsFailed(last) {
        assert Successes(rs) == Successes(init);
        assert last.totalCount == 0;
      } else {
        Snoc(Successes(init), last);
      }
    }
  }

  /** Each result's count is the number of its members, and an error result has none. */
  predicate Accounted(rs: seq<SearchResult>) {
    forall k :: 0 <= k < |rs| ==> rs[k].totalCount == |rs[k].members| && (rs[k].error.Some? ==> rs[k].totalCount == 0)
  }

  /** A search whose every result is accounted. */
  ghost predicate AccountedSearch(search: Search) {
    forall p, env :: search(p, env).totalCount == |search(p, env).members| &&
                     (search(p, env).error.Some? ==> search(p, env).totalCount == 0)
  }

  /** Both versions of `searchPostcode` report as many members as they return, and none on an error. */
  lemma SearchesAccounted(m: Matchers)
    ensures AccountedSearch((p, env) => SearchPostcode(m, p, env))
    ensures AccountedSearch((p, env) => SearchPostcodeAsWritten(m, p, env))
  {
  }

  lemma AccountedAppend(a: seq<SearchResult>, b: seq<SearchResult>)
    requires Accounted(a) && Accounted(b)
    ensures Accounted(a + b)
  {
    assert forall k :: |a| <= k < |a + b| ==> (a + b)[k] == b[k - |a|];
  }

  /** With an accounted search, the intended loop records accounted results. */
  lemma {:induction false} RunAccounted(search: Search, list: seq<string>, start: nat, i: nat, turns: nat -> Turn)
    requires i <= |list| && AccountedSearch(search)
    ensures Accounted(Run(search, list, start, i, turns))
  {
    if i > start {
      RunAccounted(search, list, start, i - 1, turns);
      AccountedAppend(Run(search, list, start, i - 1, turns), [Outcome(search, list, start, i - 1, turns(i - 1))]);
    }
  }

  /** With an accounted search, the loop as written records accounted results, its extra errors included. */
  lemma {:induction false} RunAsWrittenAccounted(search: Search, list: seq<string>, start: nat, i: nat, turns: nat -> Turn)
    requires i <= |list| && AccountedSearch(search)
    ensures Accounted(RunAsWritten(search, list, start, i, turns))
  {
    if i > start {
      RunAsWrittenAccounted(search, list, start, i - 1, turns);
      AccountedAppend(RunAsWritten(search, list, start, i - 1, turns), StepAsWritten(search, list, start, i - 1, turns(i - 1)));
    }
  }

  /**
   * For accounted results, the member total of the successful ones is the number of members
   * they contribute to `all_members`.
   */
  lemma {:induction false} TotalIsMembers(rs: seq<SearchResult>)
    requires Accounted(rs)
    ensures SumCounts(Successes(rs)) == |MembersOf(Successes(rs))|
  {
    if rs != [] {
      var init, last := rs[..|rs| - 1], rs[|rs| - 1];
      assert rs == init + [last];
      assert Accounted(init) by {
        assert forall k :: 0 <= k < |init| ==> init[k] == rs[k];
      }
      TotalIsMembers(init);
      Snoc(init, last);
      if !IsFailed(last) {
        assert Successes(rs) == Successes(init) + [last];
        Snoc(Successes(init), last);
        assert last.totalCount == |last.members| by {
          assert last == rs[|rs| - 1];
        }
      } else {
        assert Successes(rs) == Successes(init);
      }
    }
  }

  /* ---------------------------------------------------------------------------
   * The whole run
   * ------------------------------------------------------------------------- */

  /**
   * `out` is what `saveFinalResults` writes for `results`: the counts of all, successful and
   * failed results, the successful results' members and the sum of their counts, and one summary
   * entry per result.
   */
  predicate Saves(out: FinalOutput, results: seq<SearchResult>) {
    && out.summary.processed == |results|
    && out.summary.successful == |Successes(results)|
    && out.summary.failed == |Failures(results)|
    && out.summary.totalMembers == SumCounts(Successes(results))
    && out.allMembers == MembersOf(Successes(results))
    && |out.postcodeSummary| == |results|
    && forall k :: 0 <= k < |results| ==> out.postcodeSummary[k] == Summarize(results[k], Postcodes.GetState)
  }

  /** What `scrapeAllPostcodes` returns. */
  datatype RunReport = RunReport(totalPostcodes: nat, totalMembers: nat, results: seq<SearchResult>)

  /** Adding up the counts of two runs of results one after the other. */
  lemma {:induction false} SumCountsAppend(a: seq<SearchResult>, b: seq<SearchResult>)
    ensures SumCounts(a + b) == SumCounts(a) + SumCounts(b)
    decreases |b|
  {
    if b != [] {
      var init := b[..|b| - 1];
      assert a + b == (a + init) + [b[|b| - 1]];
      SumCountsAppend(a, init);
      Snoc(a + init, b[|b| - 1]);
      Snoc(init, b[|b| - 1]);
      assert b == init + [b[|b| - 1]];
    } else {
      assert a + b == a;
    }
  }

  /**
   * One iteration of the loop as written: the reset's error, or the search's result followed by
   * an error when the pause after it throws; `count` is what the iteration adds to the total.
   */
  method VisitAsWritten(search: Search, list: seq<string>, start: nat, i: nat, t: Turn)
      returns (step: seq<SearchResult>, searched: bool, count: nat)
    requires start <= i < |list|
    ensures step == StepAsWritten(search, list, start, i, t)
    ensures searched <==> Searched(start, i, t)
    ensures searched ==> count == search(list[i], t.search).totalCount
    ensures count == SumCounts(step)
  {
    if i > start && t.resetError.Some? {
      step, searched, count := [ErrorResult(list[i], t.resetError.value)], false, 0;
      SumCountsOne(step[0]);
      return;
    }
    var r := search(list[i], t.search);
    searched, count := true, r.totalCount;
    if i < |list| - 1 && t.delayError.Some? {
      var e := ErrorResult(list[i], t.delayError.value);
      SumCountsTwo(r, e);
      step := [r, e];
    } else {
      SumCountsOne(r);
      step := [r];
    }
  }

  lemma SumCountsOne(r: SearchResult)
    ensures SumCounts([r]) == r.totalCount
  {
    assert [r][..0] == [];
  }

  lemma SumCountsTwo(r: SearchResult, e: SearchResult)
    ensures SumCounts([r, e]) == r.totalCount + e.totalCount
  {
    assert [r, e][..1] == [r];
    SumCountsOne(r);
  }

  /** Visiting position `i` appends its step to the results, its search to the count, and its counts to the sum. */
  lemma {:induction false} RunAsWrittenStep(search: Search, list: seq<string>, start: nat, i: nat, turns: nat -> Turn)
    requires start <= i < |list|
    ensures RunAsWritten(search, list, start, i + 1, turns)
         == RunAsWritten(search, list, start, i, turns) + StepAsWritten(search, list, start, i, turns(i))
    ensures SearchedCount(start, i + 1, turns)
         == SearchedCount(start, i, turns) + (if Searched(start, i, turns(i)) then 1 else 0)
    ensures SumCounts(RunAsWritten(search, list, start, i + 1, turns))
         == SumCounts(RunAsWritten(search, list, start, i, turns)) + SumCounts(StepAsWritten(search, list, start, i, turns(i)))
  {
    SumCountsAppend(RunAsWritten(search, list, start, i, turns), StepAsWritten(search, list, start, i, turns(i)));
  }

  /** One pass of the loop as written, carrying the loop's three accumulators from `i` to `i + 1`. */
  method AdvanceAsWritten(search: Search, list: seq<string>, start: nat, i: nat, turns: nat -> Turn,
                          results: seq<SearchResult>, processedCount: nat, totalMembers: nat)
      returns (results': seq<SearchResult>, processedCount': nat, totalMembers': nat)
    requires start <= i < |list|
    requires results == RunAsWritten(search, list, start, i, turns)
    requires processedCount == SearchedCount(start, i, turns)
    requires totalMembers == SumCounts(results)
    ensures results' == RunAsWritten(search, list, start, i + 1, turns)
    ensures processedCount' == SearchedCount(start, i + 1, turns)
    ensures totalMembers' == SumCounts(results')
  {
    var step, searched, count := VisitAsWritten(search, list, start, i, turns(i));
    RunAsWrittenStep(search, list, start, i, turns);
    results' := results + step;
    processedCount' := if searched then processedCount + 1 else processedCount;
    totalMembers' := totalMembers + count;
  }

  /**
   * The loop of `scrapeAllPostcodes` as written: per position, the reset's error, or the search's
   * result followed by an error when the pause after it throws; `processedCount` counts the
   * searches, and `totalMembers` adds up their counts.
   */
  method RunLoopAsWritten(search: Search, list: seq<string>, start: nat, turns: nat -> Turn)
      returns (results: seq<SearchResult>, processedCount: nat, totalMembers: nat)
    requires start <= |list|
    ensures results == RunAsWritten(search, list, start, |list|, turns)
    ensures |results| == |list| - start + PauseFailures(list, start, |list|, turns)
    ensures processedCount == SearchedCount(start, |list|, turns)
    ensures totalMembers == SumCounts(results)
  {
    results, processedCount, totalMembers := LoopAsWritten(search, list, start, turns);
    RunAsWrittenLength(search, list, start, |list|, turns);
  }

  /** The loop of `scrapeAllPostcodes` as written, position by position from `start`. */
  method LoopAsWritten(search: Search, list: seq<string>, start: nat, turns: nat -> Turn)
      returns (results: seq<SearchResult>, processedCount: nat, totalMembers: nat)
    requires start <= |list|
    ensures results == RunAsWritten(search, list, start, |list|, turns)
    ensures processedCount == SearchedCount(start, |list|, turns)
    ensures totalMembers == SumCounts(results)
  {
    results, processedCount, totalMembers := [], 0, 0;
    var i := start;
    while i < |list|
      invariant start <= i <= |list|
      invariant results == RunAsWritten(search, list, start, i, turns)
      invariant processedCount == SearchedCount(start, i, turns)
      invariant totalMembers == SumCounts(results)
    {
      results, processedCount, totalMembers := AdvanceAsWritten(search, list, start, i, turns, results, processedCount, totalMembers);
      i := i + 1;
    }
  }

  /**
   * `scrapeAllPostcodes` as written: pick the list and the starting position, start the browser,
   * navigate, run the loop and aggregate. A failure to start the browser or to navigate is
   * rethrown; the loop itself never throws, so nothing else is. A structured page records an
   * error, and a failed pause records its postcode twice.
   */
  method ScrapeAllPostcodes(m: Matchers, postcodes: Option<seq<string>>, resumeFrom: Option<string>,
                            initError: Option<string>, attempts: nat -> Driver.Attempt, turns: nat -> Turn)
      returns (r: Result<RunReport>, final: Option<FinalOutput>)
    ensures initError.Some? ==> r == Failure(initError.value) && final.None?
    ensures r.Success? <==> initError.None? && Driver.Navigates(attempts)
    ensures r.Failure? ==> final.None?
    ensures initError.None? && r.Failure? ==> Driver.NavigationFails(attempts, r.error)
    ensures r.Success? ==> var list := PostcodeList(postcodes); var start := ResumeIndex(list, resumeFrom);
      && r.value.results == RunAsWritten((p, env) => SearchPostcodeAsWritten(m, p, env), list, start, |list|, turns)
      && |r.value.results| == |list| - start + PauseFailures(list, start, |list|, turns)
      && r.value.totalPostcodes == SearchedCount(start, |list|, turns)
      && r.value.totalMembers == SumCounts(r.value.results)
      && final.Some? && Saves(final.value, r.value.results)
      && final.value.summary.totalMembers == r.value.totalMembers == |final.value.allMembers|
  {
    final := None;
    if initError.Some? {
      return Failure(initError.value), None;
    }
    var list := PostcodeList(postcodes);
    var start := ResumeIndex(list, resumeFrom);
    var arrival := Driver.Navigate(attempts);
    if arrival.Failure? {
      return Failure(arrival.error), None;
    }
    var report, out := RunAndSave(m, list, start, turns);
    r := Success(report);
    final := Some(out);
  }

  /**
   * The part of `scrapeAllPostcodes` after navigation, as written: the loop over the list from
   * `start`, then the final aggregation, whose member total agrees with the loop's and with the
   * number of members it keeps.
   */
  method RunAndSave(m: Matchers, list: seq<string>, start: nat, turns: nat -> Turn)
      returns (report: RunReport, out: FinalOutput)
    requires start <= |list|
    ensures report.results == RunAsWritten((p, env) => SearchPostcodeAsWritten(m, p, env), list, start, |list|, turns)
    ensures |report.results| == |list| - start + PauseFailures(list, start, |list|, turns)
    ensures report.totalPostcodes == SearchedCount(start, |list|, turns)
    ensures report.totalMembers == SumCounts(report.results)
    ensures Saves(out, report.results)
    ensures out.summary.totalMembers == report.totalMembers == |out.allMembers|
  {
    var search := (p, env) => SearchPostcodeAsWritten(m, p, env);
    var results, processed, totalMembers := RunLoopAsWritten(search, list, start, turns);
    out := SaveFinalResults(results, Postcodes.GetState);
    SearchesAccounted(m);
    RunAsWrittenAccounted(search, list, start, |list|, turns);
    SuccessCounts(results);
    TotalIsMembers(results);
    report := RunReport(processed, totalMembers, results);
  }

  /**
   * `scrapeAllPostcodes` as evidently intended: the same steps with the corrected search and
   * loop, so every postcode from the resume index gets exactly one result.
   */
  method ScrapeAllPostcodesIntended(m: Matchers, postcodes: Option<seq<string>>, resumeFrom: Option<string>,
                                    initError: Option<string>, attempts: nat -> Driver.Attempt, turns: nat -> Turn)
      returns (r: Result<RunReport>, final: Option<FinalOutput>)
    ensures initError.Some? ==> r == Failure(initError.value) && final.None?
    ensures r.Success? <==> initError.None? && Driver.Navigates(attempts)
    ensures r.Failure? ==> final.None?
    ensures initError.None? && r.Failure? ==> Driver.NavigationFails(attempts, r.error)
    ensures r.Success? ==> var list := PostcodeList(postcodes); var start := ResumeIndex(list, resumeFrom);
      && r.value.results == Run((p, env) => SearchPostcode(m, p, env), list, start, |list|, turns)
      && r.value.totalPostcodes == SearchedCount(start, |list|, turns) <= |r.value.results| == |list| - start
      && r.value.totalMembers == SumCounts(r.value.results)
      && final.Some? && Saves(final.value, r.value.results)
      && final.value.summary.totalMembers == r.value.totalMembers == |final.value.allMembers|
  {
    final := None;
    if initError.Some? {
      return Failure(initError.value), None;
    }
    var list := PostcodeList(postcodes);
    var start := ResumeIndex(list, resumeFrom);
    var arrival := Driver.Navigate(attempts);
    if arrival.Failure? {
      return Failure(arrival.error), None;
    }
    var report, out := RunAndSaveIntended(m, list, start, turns);
    r := Success(report);
    final := Some(out);
  }

  /** The intended part after navigation: one result per postcode from `start`, then the aggregate. */
  method RunAndSaveIntended(m: Matchers, list: seq<string>, start: nat, turns: nat -> Turn)
      returns (report: RunReport, out: FinalOutput)
    requires start <= |list|
    ensures report.results == Run((p, env) => SearchPostcode(m, p, env), list, start, |list|, turns)
    ensures report.totalPostcodes == SearchedCount(start, |list|, turns) <= |report.results| == |list| - start
    ensures report.totalMembers == SumCounts(report.results)
    ensures Saves(out, report.results)
    ensures out.summary.totalMembers == report.totalMembers == |out.allMembers|
  {
    var search := (p, env) => SearchPostcode(m, p, env);
    var results, processed, totalMembers := RunLoop(search, list, start, turns);
    out := SaveFinalResults(results, Postcodes.GetState);
    SearchesAccounted(m);
    RunAccounted(search, list, start, |list|, turns);
    SuccessCounts(results);
    TotalIsMembers(results);
    report := RunReport(processed, totalMembers, results);
  }
}

=== FILE: postcodes.dfy ===
/**
 * The postcode catalogue: a constant table of postcode ranges per state or territory,
 * expanded into four-character postcode strings sorted by numeric value, with lookup,
 * filtering, sampling and statistics over it.
 */
module Postcodes {
  import opened Wrappers
  import Text
  import Sorting

  datatype State = NSW | ACT | VIC | QLD | SA | WA | TAS | NT | EXTERNAL

  /** The key under which a state appears in the range table and in results. */
  function StateName(s: State): (r: string)
    ensures |r| >= 2 && forall k :: 0 <= k < |r| ==> 'A' <= r[k] <= 'Z'
  {
    match s
    case NSW => "NSW"
    case ACT => "ACT"
    case VIC => "VIC"
    case QLD => "QLD"
    case SA => "SA"
    case WA => "WA"
    case TAS => "TAS"
    case NT => "NT"
    case EXTERNAL => "EXTERNAL"
  }

  lemma {:induction false} StateNameInjective(s: State, t: State)
    ensures StateName(s) == StateName(t) <==> s == t
  {
    if s != t {
      assert StateName(s)[0] != StateName(t)[0] || StateName(s)[1] != StateName(t)[1]
        || |StateName(s)| != |StateName(t)|;
    }
  }

  /** The table's keys in declaration order, which is the order `Object.entries` yields them. */
  const States: seq<State> := [NSW, ACT, VIC, QLD, SA, WA, TAS, NT, EXTERNAL]

  lemma {:induction false} StatesComplete(s: State)
    ensures s in States
  {
  }

  /** One `{ start, end }` range of the table, tagged with the state it is listed under. */
  datatype Block = Block(state: State, start: nat, end: nat) {

    predicate Covers(n: int) {
      start <= n <= end
    }

    function Size(): nat {
      if end < start then 0 else end - start + 1
    }
  }

  /**
   * The range table, state by state and range by range, in declaration order. It is written as
   * a concatenation of one-range lists, which keeps the verifier from unfolding the whole table
   * wherever it is mentioned; the sorted copy below is written the same way.
   */
  const RangeTable: seq<Block> :=
    [Block(NSW, 1000, 1999)] + [Block(NSW, 2000, 2599)] + [Block(NSW, 2619, 2898)] + [Block(NSW, 2921, 2999)] +
    [Block(ACT, 200, 299)] + [Block(ACT, 2600, 2618)] + [Block(ACT, 2900, 2920)] +
    [Block(VIC, 3000, 3999)] + [Block(VIC, 8000, 8999)] +
    [Block(QLD, 4000, 4999)] + [Block(QLD, 9000, 9999)] +
    [Block(SA, 5000, 5999)] +
    [Block(WA, 6000, 6797)] + [Block(WA, 6999, 6999)] +
    [Block(TAS, 7000, 7999)] +
    [Block(NT, 800, 999)] +
    [Block(EXTERNAL, 2899, 2899)] + [Block(EXTERNAL, 6798, 6798)] + [Block(EXTERNAL, 6799, 6799)]

  /** The same ranges reordered by their start value. */
  const AscendingTable: seq<Block> :=
    [Block(ACT, 200, 299)] + [Block(NT, 800, 999)] + [Block(NSW, 1000, 1999)] + [Block(NSW, 2000, 2599)] +
    [Block(ACT, 2600, 2618)] + [Block(NSW, 2619, 2898)] + [Block(EXTERNAL, 2899, 2899)] + [Block(ACT, 2900, 2920)] +
    [Block(NSW, 2921, 2999)] + [Block(VIC, 3000, 3999)] + [Block(QLD, 4000, 4999)] + [Block(SA, 5000, 5999)] +
    [Block(WA, 6000, 6797)] + [Block(EXTERNAL, 6798, 6798)] + [Block(EXTERNAL, 6799, 6799)] + [Block(WA, 6999, 6999)] +
    [Block(TAS, 7000, 7999)] + [Block(VIC, 8000, 8999)] + [Block(QLD, 9000, 9999)]

  /** `n` lies in one of the ranges listed for `s`. */
  predicate Listed(s: State, n: int) {
    exists k :: 0 <= k < |RangeTable| && RangeTable[k].state == s && RangeTable[k].Covers(n)
  }

  /**
   * One generated catalogue record: `{ postcode, state, numeric }`. Every record is generated
   * with its postcode being the four-character form of its value, so that field is derived.
   */
  datatype Entry = Entry(state: State, numeric: nat) {

    function Postcode(): string {
      Text.Pad4(numeric)
    }
  }

  /** The records for every value of one range, in increasing order. */
  function ExpandBlock(b: Block): (r: seq<Entry>)
    ensures |r| == b.Size()
    ensures forall k :: 0 <= k < |r| ==> r[k] == Entry(b.state, b.start + k)
  {
    seq(b.Size(), k requires 0 <= k < b.Size() => Entry(b.state, b.start + k))
  }

  /** The records for a list of ranges, range after range. */
  function Expand(bs: seq<Block>): seq<Entry> {
    if bs == [] then [] else ExpandBlock(bs[0]) + Expand(bs[1..])
  }

  /** The total number of values in a list of ranges. */
  function TotalSize(bs: seq<Block>): nat {
    if bs == [] then 0 else bs[0].Size() + TotalSize(bs[1..])
  }

  /** The nested loops of `generateAllPostcodes` before sorting. */
  function GenerationOrder(): seq<Entry> {
    Expand(RangeTable)
  }

  /** `this.postcodes`: the generated records sorted by numeric value. */
  function AllEntries(): seq<Entry> {
    Expand(AscendingTable)
  }

  predicate Ascending(es: seq<Entry>) {
    forall i, j :: 0 <= i < j < |es| ==> es[i].numeric < es[j].numeric
  }

  /* ---------------------------------------------------------------------------
   * Expansion facts
   * ------------------------------------------------------------------------- */

  lemma {:induction false} ExpandLength(bs: seq<Block>)
    ensures |Expand(bs)| == TotalSize(bs)
  {
    if bs != [] {
      ExpandLength(bs[1..]);
    }
  }

  /** A record occurs in an expansion exactly when it is the record of a value some listed range covers. */
  lemma {:induction false} ExpandMember(bs: seq<Block>, e: Entry)
    ensures e in Expand(bs) <==>
      exists k :: 0 <= k < |bs| && bs[k].state == e.state && bs[k].Covers(e.numeric)
  {
    if bs != [] {
      var b, tail := bs[0], bs[1..];
      ExpandMember(tail, e);
      BlockMember(b, e);
      assert Expand(bs) == ExpandBlock(b) + Expand(tail);
      if exists k :: 0 <= k < |bs| && bs[k].state == e.state && bs[k].Covers(e.numeric) {
        var k :| 0 <= k < |bs| && bs[k].state == e.state && bs[k].Covers(e.numeric);
        if k > 0 {
          assert tail[k - 1] == bs[k];
        }
      }
      if exists k :: 0 <= k < |tail| && tail[k].state == e.state && tail[k].Covers(e.numeric) {
        var k :| 0 <= k < |tail| && tail[k].state == e.state && tail[k].Covers(e.numeric);
        assert bs[k + 1] == tail[k];
      }
    }
  }

  lemma {:induction false} BlockMember(b: Block, e: Entry)
    ensures e in ExpandBlock(b) <==> b.state == e.state && b.Covers(e.numeric)
  {
    if e in ExpandBlock(b) {
      BlockMemberInside(b, e);
    }
    if b.state == e.state && b.Covers(e.numeric) {
      BlockMemberCovered(b, e.numeric);
    }
  }

  lemma {:induction false} BlockMemberInside(b: Block, e: Entry)
    requires e in ExpandBlock(b)
    ensures b.state == e.state && b.Covers(e.numeric)
  {
    var xs := ExpandBlock(b);
    var k :| 0 <= k < |xs| && xs[k] == e;
  }

  lemma {:induction false} BlockMemberCovered(b: Block, n: nat)
    requires b.Covers(n)
    ensures Entry(b.state, n) in ExpandBlock(b)
  {
    var xs := ExpandBlock(b);
    var k := n - b.start;
    assert xs[k] == Entry(b.state, b.start + k);
  }

  /** Every range is non-empty and ends before the next one starts. */
  predicate Chained(bs: seq<Block>) {
    && (forall k :: 0 <= k < |bs| ==> bs[k].start <= bs[k].end)
    && (forall k :: 0 <= k < |bs| - 1 ==> bs[k].end < bs[k + 1].start)
  }

  lemma {:induction false} ExpandBounds(bs: seq<Block>)
    requires Chained(bs) && bs != []
    ensures forall e :: e in Expand(bs) ==> bs[0].start <= e.numeric
  {
    forall e | e in Expand(bs)
      ensures bs[0].start <= e.numeric
    {
      ExpandMember(bs, e);
      var k :| 0 <= k < |bs| && bs[k].state == e.state && bs[k].Covers(e.numeric);
      ChainedMonotone(bs, 0, k);
    }
  }

  lemma {:induction false} ChainedMonotone(bs: seq<Block>, i: nat, j: nat)
    requires Chained(bs) && i <= j < |bs|
    ensures bs[i].start <= bs[j].start
    decreases j - i
  {
    if i < j {
      ChainedMonotone(bs, i + 1, j);
    }
  }

  /** Chained ranges expand to a strictly ascending list. */
  lemma {:induction false} ChainedAscending(bs: seq<Block>)
    requires Chained(bs)
    ensures Ascending(Expand(bs))
  {
    if bs != [] {
      var tail := bs[1..];
      assert Chained(tail) by {
        forall k | 0 <= k < |tail| - 1
          ensures tail[k].end < tail[k + 1].start
        {
          assert tail[k] == bs[k + 1] && tail[k + 1] == bs[k + 2];
        }
      }
      ChainedAscending(tail);
      var head := ExpandBlock(bs[0]);
      var rest := Expand(tail);
      var all: seq<Entry> := head + rest;
      if tail != [] {
        ExpandBounds(tail);
      }
      forall i, j | 0 <= i < j < |all|
        ensures all[i].numeric < all[j].numeric
      {
        if j < |head| {
          assert all[i] == head[i] && all[j] == head[j];
        } else if i < |head| {
          assert all[i] == head[i] && head[i].numeric <= bs[0].end;
          assert all[j] == rest[j - |head|];
          assert all[j] in rest;
        } else {
          assert all[i] == rest[i - |head|] && all[j] == rest[j - |head|];
        }
      }
    }
  }

  /* ---------------------------------------------------------------------------
   * The sorted table is a permutation of the declared one
   * ------------------------------------------------------------------------- */

  lemma {:induction false} AscendingTableChained()
    ensures Chained(AscendingTable)
  {
    AscendingStepsLow();
    AscendingStepsMiddle();
    AscendingStepsHigh();
    assert AscendingTable[18].start <= AscendingTable[18].end;
  }

  lemma {:induction false} AscendingStepsLow()
    ensures forall k :: 0 <= k < 6 ==> AscendingTable[k].start <= AscendingTable[k].end < AscendingTable[k + 1].start
  {
    forall k | 0 <= k < 6
      ensures AscendingTable[k].start <= AscendingTable[k].end < AscendingTable[k + 1].start
    {
      if k == 0 {} else if k == 1 {} else if k == 2 {} else if k == 3 {} else if k == 4 {} else {}
    }
  }

  lemma {:induction false} AscendingStepsMiddle()
    ensures forall k :: 6 <= k < 12 ==> AscendingTable[k].start <= AscendingTable[k].end < AscendingTable[k + 1].start
  {
    forall k | 6 <= k < 12
      ensures AscendingTable[k].start <= AscendingTable[k].end < AscendingTable[k + 1].start
    {
      if k == 6 {} else if k == 7 {} else if k == 8 {} else if k == 9 {} else if k == 10 {} else {}
    }
  }

  lemma {:induction false} AscendingStepsHigh()
    ensures forall k :: 12 <= k < 18 ==> AscendingTable[k].start <= AscendingTable[k].end < AscendingTable[k + 1].start
  {
    forall k | 12 <= k < 18
      ensures AscendingTable[k].start <= AscendingTable[k].end < AscendingTable[k + 1].start
    {
      if k == 12 {} else if k == 13 {} else if k == 14 {} else if k == 15 {} else if k == 16 {} else {}
    }
  }

  lemma {:induction false} SameRanges()
    ensures forall b :: b in AscendingTable <==> b in RangeTable
  {
  }

  predicate Distinct<T(==)>(s: seq<T>) {
    forall i, j :: 0 <= i < j < |s| ==> s[i] != s[j]
  }

  lemma {:induction false} DistinctCount<T>(s: seq<T>, x: T)
    requires Distinct(s)
    ensures multiset(s)[x] == if x in s then 1 else 0
  {
    if s != [] {
      assert Distinct(s[1..]) by {
        forall i, j | 0 <= i < j < |s[1..]|
          ensures s[1..][i] != s[1..][j]
        {
          assert s[1..][i] == s[i + 1] && s[1..][j] == s[j + 1];
        }
      }
      DistinctCount(s[1..], x);
      assert s == [s[0]] + s[1..];
      assert s[0] !in s[1..];
    }
  }

  /** A list has at most as many distinct elements as positions, and as many only when it is duplicate-free. */
  lemma {:induction false} CardinalityBound<T>(s: seq<T>)
    ensures |set x | x in s| <= |s|
    ensures |set x | x in s| == |s| ==> Distinct(s)
  {
    if s != [] {
      var tail := s[1..];
      CardinalityBound(tail);
      var whole := set x | x in s;
      var rest := set x | x in tail;
      assert whole == rest + {s[0]};
      if |whole| == |s| {
        assert s[0] !in rest;
        forall i, j | 0 <= i < j < |s|
          ensures s[i] != s[j]
        {
          if i == 0 {
            assert s[j] == tail[j - 1];
          } else {
            assert s[i] == tail[i - 1] && s[j] == tail[j - 1];
          }
        }
      }
    }
  }

  lemma {:induction false} DistinctTables()
    ensures Distinct(AscendingTable) && Distinct(RangeTable)
  {
    AscendingTableChained();
    forall i, j | 0 <= i < j < |AscendingTable|
      ensures AscendingTable[i] != AscendingTable[j]
    {
      ChainedMonotone(AscendingTable, i + 1, j);
    }
    SameRanges();
    DistinctCard(AscendingTable);
    assert (set x | x in AscendingTable) == (set x | x in RangeTable);
    CardinalityBound(RangeTable);
  }

  lemma {:induction false} DistinctCard<T>(s: seq<T>)
    requires Distinct(s)
    ensures |set x | x in s| == |s|
  {
    if s != [] {
      assert Distinct(s[1..]) by {
        forall i, j | 0 <= i < j < |s[1..]|
          ensures s[1..][i] != s[1..][j]
        {
          assert s[1..][i] == s[i + 1] && s[1..][j] == s[j + 1];
        }
      }
      DistinctCard(s[1..]);
      var whole := set x | x in s;
      var tail := set x | x in s[1..];
      assert whole == tail + {s[0]};
      assert s[0] !in tail;
    }
  }

  /** Two duplicate-free lists with the same elements are permutations of each other. */
  lemma {:induction false} SameElementsPermuted<T>(a: seq<T>, b: seq<T>)
    requires Distinct(a) && Distinct(b)
    requires forall x :: x in a <==> x in b
    ensures multiset(a) == multiset(b)
  {
    forall x
      ensures multiset(a)[x] == multiset(b)[x]
    {
      DistinctCount(a, x);
      DistinctCount(b, x);
    }
  }

  lemma {:induction false} TablesPermuted()
    ensures multiset(AscendingTable) == multiset(RangeTable)
  {
    DistinctTables();
    SameRanges();
    SameElementsPermuted(AscendingTable, RangeTable);
  }

  /** Expanding two orderings of the same ranges yields the same records. */
  lemma {:induction false} ExpandPermutation(a: seq<Block>, b: seq<Block>)
    requires multiset(a) == multiset(b)
    ensures multiset(Expand(a)) == multiset(Expand(b))
    decreases |a|
  {
    if a == [] {
      assert |b| == |multiset(b)| == |multiset(a)| == 0;
    } else {
      var i := Occurrence(a[0], b);
      var b' := b[..i] + b[i + 1..];
      PermutedWithout(a, b, i);
      ExpandPermutation(a[1..], b');
      ExpandWithout(b, i);
      ExpandWithout(a, 0);
      assert a[..0] + a[1..] == a[1..];
    }
  }

  /** An element of a list's multiset occurs at some index of the list. */
  lemma {:induction false} Occurrence<T>(x: T, s: seq<T>) returns (i: nat)
    requires x in multiset(s)
    ensures i < |s| && s[i] == x
  {
    assert x in s;
    i :| 0 <= i < |s| && s[i] == x;
  }

  /** Two arrangements of the same elements stay so once the head of one is taken out of the other. */
  lemma {:induction false} PermutedWithout<T>(a: seq<T>, b: seq<T>, i: nat)
    requires multiset(a) == multiset(b) && a != [] && i < |b| && b[i] == a[0]
    ensures multiset(a[1..]) == multiset(b[..i] + b[i + 1..])
  {
    calc {
      multiset(a[1..]);
    == { assert a == [a[0]] + a[1..]; }
      multiset(a) - multiset{a[0]};
    == { assert a[0] == b[i]; }
      multiset(b) - multiset{b[i]};
    == { RemoveAt(b, i); }
      multiset(b[..i] + b[i + 1..]);
    }
  }

  /** Taking the element at `i` out of a list takes one copy of it out of its multiset. */
  lemma {:induction false} RemoveAt<T>(s: seq<T>, i: nat)
    requires i < |s|
    ensures multiset(s[..i] + s[i + 1..]) == multiset(s) - multiset{s[i]}
    ensures multiset(s) == multiset(s[..i] + s[i + 1..]) + multiset{s[i]}
  {
    assert s == s[..i] + [s[i]] + s[i + 1..];
  }

  /** Expanding a list of ranges is expanding the list without range `i`, plus range `i`. */
  lemma {:induction false} ExpandWithout(bs: seq<Block>, i: nat)
    requires i < |bs|
    ensures multiset(Expand(bs)) == multiset(Expand(bs[..i] + bs[i + 1..])) + multiset(ExpandBlock(bs[i]))
  {
    assert bs == bs[..i] + ([bs[i]] + bs[i + 1..]);
    ExpandConcat(bs[..i], [bs[i]] + bs[i + 1..]);
    ExpandConcat(bs[..i], bs[i + 1..]);
    assert ([bs[i]] + bs[i + 1..])[1..] == bs[i + 1..];
    assert Expand([bs[i]] + bs[i + 1..]) == ExpandBlock(bs[i]) + Expand(bs[i + 1..]);
  }

  lemma {:induction false} ExpandConcat(a: seq<Block>, b: seq<Block>)
    ensures Expand(a + b) == Expand(a) + Expand(b)
  {
    if a == [] {
      assert a + b == b;
    } else {
      ExpandConcat(a[1..], b);
      assert (a + b)[0] == a[0] && (a + b)[1..] == a[1..] + b;
      assert Expand(a + b) == ExpandBlock(a[0]) + Expand(a[1..] + b);
      Associative(ExpandBlock(a[0]), Expand(a[1..]), Expand(b));
    }
  }

  lemma {:induction false} Associative<T>(x: seq<T>, y: seq<T>, z: seq<T>)
    ensures x + (y + z) == (x + y) + z
  {
  }

  lemma {:induction false} AscendingTail(xs: seq<Entry>)
    requires Ascending(xs) && xs != []
    ensures Ascending(xs[1..])
    ensures forall e :: e in xs[1..] ==> xs[0].numeric < e.numeric
  {
    assert forall i :: 0 <= i < |xs[1..]| ==> xs[1..][i] == xs[i + 1];
  }

  /** Two strictly ascending lists holding the same records are the same list. */
  lemma {:induction false} AscendingUnique(xs: seq<Entry>, ys: seq<Entry>)
    requires Ascending(xs) && Ascending(ys) && multiset(xs) == multiset(ys)
    ensures xs == ys
  {
    if xs == [] || ys == [] {
      assert |xs| == |multiset(xs)| == |multiset(ys)| == |ys|;
    } else {
      AscendingHead(xs, ys);
      AscendingTail(xs);
      AscendingTail(ys);
      Sorting.SameTails(xs, ys);
      AscendingUnique(xs[1..], ys[1..]);
      assert xs == [xs[0]] + xs[1..] && ys == [ys[0]] + ys[1..];
    }
  }

  /** Two strictly ascending lists holding the same records start with the same record. */
  lemma {:induction false} AscendingHead(xs: seq<Entry>, ys: seq<Entry>)
    requires Ascending(xs) && Ascending(ys) && multiset(xs) == multiset(ys) && xs != [] && ys != []
    ensures xs[0] == ys[0]
  {
    var x, y := xs[0], ys[0];
    assert x in multiset(ys) && y in multiset(xs);
    assert x in ys && y in xs;
    var i :| 0 <= i < |ys| && ys[i] == x;
    var j :| 0 <= j < |xs| && xs[j] == y;
    assert x.numeric <= y.numeric && y.numeric <= x.numeric;
  }

  /**
   * `generateAllPostcodes`: the catalogue is strictly ascending and holds exactly the records
   * the nested loops generate, so it is what sorting the generated list by numeric value returns.
   */
  lemma {:induction false} CatalogueIsSortedGeneration()
    ensures Ascending(AllEntries())
    ensures multiset(AllEntries()) == multiset(GenerationOrder())
    ensures forall sorted: seq<Entry> ::
      Ascending(sorted) && multiset(sorted) == multiset(GenerationOrder()) ==> sorted == AllEntries()
  {
    CatalogueAscending();
    CataloguePermutesGeneration();
    forall sorted: seq<Entry> | Ascending(sorted) && multiset(sorted) == multiset(GenerationOrder())
      ensures sorted == AllEntries()
    {
      AscendingUnique(sorted, AllEntries());
    }
  }

  lemma {:induction false} CatalogueAscending()
    ensures Ascending(AllEntries())
  {
    AscendingTableChained();
    ChainedAscending(AscendingTable);
  }

  lemma {:induction false} CataloguePermutesGeneration()
    ensures multiset(AllEntries()) == multiset(GenerationOrder())
  {
    TablesPermuted();
    ExpandPermutation(AscendingTable, RangeTable);
  }

  /** Every range of the table ends at or below 9999. */
  lemma {:induction false} TableBelow10000(k: int)
    requires 0 <= k < |RangeTable|
    ensures RangeTable[k].end < 10000
  {
  }

  /** A range of the sorted table is a range of the declared table. */
  lemma {:induction false} AscendingRangeListed(k: int) returns (j: int)
    requires 0 <= k < |AscendingTable|
    ensures 0 <= j < |RangeTable| && RangeTable[j] == AscendingTable[k]
  {
    SameRanges();
    assert AscendingTable[k] in RangeTable;
    j :| 0 <= j < |RangeTable| && RangeTable[j] == AscendingTable[k];
  }

  /** A range of the declared table is a range of the sorted table. */
  lemma {:induction false} DeclaredRangeSorted(j: int) returns (k: int)
    requires 0 <= j < |RangeTable|
    ensures 0 <= k < |AscendingTable| && AscendingTable[k] == RangeTable[j]
  {
    SameRanges();
    assert RangeTable[j] in AscendingTable;
    k :| 0 <= k < |AscendingTable| && AscendingTable[k] == RangeTable[j];
  }

  /** Every catalogue record: four characters, the zero-padded value, in a range listed for its state. */
  lemma {:induction false} CatalogueMember(e: Entry)
    ensures e in AllEntries() <==> Listed(e.state, e.numeric)
    ensures e in AllEntries() ==>
      && e.numeric < 10000 && |e.Postcode()| == 4 && Text.IsDigits(e.Postcode())
      && Text.DecimalValue(e.Postcode()) == e.numeric
  {
    if e in AllEntries() {
      CatalogueInside(e);
      Text.Pad4Shape(e.numeric);
    }
    if Listed(e.state, e.numeric) {
      CatalogueCovered(e.state, e.numeric);
    }
  }

  lemma {:induction false} CatalogueInside(e: Entry)
    requires e in AllEntries()
    ensures Listed(e.state, e.numeric) && e.numeric < 10000
  {
    ExpandMember(AscendingTable, e);
    var k :| 0 <= k < |AscendingTable| && AscendingTable[k].state == e.state && AscendingTable[k].Covers(e.numeric);
    var j := AscendingRangeListed(k);
    TableBelow10000(j);
  }

  lemma {:induction false} CatalogueCovered(s: State, n: nat)
    requires Listed(s, n)
    ensures Entry(s, n) in AllEntries()
  {
    var j :| 0 <= j < |RangeTable| && RangeTable[j].state == s && RangeTable[j].Covers(n);
    var k := DeclaredRangeSorted(j);
    ExpandMember(AscendingTable, Entry(s, n));
  }

  /** No value is listed under two states: the ranges of the table are pairwise disjoint. */
  lemma {:induction false} ListedUnique(s: State, t: State, n: nat)
    requires Listed(s, n) && Listed(t, n)
    ensures s == t
  {
    CatalogueCovered(s, n);
    CatalogueCovered(t, n);
    CatalogueAscending();
    SameValueSameRecord(AllEntries(), Entry(s, n), Entry(t, n));
  }

  /** An ascending list holds at most one record per value. */
  lemma {:induction false} SameValueSameRecord(es: seq<Entry>, x: Entry, y: Entry)
    requires Ascending(es) && x in es && y in es && x.numeric == y.numeric
    ensures x == y
  {
    var i :| 0 <= i < |es| && es[i] == x;
    var j :| 0 <= j < |es| && es[j] == y;
    assert i == j;
  }

  /** The catalogue's size is the sum of the range sizes. */
  lemma {:induction false} CatalogueSize()
    ensures |AllEntries()| == |GenerationOrder()| == TotalSize(RangeTable)
  {
    CataloguePermutesGeneration();
    assert |AllEntries()| == |multiset(AllEntries())|;
    ExpandLength(RangeTable);
  }

  /* ---------------------------------------------------------------------------
   * Per-state views
   * ------------------------------------------------------------------------- */

  /** The ranges of a list that belong to `s`, in their original order. */
  function BlocksOf(bs: seq<Block>, s: State): seq<Block> {
    if bs == [] then []
    else (if bs[0].state == s then [bs[0]] else []) + BlocksOf(bs[1..], s)
  }

  /** The records of state `s`, in order. */
  function OfState(es: seq<Entry>, s: State): (r: seq<Entry>)
    ensures |r| <= |es|
  {
    if es == [] then []
    else (if es[0].state == s then [es[0]] else []) + OfState(es[1..], s)
  }

  /** Filtering by state keeps exactly the records of that state. */
  lemma {:induction false} OfStateMember(es: seq<Entry>, s: State, e: Entry)
    ensures e in OfState(es, s) <==> e in es && e.state == s
  {
    if es != [] {
      OfStateMember(es[1..], s, e);
      assert es == [es[0]] + es[1..];
    }
  }

  lemma {:induction false} OfStateWithin(es: seq<Entry>, s: State)
    ensures forall e :: e in OfState(es, s) ==> e in es
  {
    forall e | e in OfState(es, s)
      ensures e in es
    {
      OfStateMember(es, s, e);
    }
  }

  /** Filtering keeps an ascending list ascending. */
  lemma {:induction false} OfStateAscending(es: seq<Entry>, s: State)
    requires Ascending(es)
    ensures Ascending(OfState(es, s))
  {
    if es != [] {
      AscendingTail(es);
      OfStateAscending(es[1..], s);
      var rest := OfState(es[1..], s);
      if es[0].state == s {
        forall e | e in rest
          ensures es[0].numeric < e.numeric
        {
          OfStateMember(es[1..], s, e);
        }
        AscendingCons(es[0], rest);
      }
    }
  }

  lemma {:induction false} AscendingCons(x: Entry, es: seq<Entry>)
    requires Ascending(es)
    requires forall e :: e in es ==> x.numeric < e.numeric
    ensures Ascending([x] + es)
  {
    var t := [x] + es;
    forall i, j | 0 <= i < j < |t|
      ensures t[i].numeric < t[j].numeric
    {
      assert t[j] == es[j - 1];
      if i > 0 {
        assert t[i] == es[i - 1];
      }
    }
  }

  lemma {:induction false} OfStateConcat(xs: seq<Entry>, ys: seq<Entry>, s: State)
    ensures OfState(xs + ys, s) == OfState(xs, s) + OfState(ys, s)
  {
    if xs == [] {
      assert xs + ys == ys;
    } else {
      assert (xs + ys)[0] == xs[0] && (xs + ys)[1..] == xs[1..] + ys;
      OfStateConcat(xs[1..], ys, s);
      var head := if xs[0].state == s then [xs[0]] else [];
      Associative(head, OfState(xs[1..], s), OfState(ys, s));
    }
  }

  /** Filtering a list whose records all have the same state keeps all of it or none of it. */
  lemma {:induction false} OfStateUniform(es: seq<Entry>, t: State, s: State)
    requires forall e :: e in es ==> e.state == t
    ensures OfState(es, s) == if t == s then es else []
  {
    if es != [] {
      assert forall e :: e in es[1..] ==> e in es;
      OfStateUniform(es[1..], t, s);
    }
  }

  /** Filtering the expansion by state is expanding the state's own ranges. */
  lemma {:induction false} OfStateExpand(bs: seq<Block>, s: State)
    ensures OfState(Expand(bs), s) == Expand(BlocksOf(bs, s))
  {
    if bs != [] {
      var b := bs[0];
      OfStateExpand(bs[1..], s);
      OfStateConcat(ExpandBlock(b), Expand(bs[1..]), s);
      OfStateUniform(ExpandBlock(b), b.state, s);
      if b.state == s {
        assert BlocksOf(bs, s) == [b] + BlocksOf(bs[1..], s);
      } else {
        assert BlocksOf(bs, s) == BlocksOf(bs[1..], s);
      }
    }
  }

  /** Filtering two orderings of the same ranges keeps them permutations of each other. */
  lemma {:induction false} BlocksOfPermuted(a: seq<Block>, b: seq<Block>, s: State)
    requires multiset(a) == multiset(b)
    ensures multiset(BlocksOf(a, s)) == multiset(BlocksOf(b, s))
  {
    forall x
      ensures multiset(BlocksOf(a, s))[x] == multiset(BlocksOf(b, s))[x]
    {
      BlocksOfCount(a, s, x);
      BlocksOfCount(b, s, x);
    }
  }

  lemma {:induction false} BlocksOfCount(bs: seq<Block>, s: State, x: Block)
    ensures multiset(BlocksOf(bs, s))[x] == if x.state == s then multiset(bs)[x] else 0
  {
    if bs != [] {
      BlocksOfCount(bs[1..], s, x);
      assert bs == [bs[0]] + bs[1..];
    }
  }

  /* ---------------------------------------------------------------------------
   * Queries
   * ------------------------------------------------------------------------- */

  /** `map(p => p.Postcode())`. */
  function Codes(es: seq<Entry>): (r: seq<string>)
    ensures |r| == |es| && forall i :: 0 <= i < |es| ==> r[i] == es[i].Postcode()
  {
    if es == [] then [] else [es[0].Postcode()] + Codes(es[1..])
  }

  /** `getAllPostcodes`. */
  function AllPostcodes(): (r: seq<string>)
    ensures |r| == |AllEntries()|
  {
    Codes(AllEntries())
  }

  /** `getTotalCount`. */
  function TotalCount(): (r: nat)
    ensures r == |AllPostcodes()|
  {
    |AllEntries()|
  }

  /** Records of ascending values below 10^4 give postcodes in strictly ascending string order. */
  lemma {:induction false} CodesSorted(es: seq<Entry>)
    requires Ascending(es)
    requires forall e :: e in es ==> e in AllEntries()
    ensures forall i, j :: 0 <= i < j < |es| ==> Text.Less(Codes(es)[i], Codes(es)[j])
  {
    forall i, j | 0 <= i < j < |es|
      ensures Text.Less(Codes(es)[i], Codes(es)[j])
    {
      assert es[i] in es && es[j] in es;
      RecordsLess(es[i], es[j]);
    }
  }

  lemma {:induction false} RecordsLess(x: Entry, y: Entry)
    requires x in AllEntries() && y in AllEntries() && x.numeric < y.numeric
    ensures Text.Less(x.Postcode(), y.Postcode())
  {
    CatalogueInside(x);
    CatalogueInside(y);
    Text.Pad4Order(x.numeric, y.numeric);
  }

  /** The list of all postcodes is strictly ascending in string order, hence also free of repeats. */
  lemma {:induction false} AllPostcodesSorted()
    ensures forall i, j :: 0 <= i < j < |AllPostcodes()| ==> Text.Less(AllPostcodes()[i], AllPostcodes()[j])
  {
    CatalogueAscending();
    CodesSorted(AllEntries());
  }

  /** The numeric value a postcode string names: four decimal digits, else nothing. */
  function ValueOf(q: string): Option<nat> {
    if |q| == 4 && Text.IsDigits(q) then Some(Text.DecimalValue(q)) else None
  }

  /** A value read from a string is below 10^4 and its four-character form is that string. */
  lemma {:induction false} ValueOfSome(q: string)
    requires ValueOf(q).Some?
    ensures ValueOf(q).value < 10000 && Text.Pad4(ValueOf(q).value) == q
  {
    Text.Pad4OfValue(q);
  }

  /** A string that is not four digits is not the four-character form of any value below 10^4. */
  lemma {:induction false} ValueOfNone(q: string)
    requires ValueOf(q).None?
    ensures forall n: nat :: n < 10000 ==> Text.Pad4(n) != q
  {
    forall n: nat | n < 10000
      ensures Text.Pad4(n) != q
    {
      Text.Pad4Shape(n);
    }
  }

  /** `n` lies in some range of the table, whatever the state. */
  predicate ListedAnywhere(n: int) {
    exists k :: 0 <= k < |RangeTable| && RangeTable[k].Covers(n)
  }

  /** `q` spells, in four digits, a value some range covers. */
  predicate Catalogued(q: string) {
    match ValueOf(q)
    case None => false
    case Some(n) => ListedAnywhere(n)
  }

  /** `toString().padStart(4, '0')`, applied before every lookup. */
  function Normalize(p: string): (r: string)
    ensures |p| >= 4 ==> r == p
    ensures |p| < 4 ==> |r| == 4 && r[4 - |p|..] == p && forall k :: 0 <= k < 4 - |p| ==> r[k] == '0'
  {
    Text.PadStart(p, 4, '0')
  }

  /** The catalogue record behind a catalogue postcode. */
  lemma {:induction false} RecordOf(q: string) returns (e: Entry)
    requires q in AllPostcodes()
    ensures e in AllEntries() && e.Postcode() == q
    ensures ValueOf(q) == Some(e.numeric) && Listed(e.state, e.numeric)
  {
    e := MemberOfCode(AllEntries(), q);
    CatalogueInside(e);
    ValueOfPad4(e.numeric);
  }

  /** The postcode of a listed record is among the listed postcodes. */
  lemma {:induction false} CodeOfMember(es: seq<Entry>, e: Entry)
    requires e in es
    ensures e.Postcode() in Codes(es)
  {
    var i :| 0 <= i < |es| && es[i] == e;
    assert Codes(es)[i] == e.Postcode();
  }

  /** A listed postcode is the postcode of a listed record. */
  lemma {:induction false} MemberOfCode(es: seq<Entry>, q: string) returns (e: Entry)
    requires q in Codes(es)
    ensures e in es && e.Postcode() == q
  {
    var i :| 0 <= i < |es| && Codes(es)[i] == q;
    e := es[i];
  }

  /** The four-character form of a value below 10^4 reads back as that value. */
  lemma {:induction false} ValueOfPad4(n: nat)
    requires n < 10000
    ensures ValueOf(Text.Pad4(n)) == Some(n)
  {
    Text.Pad4Shape(n);
    ValueOfSome(Text.Pad4(n));
    Text.Pad4Injective(n, ValueOf(Text.Pad4(n)).value);
  }

  /** The postcode of a listed value is in the catalogue. */
  lemma {:induction false} PostcodeOf(s: State, n: nat)
    requires Listed(s, n)
    ensures Entry(s, n) in AllEntries()
    ensures Text.Pad4(n) in AllPostcodes() && ValueOf(Text.Pad4(n)) == Some(n)
  {
    CatalogueCovered(s, n);
    CodeOfMember(AllEntries(), Entry(s, n));
    CatalogueInside(Entry(s, n));
    ValueOfPad4(n);
  }

  /** A string is a catalogue postcode exactly when it spells, in four digits, a value some range covers. */
  lemma {:induction false} PostcodeMember(q: string)
    ensures q in AllPostcodes() <==> Catalogued(q)
  {
    if q in AllPostcodes() {
      PostcodeCatalogued(q);
    }
    if Catalogued(q) {
      CataloguedPostcode(q);
    }
  }

  lemma {:induction false} PostcodeCatalogued(q: string)
    requires q in AllPostcodes()
    ensures Catalogued(q)
  {
    var e := RecordOf(q);
    var k :| 0 <= k < |RangeTable| && RangeTable[k].state == e.state && RangeTable[k].Covers(e.numeric);
  }

  lemma {:induction false} CataloguedPostcode(q: string)
    requires Catalogued(q)
    ensures q in AllPostcodes()
  {
    var n := ValueOf(q).value;
    var k :| 0 <= k < |RangeTable| && RangeTable[k].Covers(n);
    ValueOfSome(q);
    PostcodeOf(RangeTable[k].state, n);
  }

  /** `isValid`: the zero-padded string is one of the catalogue's postcodes. */
  function IsValid(p: string): (b: bool)
    ensures b <==> Catalogued(Normalize(p))
  {
    var q := Normalize(p);
    PostcodeMember(q);
    q in AllPostcodes()
  }

  /** A number passed to `isValid` is rendered in decimal first; it is valid exactly when some range covers it. */
  lemma {:induction false} ValidNumber(n: nat)
    ensures IsValid(Text.ToDecimal(n)) <==> ListedAnywhere(n)
  {
    if n < 10000 {
      ValidShort(n);
    } else {
      ValidWide(n);
    }
  }

  lemma {:induction false} ValidShort(n: nat)
    requires n < 10000
    ensures IsValid(Text.ToDecimal(n)) <==> ListedAnywhere(n)
  {
    var q := Text.ToDecimal(n);
    assert Normalize(q) == Text.Pad4(n);
    ValueOfPad4(n);
    assert IsValid(q) <==> Catalogued(Text.Pad4(n));
  }

  lemma {:induction false} ValidWide(n: nat)
    requires n >= 10000
    ensures !IsValid(Text.ToDecimal(n)) && !ListedAnywhere(n)
  {
    WideUnlisted(n);
    WideInvalid(n);
  }

  /** No range reaches a value of five or more digits. */
  lemma {:induction false} WideUnlisted(n: nat)
    requires n >= 10000
    ensures !ListedAnywhere(n)
  {
    forall k | 0 <= k < |RangeTable|
      ensures !RangeTable[k].Covers(n)
    {
      TableBelow10000(k);
    }
  }

  /** Five or more digits are left as they are by the padding and spell no four-digit postcode. */
  lemma {:induction false} WideInvalid(n: nat)
    requires n >= 10000
    ensures !IsValid(Text.ToDecimal(n))
  {
    Text.DecimalWide(n);
    var q := Text.ToDecimal(n);
    assert Normalize(q) == q;
    assert ValueOf(q).None?;
  }

  /** The state of the first record with postcode `q`, searching from the front. */
  function Find(es: seq<Entry>, q: string): (r: Option<State>)
    ensures r.None? <==> q !in Codes(es)
    ensures r.Some? ==> exists i :: 0 <= i < |es| && es[i].Postcode() == q && es[i].state == r.value
  {
    if es == [] then None
    else if es[0].Postcode() == q then Some(es[0].state)
    else
      var r := Find(es[1..], q);
      assert Codes(es) == [es[0].Postcode()] + Codes(es[1..]);
      assert forall i :: 1 <= i < |es| ==> es[i] == es[1..][i - 1];
      r
  }

  /** The record the search stops at. */
  lemma {:induction false} Found(es: seq<Entry>, q: string, s: State) returns (e: Entry)
    requires Find(es, q) == Some(s)
    ensures e in es && e.Postcode() == q && e.state == s
  {
    var i :| 0 <= i < |es| && es[i].Postcode() == q && es[i].state == s;
    e := es[i];
  }

  /** `getState`: the state listed for the zero-padded postcode, or `null` (`None`). */
  function GetState(p: string): (r: Option<State>)
    ensures r.None? <==> !IsValid(p)
  {
    Find(AllEntries(), Normalize(p))
  }

  /** `getState` answers with the one state whose ranges cover the postcode's value. */
  lemma {:induction false} GetStateListed(p: string, s: State)
    ensures GetState(p) == Some(s) <==>
      ValueOf(Normalize(p)).Some? && Listed(s, ValueOf(Normalize(p)).value)
  {
    var q := Normalize(p);
    if GetState(p) == Some(s) {
      FoundListed(q, s);
    }
    if ValueOf(q).Some? && Listed(s, ValueOf(q).value) {
      var n := ValueOf(q).value;
      PostcodeOf(s, n);
      FoundListed(q, GetState(p).value);
      ListedUnique(s, GetState(p).value, n);
    }
  }

  /** The state the search finds for a postcode is one whose ranges cover the postcode's value. */
  lemma {:induction false} FoundListed(q: string, s: State)
    requires Find(AllEntries(), q) == Some(s)
    ensures ValueOf(q).Some? && Listed(s, ValueOf(q).value)
  {
    var e := Found(AllEntries(), q, s);
    CatalogueInside(e);
    ValueOfPad4(e.numeric);
  }

  /** The state whose name is `key`, if any. */
  function StateNamed(key: string): (r: Option<State>)
    ensures r.Some? ==> StateName(r.value) == key
    ensures r.None? ==> forall s :: StateName(s) != key
  {
    if key == "NSW" then Some(NSW)
    else if key == "ACT" then Some(ACT)
    else if key == "VIC" then Some(VIC)
    else if key == "QLD" then Some(QLD)
    else if key == "SA" then Some(SA)
    else if key == "WA" then Some(WA)
    else if key == "TAS" then Some(TAS)
    else if key == "NT" then Some(NT)
    else if key == "EXTERNAL" then Some(EXTERNAL)
    else None
  }

  /** The records `filter(p => p.state === key)` keeps: a record's state name equals `key` exactly when `key` names that state. */
  lemma {:induction false} StateNamedMeans(key: string, t: State)
    ensures StateName(t) == key <==> StateNamed(key) == Some(t)
  {
    if StateNamed(key).Some? {
      StateNameInjective(t, StateNamed(key).value);
    }
  }

  /** The postcodes of state `s`, ascending. */
  function StateList(s: State): seq<string> {
    Codes(OfState(AllEntries(), s))
  }

  /** A state's list is strictly ascending in string order. */
  lemma {:induction false} StateListSorted(s: State)
    ensures forall i, j :: 0 <= i < j < |StateList(s)| ==> Text.Less(StateList(s)[i], StateList(s)[j])
  {
    CatalogueAscending();
    OfStateAscending(AllEntries(), s);
    OfStateWithin(AllEntries(), s);
    CodesSorted(OfState(AllEntries(), s));
  }

  /**
   * `getPostcodesByState`: the postcodes whose state name equals the upper-cased argument.
   * By `StateNamedMeans` those are the records of the state the upper-cased argument names,
   * and there are none when it names no state.
   */
  function ByState(state: string): (r: seq<string>)
    ensures forall i, j :: 0 <= i < j < |r| ==> Text.Less(r[i], r[j])
  {
    match StateNamed(Text.ToUpper(state))
    case None => []
    case Some(s) =>
      StateListSorted(s);
      StateList(s)
  }

  /** Any spelling of a state's name that upper-cases to it selects that state's list. */
  lemma {:induction false} ByStateAnyCase(state: string, s: State)
    requires Text.ToUpper(state) == StateName(s)
    ensures ByState(state) == StateList(s)
  {
    StateNamedMeans(Text.ToUpper(state), s);
  }

  /** A string that upper-cases to no state's name selects nothing. */
  lemma {:induction false} ByStateUnknown(state: string)
    requires forall s :: Text.ToUpper(state) != StateName(s)
    ensures ByState(state) == []
  {
    if StateNamed(Text.ToUpper(state)).Some? {
      StateNamedMeans(Text.ToUpper(state), StateNamed(Text.ToUpper(state)).value);
    }
  }

  /** Called with a state's own name, as `getStatistics` and `getSamplePostcodes` do. */
  lemma {:induction false} ByStateEntries(s: State)
    ensures ByState(StateName(s)) == StateList(s)
  {
    Text.UpperIdentity(StateName(s));
    ByStateAnyCase(StateName(s), s);
  }

  /** A state's list is the expansion of its own ranges in ascending order, and as long as they are in total. */
  lemma {:induction false} StateListRanges(s: State)
    ensures StateList(s) == Codes(Expand(BlocksOf(AscendingTable, s)))
    ensures |StateList(s)| == TotalSize(BlocksOf(RangeTable, s))
  {
    OfStateExpand(AscendingTable, s);
    RangesOfStateSize(s);
  }

  lemma {:induction false} RangesOfStateSize(s: State)
    ensures |Expand(BlocksOf(AscendingTable, s))| == TotalSize(BlocksOf(RangeTable, s))
  {
    TablesPermuted();
    FilteredSize(AscendingTable, RangeTable, s);
  }

  lemma {:induction false} FilteredSize(a: seq<Block>, b: seq<Block>, s: State)
    requires multiset(a) == multiset(b)
    ensures |Expand(BlocksOf(a, s))| == TotalSize(BlocksOf(b, s))
  {
    BlocksOfPermuted(a, b, s);
    ExpandPermutation(BlocksOf(a, s), BlocksOf(b, s));
    var x := Expand(BlocksOf(a, s));
    var y := Expand(BlocksOf(b, s));
    assert |x| == |multiset(x)| == |multiset(y)| == |y|;
    ExpandLength(BlocksOf(b, s));
  }

  /** A postcode is in a state's list exactly when that state's ranges cover its value. */
  lemma {:induction false} StateListMember(s: State, q: string)
    ensures q in StateList(s) <==> ValueOf(q).Some? && Listed(s, ValueOf(q).value)
  {
    if q in StateList(s) {
      StateListSound(s, q);
    }
    if ValueOf(q).Some? && Listed(s, ValueOf(q).value) {
      StateListComplete(s, q);
    }
  }

  lemma {:induction false} StateListSound(s: State, q: string)
    requires q in StateList(s)
    ensures ValueOf(q).Some? && Listed(s, ValueOf(q).value)
  {
    var e := MemberOfCode(OfState(AllEntries(), s), q);
    OfStateMember(AllEntries(), s, e);
    CatalogueInside(e);
    ValueOfPad4(e.numeric);
  }

  lemma {:induction false} StateListComplete(s: State, q: string)
    requires ValueOf(q).Some? && Listed(s, ValueOf(q).value)
    ensures q in StateList(s)
  {
    var n := ValueOf(q).value;
    ValueOfSome(q);
    PostcodeOf(s, n);
    OfStateMember(AllEntries(), s, Entry(s, n));
    CodeOfMember(OfState(AllEntries(), s), Entry(s, n));
  }

  /** `getPostcodesByState` with a state's name: exactly the postcodes whose values that state's ranges cover. */
  lemma {:induction false} ByStateMember(s: State, q: string)
    ensures q in ByState(StateName(s)) <==> ValueOf(q).Some? && Listed(s, ValueOf(q).value)
  {
    ByStateEntries(s);
    StateListMember(s, q);
  }

  /** A postcode `getState` attributes to a state is in that state's list, and conversely. */
  lemma {:induction false} GetStateInByState(p: string, s: State)
    requires |p| == 4
    ensures GetState(p) == Some(s) <==> p in ByState(StateName(s))
  {
    GetStateListed(p, s);
    ByStateMember(s, p);
  }

  /* ---------------------------------------------------------------------------
   * Totals and statistics
   * ------------------------------------------------------------------------- */

  lemma {:induction false} SizeStep(bs: seq<Block>, k: nat)
    requires k < |bs|
    ensures TotalSize(bs[k..]) == bs[k].Size() + TotalSize(bs[k + 1..])
  {
    assert bs[k..][1..] == bs[k + 1..];
  }

  lemma {:induction false} TotalFrom12()
    ensures TotalSize(RangeTable[12..]) == 2002
  {
    assert RangeTable[19..] == [];
    SizeStep(RangeTable, 18);
    SizeStep(RangeTable, 17);
    SizeStep(RangeTable, 16);
    SizeStep(RangeTable, 15);
    SizeStep(RangeTable, 14);
    SizeStep(RangeTable, 13);
    SizeStep(RangeTable, 12);
  }

  lemma {:induction false} TotalFrom8()
    ensures TotalSize(RangeTable[8..]) == 6002
  {
    TotalFrom12();
    SizeStep(RangeTable, 11);
    SizeStep(RangeTable, 10);
    SizeStep(RangeTable, 9);
    SizeStep(RangeTable, 8);
  }

  lemma {:induction false} TotalFrom6()
    ensures TotalSize(RangeTable[6..]) == 7023
  {
    TotalFrom8();
    SizeStep(RangeTable, 7);
    SizeStep(RangeTable, 6);
  }

  lemma {:induction false} TotalFrom4()
    ensures TotalSize(RangeTable[4..]) == 7142
  {
    TotalFrom6();
    SizeStep(RangeTable, 5);
    SizeStep(RangeTable, 4);
  }

  /** The table lists 9,101 postcodes in all. */
  lemma {:induction false} TotalIs9101()
    ensures TotalSize(RangeTable) == 9101
    ensures TotalCount() == 9101
  {
    TableTotal();
    CatalogueSize();
  }

  lemma {:induction false} TotalFrom2()
    ensures TotalSize(RangeTable[2..]) == 7501
  {
    TotalFrom4();
    SizeStep(RangeTable, 3);
    SizeStep(RangeTable, 2);
  }

  lemma {:induction false} TableTotal()
    ensures TotalSize(RangeTable) == 9101
  {
    TotalFrom2();
    SizeStep(RangeTable, 1);
    SizeStep(RangeTable, 0);
    assert RangeTable[0..] == RangeTable;
  }

  /** A key of the statistics object: a state's name, or `TOTAL`. */
  datatype StatKey = StateKey(state: State) | Total {

    function Name(): string {
      match this
      case StateKey(s) => StateName(s)
      case Total => "TOTAL"
    }
  }

  /** One `stats[key] = count` assignment. */
  datatype Stat = Stat(key: StatKey, count: nat)

  /** The sum of the counts in a list of statistics. */
  function CountSum(stats: seq<Stat>): nat {
    if stats == [] then 0 else stats[0].count + CountSum(stats[1..])
  }

  /** The sizes of one state's ranges, summed over a list of states. */
  function SizeByStates(ss: seq<State>, bs: seq<Block>): nat {
    if ss == [] then 0 else TotalSize(BlocksOf(bs, ss[0])) + SizeByStates(ss[1..], bs)
  }

  /** `w` for each occurrence of `t` in a list of states, summed. */
  function Weight(ss: seq<State>, t: State, w: nat): nat {
    if ss == [] then 0 else (if ss[0] == t then w else 0) + Weight(ss[1..], t, w)
  }

  lemma {:induction false} SizeByStatesCons(ss: seq<State>, b: Block, bs: seq<Block>)
    ensures SizeByStates(ss, [b] + bs) == SizeByStates(ss, bs) + Weight(ss, b.state, b.Size())
  {
    if ss != [] {
      SizeByStatesCons(ss[1..], b, bs);
      BlocksOfConsSize(b, bs, ss[0]);
    }
  }

  lemma {:induction false} BlocksOfConsSize(b: Block, bs: seq<Block>, s: State)
    ensures TotalSize(BlocksOf([b] + bs, s)) == (if b.state == s then b.Size() else 0) + TotalSize(BlocksOf(bs, s))
  {
    var x := BlocksOf(bs, s);
    assert ([b] + bs)[0] == b && ([b] + bs)[1..] == bs;
    assert BlocksOf([b] + bs, s) == (if b.state == s then [b] else []) + x;
    if b.state == s {
      assert ([b] + x)[0] == b && ([b] + x)[1..] == x;
    } else {
      assert [] + x == x;
    }
  }

  /** The weight of `t` is `w` times the number of times `t` occurs. */
  lemma {:induction false} WeightCounts(ss: seq<State>, t: State, w: nat)
    ensures Weight(ss, t, w) == w * multiset(ss)[t]
  {
    if ss != [] {
      WeightCounts(ss[1..], t, w);
      MultisetHead(ss, t);
      if ss[0] == t {
        Distribute(w, multiset(ss[1..])[t]);
      }
    }
  }

  lemma {:induction false} Distribute(a: int, b: int)
    ensures a * (1 + b) == a + a * b
  {
  }

  /** The occurrences of `x` in a non-empty list: those in its head and those in its tail. */
  lemma {:induction false} MultisetHead<T>(s: seq<T>, x: T)
    requires s != []
    ensures multiset(s)[x] == (if s[0] == x then 1 else 0) + multiset(s[1..])[x]
  {
    assert s == [s[0]] + s[1..];
  }

  /** Each state occurs exactly once in the table's key order. */
  lemma {:induction false} StatesOnce(t: State)
    ensures multiset(States)[t] == 1
  {
  }

  lemma {:induction false} WeightOnce(t: State, w: nat)
    ensures Weight(States, t, w) == w
  {
    WeightCounts(States, t, w);
    StatesOnce(t);
  }

  /** Every range belongs to exactly one state, so the per-state sizes add up to the whole. */
  lemma {:induction false} StatesPartition(bs: seq<Block>)
    ensures SizeByStates(States, bs) == TotalSize(bs)
  {
    if bs == [] {
      SizeByStatesEmpty(States);
    } else {
      StatesPartition(bs[1..]);
      assert bs == [bs[0]] + bs[1..];
      SizeByStatesCons(States, bs[0], bs[1..]);
      WeightOnce(bs[0].state, bs[0].Size());
    }
  }

  lemma {:induction false} SizeByStatesEmpty(ss: seq<State>)
    ensures SizeByStates(ss, []) == 0
  {
    if ss != [] {
      SizeByStatesEmpty(ss[1..]);
    }
  }

  lemma {:induction false} CountSumMatches(stats: seq<Stat>, ss: seq<State>, bs: seq<Block>)
    requires |stats| == |ss|
    requires forall k :: 0 <= k < |ss| ==> stats[k].count == TotalSize(BlocksOf(bs, ss[k]))
    ensures CountSum(stats) == SizeByStates(ss, bs)
  {
    if ss != [] {
      CountSumMatches(stats[1..], ss[1..], bs);
    }
  }

  /** Counts that match the per-state sizes of the table add up to the table's total size, 9,101. */
  lemma {:induction false} CountsAddUp(stats: seq<Stat>)
    requires CountsStates(stats, States)
    ensures CountSum(stats) == 9101
  {
    CountSumMatches(stats, States, RangeTable);
    StatesPartition(RangeTable);
    TableTotal();
  }

  /** The assignment `getStatistics` makes for state `s`: its name and the total size of its ranges. */
  predicate CountsState(st: Stat, s: State) {
    st.key == StateKey(s) && st.count == TotalSize(BlocksOf(RangeTable, s))
  }

  /** One assignment per state of `ss`, in order, each as `getStatistics` makes it. */
  predicate CountsStates(stats: seq<Stat>, ss: seq<State>) {
    |stats| == |ss| && forall k :: 0 <= k < |ss| ==> CountsState(stats[k], ss[k])
  }

  /** A state's list, looked up by its name, is as long as its ranges are in total. */
  lemma {:induction false} StateCountIs(s: State)
    ensures |ByState(StateName(s))| == TotalSize(BlocksOf(RangeTable, s))
  {
    ByStateEntries(s);
    StateListRanges(s);
  }

  /**
   * `getStatistics`: for each state in table order, the length of its list as looked up by its
   * name, then the total under `TOTAL`. Each state's count is the total size of the ranges
   * listed for it, and the per-state counts add up to the total, which is 9,101.
   */
  method GetStatistics() returns (stats: seq<Stat>)
    ensures |stats| == |States| + 1
    ensures CountsStates(stats[..|States|], States)
    ensures stats[|States|] == Stat(Total, TotalCount())
    ensures CountSum(stats[..|States|]) == stats[|States|].count == 9101
  {
    var counts := CountStates(States, s => ByState(StateName(s)));
    CountsListed(counts, States);
    CountsAddUp(counts);
    TotalIs9101();
    stats := counts + [Stat(Total, TotalCount())];
    Appended(counts, Stat(Total, TotalCount()));
  }

  lemma {:induction false} Appended<T>(xs: seq<T>, x: T)
    ensures |xs + [x]| == |xs| + 1 && (xs + [x])[..|xs|] == xs && (xs + [x])[|xs|] == x
  {
    assert (xs + [x])[..|xs|] == xs;
  }

  /** The lengths of the states' lists, looked up by name, are the sizes of the states' ranges. */
  lemma {:induction false} CountsListed(counts: seq<Stat>, ss: seq<State>)
    requires |counts| == |ss|
    requires forall k :: 0 <= k < |ss| ==> counts[k] == Stat(StateKey(ss[k]), |ByState(StateName(ss[k]))|)
    ensures CountsStates(counts, ss)
  {
    StateCountsAre();
  }

  /** Every state's list, looked up by its name, is as long as its ranges are in total. */
  lemma {:induction false} StateCountsAre()
    ensures forall s :: |ByState(StateName(s))| == TotalSize(BlocksOf(RangeTable, s))
  {
    forall s {
      StateCountIs(s);
    }
  }

  /**
   * The loop of `getStatistics` over the states `ss`, with the per-state query passed in as
   * `lists`: one assignment per state, in order.
   */
  method CountStates(ss: seq<State>, lists: State -> seq<string>) returns (stats: seq<Stat>)
    ensures |stats| == |ss|
    ensures forall k :: 0 <= k < |ss| ==> stats[k] == Stat(StateKey(ss[k]), |lists(ss[k])|)
  {
    stats := [];
    var i := 0;
    while i < |ss|
      invariant 0 <= i <= |ss| && |stats| == i
      invariant forall k :: 0 <= k < i ==> stats[k] == Stat(StateKey(ss[k]), |lists(ss[k])|)
    {
      stats := stats + [Stat(StateKey(ss[i]), |lists(ss[i])|)];
      i := i + 1;
    }
  }

  /* ---------------------------------------------------------------------------
   * Samples and major cities
   * ------------------------------------------------------------------------- */

  /**
   * The inner loop of `getSamplePostcodes` from index `i` on: the codes at positions
   * `i * step`, `(i + 1) * step`, … while fewer than `count` are taken and the position is in range.
   */
  function Pick(codes: seq<string>, count: int, step: nat, i: nat): (r: seq<string>)
    ensures |r| <= if i < count then count - i else 0
    decreases if i < count then count - i else 0
  {
    if i < count && i * step < |codes| then [codes[i * step]] + Pick(codes, count, step, i + 1) else []
  }

  /** The `k`-th code picked from index `i` on is the one at position `(i + k) * step`. */
  lemma {:induction false} PickAt(codes: seq<string>, count: int, step: nat, i: nat, k: nat)
    requires k < |Pick(codes, count, step, i)|
    ensures (i + k) * step < |codes| && Pick(codes, count, step, i)[k] == codes[(i + k) * step]
    decreases k
  {
    if k > 0 {
      PickAt(codes, count, step, i + 1, k - 1);
      assert (i + 1) + (k - 1) == i + k;
    }
  }

  /** One state's sample: `step = Math.floor(length / count)`; no loop iteration runs unless `count > 0`. */
  function Sample(codes: seq<string>, count: int): seq<string> {
    if count <= 0 then [] else Pick(codes, count, |codes| / count, 0)
  }

  /** Every sampled code is one of the codes sampled from. */
  lemma {:induction false} SampleFrom(codes: seq<string>, count: int, x: string)
    requires x in Sample(codes, count)
    ensures x in codes
  {
    var r := Sample(codes, count);
    var k :| 0 <= k < |r| && r[k] == x;
    PickAt(codes, count, |codes| / count, 0, k);
  }

  lemma {:induction false} StepBound(len: nat, count: nat, j: nat)
    requires 0 < len && j < count
    ensures j * (len / count) < len
  {
    var step := len / count;
    assert count * step <= len;
    if step > 0 {
      MultiplyMonotone(j, count - 1, step);
      assert (count - 1) * step == count * step - step;
    }
  }

  lemma {:induction false} MultiplyMonotone(a: nat, b: nat, c: nat)
    requires a <= b
    ensures a * c <= b * c
  {
    assert b * c == a * c + (b - a) * c;
  }

  lemma {:induction false} PickAll(codes: seq<string>, count: nat, i: nat)
    requires codes != [] && 0 < count && i <= count
    ensures |Pick(codes, count, |codes| / count, i)| == count - i
    decreases count - i
  {
    if i < count {
      StepBound(|codes|, count, i);
      PickAll(codes, count, i + 1);
    }
  }

  /** From a non-empty list a positive `count` takes exactly `count` codes, evenly spaced from the first. */
  lemma {:induction false} SampleSize(codes: seq<string>, count: int)
    requires codes != [] && count > 0
    ensures |Sample(codes, count)| == count
  {
    PickAll(codes, count, 0);
  }

  /** The `k`-th sample is the code at position `k * step`. */
  lemma {:induction false} SampleAt(codes: seq<string>, count: int, k: nat)
    requires count > 0 && k < |Sample(codes, count)|
    ensures k * (|codes| / count) < |codes| && Sample(codes, count)[k] == codes[k * (|codes| / count)]
  {
    PickAt(codes, count, |codes| / count, 0, k);
  }

  /** When `count` exceeds the list's length the step is 0, and the first code is taken `count` times. */
  lemma {:induction false} SampleRepeatsFirst(codes: seq<string>, count: int)
    requires 0 < |codes| < count
    ensures Sample(codes, count) == seq(count, _ => codes[0])
  {
    SampleSize(codes, count);
    assert |codes| / count == 0;
    forall k | 0 <= k < count
      ensures Sample(codes, count)[k] == codes[0]
    {
      SampleAt(codes, count, k);
    }
  }

  /**
   * The outer loop of `getSamplePostcodes`: the samples of every state but `EXTERNAL`, in table
   * order, with the per-state query passed in as `lists`.
   */
  function Gather(ss: seq<State>, count: int, lists: State -> seq<string>): seq<string> {
    if ss == [] then []
    else (if ss[0] == EXTERNAL then [] else Sample(lists(ss[0]), count)) + Gather(ss[1..], count, lists)
  }

  /** Whatever is gathered comes from the list of one of the states other than `EXTERNAL`. */
  lemma {:induction false} GatherOrigin(ss: seq<State>, count: int, lists: State -> seq<string>, x: string)
    returns (s: State)
    requires x in Gather(ss, count, lists)
    ensures s in ss && s != EXTERNAL && x in lists(s)
  {
    if ss[0] != EXTERNAL && x in Sample(lists(ss[0]), count) {
      SampleFrom(lists(ss[0]), count, x);
      s := ss[0];
    } else {
      s := GatherOrigin(ss[1..], count, lists, x);
    }
  }

  /** `getSamplePostcodes(count)`: the gathered samples under the default string sort. */
  function SamplePostcodes(count: int): (r: seq<string>)
    ensures Sorting.Sorted(r)
    ensures multiset(r) == multiset(Gather(States, count, StateList))
  {
    Sorting.SortStrings(Gather(States, count, StateList))
  }

  /** Every state's list is non-empty. */
  lemma {:induction false} StateHasPostcodes(s: State)
    ensures StateList(s) != []
  {
    StateListRanges(s);
    var k := StateRange(s);
    BlocksOfPositive(RangeTable, s, k);
  }

  /** A range listed for `s`. */
  lemma {:induction false} StateRange(s: State) returns (k: nat)
    ensures k < |RangeTable| && RangeTable[k].state == s && RangeTable[k].Size() > 0
  {
    k := if s == NSW then 0 else if s == ACT then 4 else if s == VIC then 7 else if s == QLD then 9
      else if s == SA then 11 else if s == WA then 12 else if s == TAS then 14 else if s == NT then 15 else 16;
  }

  lemma {:induction false} BlocksOfPositive(bs: seq<Block>, s: State, k: nat)
    requires k < |bs| && bs[k].state == s && bs[k].Size() > 0
    ensures TotalSize(BlocksOf(bs, s)) > 0
  {
    BlocksOfConsSize(bs[0], bs[1..], s);
    assert bs == [bs[0]] + bs[1..];
    if k > 0 {
      BlocksOfPositive(bs[1..], s, k - 1);
    }
  }

  lemma {:induction false} ListedWitness(s: State, k: nat, n: nat)
    requires k < |RangeTable| && RangeTable[k].state == s && RangeTable[k].Covers(n)
    ensures Text.Pad4(n) in StateList(s)
  {
    PostcodeOf(s, n);
    StateListMember(s, Text.Pad4(n));
  }

  /** The number of entries of a list of states that are not `EXTERNAL`. */
  function Sampled(ss: seq<State>): nat {
    if ss == [] then 0 else (if ss[0] == EXTERNAL then 0 else 1) + Sampled(ss[1..])
  }

  lemma {:induction false} GatherSize(ss: seq<State>, count: int, lists: State -> seq<string>)
    requires count > 0
    requires forall s :: lists(s) != []
    ensures |Gather(ss, count, lists)| == count * Sampled(ss)
  {
    if ss != [] {
      GatherSize(ss[1..], count, lists);
      var m := Sampled(ss[1..]);
      if ss[0] != EXTERNAL {
        PickAll(lists(ss[0]), count, 0);
        Distribute(count, m);
      }
    }
  }

  lemma {:induction false} SampledCount(ss: seq<State>)
    ensures Sampled(ss) + Weight(ss, EXTERNAL, 1) == |ss|
  {
    if ss != [] {
      SampledCount(ss[1..]);
    }
  }

  /** Sorting what is gathered with a positive `count` keeps `count` codes per sampled state. */
  lemma {:induction false} GatheredCount(ss: seq<State>, count: int, lists: State -> seq<string>)
    requires count > 0
    requires forall s :: lists(s) != []
    ensures |Sorting.SortStrings(Gather(ss, count, lists))| == count * Sampled(ss)
  {
    GatherSize(ss, count, lists);
    var g := Gather(ss, count, lists);
    var r := Sorting.SortStrings(g);
    assert |r| == |multiset(r)| == |multiset(g)| == |g|;
  }

  /** Eight of the nine keys are sampled: all but `EXTERNAL`. */
  lemma {:induction false} StatesSampled()
    ensures Sampled(States) == 8
  {
    SampledCount(States);
    WeightOnce(EXTERNAL, 1);
  }

  /** A positive `count` yields `count` samples from each of the eight states and territories. */
  lemma {:induction false} SampleCount(count: int)
    requires count > 0
    ensures |SamplePostcodes(count)| == 8 * count
  {
    EveryStateHasPostcodes();
    GatheredCount(States, count, StateList);
    StatesSampled();
  }
  /** The `count` `getSamplePostcodes` uses when called without one. */
  const DefaultSampleCount := 5

  /** Called without a count, `getSamplePostcodes` returns five codes from each of eight states. */
  lemma {:induction false} DefaultSamples()
    ensures |SamplePostcodes(DefaultSampleCount)| == 40
  {
    SampleCount(DefaultSampleCount);
  }


  lemma {:induction false} EveryStateHasPostcodes()
    ensures forall s :: StateList(s) != []
  {
    forall s
      ensures StateList(s) != []
    {
      StateHasPostcodes(s);
    }
  }

  /** Everything sorted out of a gathering comes from the list of a state that is not `EXTERNAL`. */
  lemma {:induction false} GatheredFrom(ss: seq<State>, count: int, lists: State -> seq<string>, x: string) returns (s: State)
    requires x in Sorting.SortStrings(Gather(ss, count, lists))
    ensures s != EXTERNAL && x in lists(s)
  {
    var g := Gather(ss, count, lists);
    assert x in multiset(g);
    s := GatherOrigin(ss, count, lists, x);
  }

  /** Every sample is a valid postcode whose state is not `EXTERNAL`. */
  lemma {:induction false} SamplesValid(count: int, x: string)
    requires x in SamplePostcodes(count)
    ensures IsValid(x)
    ensures GetState(x).Some? && GetState(x) != Some(EXTERNAL)
  {
    var s := GatheredFrom(States, count, StateList, x);
    InStateList(s, x);
  }

  /** A member of a state's list is its own normal form and `getState` returns that state for it. */
  lemma {:induction false} InStateList(s: State, x: string)
    requires x in StateList(s)
    ensures IsValid(x) && GetState(x) == Some(s)
  {
    StateListMember(s, x);
    var n := ValueOf(x).value;
    assert |x| == 4;
    assert Normalize(x) == x;
    GetStateListed(x, s);
  }

  /** `getMajorCityPostcodes`: Sydney, Melbourne, Brisbane, Adelaide, Perth, Hobart, Darwin, Canberra. */
  function MajorCityPostcodes(): (r: seq<string>)
    ensures |r| == 8 && forall k :: 0 <= k < 8 ==> |r[k]| == 4
  {
    ["2000"] + ["3000"] + ["4000"] + ["5000"] + ["6000"] + ["7000"] + ["0800"] + ["2600"]
  }

  /** The state or territory of each major city, in the order of `getMajorCityPostcodes`. */
  const CityStates: seq<State> := [NSW] + [VIC] + [QLD] + [SA] + [WA] + [TAS] + [NT] + [ACT]

  /** Each major-city postcode is valid and belongs to the state or territory of its city. */
  lemma {:induction false} MajorCitiesListed(k: nat)
    requires k < 8
    ensures GetState(MajorCityPostcodes()[k]) == Some(CityStates[k])
  {
    var n, j := CityRange(k);
    CitySpelling(k, n);
    CityListed(CityStates[k], j, n, MajorCityPostcodes()[k]);
  }

  /** The value of the `k`-th major-city postcode. */
  function CityValue(k: nat): nat
    requires k < 8
  {
    if k == 0 then 2000 else if k == 1 then 3000 else if k == 2 then 4000 else if k == 3 then 5000
    else if k == 4 then 6000 else if k == 5 then 7000 else if k == 6 then 800 else 2600
  }

  /** The value of the `k`-th major-city postcode and a range of its city's state covering it. */
  lemma {:induction false} CityRange(k: nat) returns (n: nat, j: nat)
    requires k < 8
    ensures n == CityValue(k)
    ensures j < |RangeTable| && RangeTable[j].state == CityStates[k] && RangeTable[j].Covers(n)
  {
    n := CityValue(k);
    if k == 0 { j := 1; } else if k == 1 { j := 7; } else if k == 2 { j := 9; } else if k == 3 { j := 11; }
    else if k == 4 { j := 12; } else if k == 5 { j := 14; } else if k == 6 { j := 15; } else { j := 5; }
  }

  lemma {:induction false} CitySpelling(k: nat, n: nat)
    requires k < 8 && n == CityValue(k)
    ensures n < 10000 && MajorCityPostcodes()[k] == Text.Digits4(n)
  {
    if k == 0 {} else if k == 1 {} else if k == 2 {} else if k == 3 {}
    else if k == 4 {} else if k == 5 {} else if k == 6 {} else {}
  }

  lemma {:induction false} CityListed(s: State, k: nat, n: nat, p: string)
    requires k < |RangeTable| && RangeTable[k].state == s && RangeTable[k].Covers(n)
    requires n < 10000 && p == Text.Digits4(n)
    ensures GetState(p) == Some(s)
  {
    Text.Pad4Digits(n);
    ListedWitness(s, k, n);
    InStateList(s, p);
  }

}

=== FILE: sorting.dfy ===
/**
 * `Array.prototype.sort()` without a comparator on a list of strings: the result is the
 * unique ordering of the same strings that is non-decreasing under the default string order.
 */
module Sorting {
  import opened Text

  predicate Sorted(s: seq<string>) {
    forall i, j :: 0 <= i < j < |s| ==> LessEq(s[i], s[j])
  }

  lemma {:induction false} LessEqTransitive(a: string, b: string, c: string)
    requires LessEq(a, b) && LessEq(b, c)
    ensures LessEq(a, c)
  {
    if a != b && b != c {
      LessTransitive(a, b, c);
    }
  }

  lemma {:induction false} LessEqAntisymmetric(a: string, b: string)
    requires LessEq(a, b) && LessEq(b, a)
    ensures a == b
  {
    LessAsymmetric(a, b);
  }

  lemma {:induction false} SortedTail(s: seq<string>)
    requires Sorted(s) && s != []
    ensures Sorted(s[1..])
    ensures forall z :: z in s[1..] ==> LessEq(s[0], z)
  {
    assert forall i :: 0 <= i < |s[1..]| ==> s[1..][i] == s[i + 1];
  }

  lemma {:induction false} SortedCons(x: string, s: seq<string>)
    requires Sorted(s)
    requires forall z :: z in s ==> LessEq(x, z)
    ensures Sorted([x] + s)
  {
    var t := [x] + s;
    forall i, j | 0 <= i < j < |t|
      ensures LessEq(t[i], t[j])
    {
      assert t[j] == s[j - 1];
      if i > 0 {
        assert t[i] == s[i - 1];
      }
    }
  }

  /** Inserts `x` into a sorted list in front of the first element it does not follow. */
  function Insert(x: string, s: seq<string>): (r: seq<string>)
    requires Sorted(s)
    ensures Sorted(r)
    ensures multiset(r) == multiset(s) + multiset{x}
  {
    if s == [] then
      [x]
    else if LessEq(x, s[0]) then
      SortedTail(s);
      assert forall z :: z in s ==> LessEq(x, z) by {
        forall z | z in s
          ensures LessEq(x, z)
        {
          if z != s[0] {
            assert z in s[1..];
            LessEqTransitive(x, s[0], z);
          }
        }
      }
      SortedCons(x, s);
      [x] + s
    else
      SortedTail(s);
      var rest := Insert(x, s[1..]);
      LessTotal(x, s[0]);
      assert forall z :: z in rest ==> LessEq(s[0], z) by {
        forall z | z in rest
          ensures LessEq(s[0], z)
        {
          assert z in multiset(rest);
        }
      }
      SortedCons(s[0], rest);
      assert s == [s[0]] + s[1..];
      [s[0]] + rest
  }

  /** An insertion sort: the same strings, in non-decreasing order. */
  function SortStrings(s: seq<string>): (r: seq<string>)
    ensures Sorted(r)
    ensures multiset(r) == multiset(s)
  {
    if s == [] then
      []
    else
      assert s == s[..|s| - 1] + [s[|s| - 1]];
      Insert(s[|s| - 1], SortStrings(s[..|s| - 1]))
  }

  /**
   * Any two sorted arrangements of the same strings are equal, so the result of the sort does not
   * depend on the algorithm the engine uses.
   */
  lemma {:induction false} SortedUnique(a: seq<string>, b: seq<string>)
    requires Sorted(a) && Sorted(b) && multiset(a) == multiset(b)
    ensures a == b
  {
    if a == [] || b == [] {
      assert |a| == |multiset(a)| == |multiset(b)| == |b|;
    } else {
      SortedHead(a, b);
      SortedTail(a);
      SortedTail(b);
      SameTails(a, b);
      SortedUnique(a[1..], b[1..]);
      assert a == [a[0]] + a[1..] && b == [b[0]] + b[1..];
    }
  }

  /** Two arrangements of the same elements with the same head have tails of the same elements. */
  lemma {:induction false} SameTails<T>(a: seq<T>, b: seq<T>)
    requires multiset(a) == multiset(b) && a != [] && b != [] && a[0] == b[0]
    ensures multiset(a[1..]) == multiset(b[1..])
  {
    assert a == [a[0]] + a[1..] && b == [b[0]] + b[1..];
    assert multiset(a[1..]) == multiset(a) - multiset{a[0]};
    assert multiset(b[1..]) == multiset(b) - multiset{b[0]};
  }

  /** Two sorted arrangements of the same strings start with the same string. */
  lemma {:induction false} SortedHead(a: seq<string>, b: seq<string>)
    requires Sorted(a) && Sorted(b) && multiset(a) == multiset(b) && a != [] && b != []
    ensures a[0] == b[0]
  {
    var x, y := a[0], b[0];
    assert x in multiset(b) && y in multiset(a);
    assert x in b && y in a;
    assert LessEq(y, x) && LessEq(x, y);
    LessEqAntisymmetric(x, y);
  }
}

=== FILE: text.dfy ===
/**
 * The JavaScript string operations the scraper and the postcode catalogue rely on:
 * `trim`, `includes`, `split`, `join`, `padStart`, `toUpperCase`, number-to-string
 * conversion and the default (code-unit) ordering used by `Array.prototype.sort`.
 * Strings are sequences of characters.
 */
module Text {

  /** The characters `String.prototype.trim` removes: ECMAScript WhiteSpace and LineTerminator. */
  predicate IsWhitespace(c: char) {
    || c == '\t' || c == '\n' || c == '\U{000B}' || c == '\U{000C}' || c == '\r' || c == ' '
    || c == '\U{00A0}' || c == '\U{1680}' || ('\U{2000}' <= c <= '\U{200A}')
    || c == '\U{2028}' || c == '\U{2029}' || c == '\U{202F}' || c == '\U{205F}' || c == '\U{3000}'
    || c == '\U{FEFF}'
  }

  predicate AllWhitespace(s: string) {
    forall k :: 0 <= k < |s| ==> IsWhitespace(s[k])
  }

  /** `s` with its leading whitespace removed. */
  function TrimStart(s: string): (r: string)
    ensures |r| <= |s| && r == s[|s| - |r|..]
    ensures AllWhitespace(s[..|s| - |r|])
    ensures r != [] ==> !IsWhitespace(r[0])
  {
    if s == [] then s
    else if IsWhitespace(s[0]) then
      var r := TrimStart(s[1..]);
      assert s[..|s| - |r|] == [s[0]] + s[1..][..|s| - 1 - |r|];
      r
    else s
  }

  /** `s` with its trailing whitespace removed. */
  function TrimEnd(s: string): (r: string)
    ensures |r| <= |s| && r == s[..|r|]
    ensures AllWhitespace(s[|r|..])
    ensures r != [] ==> !IsWhitespace(r[|r| - 1])
  {
    if s == [] then s
    else if IsWhitespace(s[|s| - 1]) then
      var r := TrimEnd(s[..|s| - 1]);
      assert s[|r|..] == s[..|s| - 1][|r|..] + [s[|s| - 1]];
      r
    else s
  }

  /** `s` is `r` with the whitespace `s[..i]` in front and only whitespace after it. */
  predicate Strips(s: string, r: string, i: int) {
    OccursAt(s, r, i) && AllWhitespace(s[..i]) && AllWhitespace(s[i + |r|..])
  }

  /**
   * `String.prototype.trim`: `s` with its leading and trailing whitespace removed and nothing
   * else, so the result neither starts nor ends with whitespace.
   */
  function Trim(s: string): (r: string)
    ensures Strips(s, r, |s| - |TrimStart(s)|)
    ensures Contains(s, r)
    ensures r != [] ==> !IsWhitespace(r[0]) && !IsWhitespace(r[|r| - 1])
    ensures r == [] <==> AllWhitespace(s)
  {
    var t := TrimStart(s);
    var r := TrimEnd(t);
    StripsBothEnds(s, t, r);
    r
  }

  /**
   * Trimming has one answer: a slice of `s` surrounded only by whitespace that neither starts
   * nor ends with whitespace, and is empty only when `s` is all whitespace, is `Trim(s)`.
   */
  lemma {:induction false} TrimUnique(s: string, r: string, i: int)
    requires Strips(s, r, i)
    requires r != [] ==> !IsWhitespace(r[0]) && !IsWhitespace(r[|r| - 1])
    requires r == [] <==> AllWhitespace(s)
    ensures r == Trim(s)
  {
    var t, j := Trim(s), |s| - |TrimStart(s)|;
    if r != [] && t != [] {
      // Both start at the first non-whitespace character and end at the last one.
      SameFirst(s, i, j);
      SameLast(s, i + |r|, j + |t|);
      assert r == s[i..i + |r|] == t;
    }
  }

  /** Two offsets that each end a whitespace prefix at a non-whitespace character coincide. */
  lemma SameFirst(s: string, i: int, j: int)
    requires 0 <= i < |s| && 0 <= j < |s|
    requires AllWhitespace(s[..i]) && AllWhitespace(s[..j])
    requires !IsWhitespace(s[i]) && !IsWhitespace(s[j])
    ensures i == j
  {
    if i < j { WhitespaceBefore(s, i, j); }
    if j < i { WhitespaceBefore(s, j, i); }
  }

  /** Two offsets that each start a whitespace suffix after a non-whitespace character coincide. */
  lemma SameLast(s: string, e: int, f: int)
    requires 0 < e <= |s| && 0 < f <= |s|
    requires AllWhitespace(s[e..]) && AllWhitespace(s[f..])
    requires !IsWhitespace(s[e - 1]) && !IsWhitespace(s[f - 1])
    ensures e == f
  {
    if e < f { WhitespaceAfter(s, e, f - 1); }
    if f < e { WhitespaceAfter(s, f, e - 1); }
  }

  /** Every character in front of a whitespace prefix's end is whitespace. */
  lemma WhitespaceBefore(s: string, i: int, j: int)
    requires 0 <= i < j <= |s| && AllWhitespace(s[..j])
    ensures IsWhitespace(s[i])
  {
    assert s[..j][i] == s[i];
  }

  /** Every character of a whitespace suffix is whitespace. */
  lemma WhitespaceAfter(s: string, j: int, i: int)
    requires 0 <= j <= i < |s| && AllWhitespace(s[j..])
    ensures IsWhitespace(s[i])
  {
    assert s[j..][i - j] == s[i];
  }

  /**
   * Removing whitespace at the front and then at the back strips `s` down to the middle, which
   * is empty exactly when `s` is all whitespace.
   */
  lemma StripsBothEnds(s: string, t: string, r: string)
    requires |t| <= |s| && t == s[|s| - |t|..] && AllWhitespace(s[..|s| - |t|])
    requires t != [] ==> !IsWhitespace(t[0])
    requires |r| <= |t| && r == t[..|r|] && AllWhitespace(t[|r|..])
    ensures Strips(s, r, |s| - |t|)
    ensures Contains(s, r)
    ensures r == [] <==> AllWhitespace(s)
  {
    var i := |s| - |t|;
    assert s[i + |r|..] == t[|r|..];
    assert OccursAt(s, r, i);
    if r == [] {
      assert s == s[..i] + t;
    } else {
      assert s[i] == t[0];
    }
  }

  /** `part` occurs in `s` starting at offset `i`. */
  predicate OccursAt(s: string, part: string, i: int) {
    0 <= i && i + |part| <= |s| && s[i..i + |part|] == part
  }

  /** `s.includes(part)`: `part` occurs in `s` at some offset. */
  predicate Contains(s: string, part: string) {
    exists i | 0 <= i <= |s| :: OccursAt(s, part, i)
  }

  /** A single character occurs in `s`. */
  lemma {:induction false} ContainsChar(s: string, c: char)
    ensures Contains(s, [c]) <==> c in s
  {
    if c in s {
      var i :| 0 <= i < |s| && s[i] == c;
      assert OccursAt(s, [c], i);
    }
    if Contains(s, [c]) {
      var i :| 0 <= i <= |s| && OccursAt(s, [c], i);
      assert s[i] == s[i..i + 1][0] == c;
    }
  }

  /** A string containing `part` contains every piece of it. */
  lemma {:induction false} ContainsSlice(s: string, part: string, lo: int, hi: int)
    requires Contains(s, part) && 0 <= lo <= hi <= |part|
    ensures Contains(s, part[lo..hi])
  {
    var i :| 0 <= i <= |s| && OccursAt(s, part, i);
    var piece := part[lo..hi];
    forall k | 0 <= k < |piece|
      ensures s[i + lo + k] == piece[k]
    {
      assert piece[k] == part[lo + k] == s[i..i + |part|][lo + k];
    }
    assert s[i + lo..i + lo + |piece|] == piece;
    assert OccursAt(s, part[lo..hi], i + lo);
  }

  /** `s.split(sep)` for a one-character separator: the pieces between separators, empty ones kept. */
  function Split(s: string, sep: char): (r: seq<string>)
    ensures |r| >= 1
    ensures forall k :: 0 <= k < |r| ==> sep !in r[k]
  {
    if s == [] then [[]]
    else
      var rest := Split(s[1..], sep);
      if s[0] == sep then [[]] + rest
      else [[s[0]] + rest[0]] + rest[1..]
  }

  /** `parts.join(sep)` for a one-character separator; `[].join(sep)` is the empty string. */
  function Join(parts: seq<string>, sep: char): string {
    if parts == [] then []
    else if |parts| == 1 then parts[0]
    else parts[0] + [sep] + Join(parts[1..], sep)
  }

  /** Joining the pieces of a split restores the string. */
  lemma {:induction false} JoinSplit(s: string, sep: char)
    ensures Join(Split(s, sep), sep) == s
  {
    if s != [] {
      JoinSplit(s[1..], sep);
      var rest := Split(s[1..], sep);
      if s[0] != sep {
        if |rest| == 1 {
          assert Join(rest, sep) == rest[0];
        } else {
          assert Join(rest, sep) == rest[0] + [sep] + Join(rest[1..], sep);
        }
      }
    }
  }

  /** Splitting a join of separator-free pieces restores the pieces. */
  lemma {:induction false} SplitJoin(parts: seq<string>, sep: char)
    requires |parts| >= 1
    requires forall k :: 0 <= k < |parts| ==> sep !in parts[k]
    ensures Split(Join(parts, sep), sep) == parts
  {
    if |parts| == 1 {
      SplitPiece(parts[0], sep);
    } else {
      SplitJoin(parts[1..], sep);
      SplitPrefix(parts[0], Join(parts[1..], sep), sep);
      assert Join(parts, sep) == parts[0] + ([sep] + Join(parts[1..], sep));
    }
  }

  /** A separator-free string splits into itself. */
  lemma {:induction false} SplitPiece(w: string, sep: char)
    requires sep !in w
    ensures Split(w, sep) == [w]
  {
    if w != [] {
      SplitPiece(w[1..], sep);
      assert [w[0]] + w[1..] == w;
    }
  }

  /** Splitting `w + [sep] + t` for a separator-free `w` yields `w` followed by the pieces of `t`. */
  lemma {:induction false} SplitPrefix(w: string, t: string, sep: char)
    requires sep !in w
    ensures Split(w + ([sep] + t), sep) == [w] + Split(t, sep)
  {
    if w == [] {
      assert w + ([sep] + t) == [sep] + t;
      assert ([sep] + t)[1..] == t;
    } else {
      SplitPrefix(w[1..], t, sep);
      assert (w + ([sep] + t))[1..] == w[1..] + ([sep] + t);
      assert [w[0]] + w[1..] == w;
    }
  }

  /** The non-empty members of `parts`, in order (`parts.filter(p => p.length > 0)`). */
  function NonEmpty(parts: seq<string>): (r: seq<string>)
    ensures |r| <= |parts|
    ensures forall k :: 0 <= k < |r| ==> r[k] != [] && r[k] in parts
    ensures forall k :: 0 <= k < |parts| && parts[k] != [] ==> parts[k] in r
  {
    if parts == [] then []
    else if parts[0] == [] then NonEmpty(parts[1..])
    else [parts[0]] + NonEmpty(parts[1..])
  }

  /** Filtering keeps order: a piece added at the end is kept at the end exactly when it is non-empty. */
  lemma {:induction false} NonEmptySnoc(parts: seq<string>, p: string)
    ensures NonEmpty(parts + [p]) == NonEmpty(parts) + (if p == [] then [] else [p])
    decreases |parts|
  {
    if parts != [] {
      assert (parts + [p])[1..] == parts[1..] + [p];
      NonEmptySnoc(parts[1..], p);
    } else {
      assert NonEmpty([p]) == (if p == [] then [] else [p]) + NonEmpty([]);
    }
  }

  /** Filtering a concatenation filters each part. */
  lemma {:induction false} NonEmptyAppend(a: seq<string>, b: seq<string>)
    ensures NonEmpty(a + b) == NonEmpty(a) + NonEmpty(b)
  {
    if a != [] {
      assert (a + b)[1..] == a[1..] + b;
      NonEmptyAppend(a[1..], b);
    } else {
      assert a + b == b;
    }
  }

  /** Splitting at a separator between two strings splits each of them. */
  lemma {:induction false} SplitAround(a: string, b: string, sep: char)
    ensures Split(a + [sep] + b, sep) == Split(a, sep) + Split(b, sep)
    ensures Split(a + ([sep] + b), sep) == Split(a, sep) + Split(b, sep)
  {
    assert a + [sep] + b == a + ([sep] + b);
    if a == [] {
      assert a + ([sep] + b) == [sep] + b;
      assert ([sep] + b)[1..] == b;
    } else {
      assert (a + ([sep] + b))[1..] == a[1..] + ([sep] + b);
      SplitAround(a[1..], b, sep);
    }
  }

  /** The space-separated tokens of `s`: `s.split(' ').filter(p => p.length > 0)`. */
  function Words(s: string): (r: seq<string>)
    ensures forall k :: 0 <= k < |r| ==> r[k] != [] && ' ' !in r[k]
  {
    NonEmpty(Split(s, ' '))
  }

  /** A token list joined by single spaces splits back into the same tokens. */
  lemma {:induction false} WordsOfJoin(ws: seq<string>)
    requires |ws| >= 1
    requires forall k :: 0 <= k < |ws| ==> ws[k] != [] && ' ' !in ws[k]
    ensures Words(Join(ws, ' ')) == ws
  {
    SplitJoin(ws, ' ');
    NonEmptyIdentity(ws);
  }

  lemma {:induction false} NonEmptyIdentity(ws: seq<string>)
    requires forall k :: 0 <= k < |ws| ==> ws[k] != []
    ensures NonEmpty(ws) == ws
  {
    if ws != [] {
      NonEmptyIdentity(ws[1..]);
    }
  }

  /** ASCII upper case; every other character is kept. */
  function UpperChar(c: char): char {
    if 'a' <= c <= 'z' then (c as int - 32) as char else c
  }

  /** ASCII lower case; every other character is kept. */
  function LowerChar(c: char): char {
    if 'A' <= c <= 'Z' then (c as int + 32) as char else c
  }

  /** `s.toUpperCase()` restricted to ASCII letters. */
  function ToUpper(s: string): (r: string)
    ensures |r| == |s| && forall k :: 0 <= k < |s| ==> r[k] == UpperChar(s[k])
  {
    if s == [] then [] else [UpperChar(s[0])] + ToUpper(s[1..])
  }

  /** ASCII lower case of a whole string. */
  function ToLower(s: string): (r: string)
    ensures |r| == |s| && forall k :: 0 <= k < |s| ==> r[k] == LowerChar(s[k])
  {
    if s == [] then [] else [LowerChar(s[0])] + ToLower(s[1..])
  }

  /** Upper-casing a string that has no lower-case ASCII letter leaves it unchanged. */
  lemma {:induction false} UpperIdentity(s: string)
    requires forall k :: 0 <= k < |s| ==> !('a' <= s[k] <= 'z')
    ensures ToUpper(s) == s
  {
  }

  /** `part` occurs in `s` when ASCII letter case is ignored (a regular expression with the `i` flag). */
  predicate ContainsIgnoringCase(s: string, part: string) {
    Contains(ToLower(s), ToLower(part))
  }

  /** The character for a decimal digit. */
  function DigitChar(d: nat): (c: char)
    requires d < 10
    ensures '0' <= c <= '9'
  {
    ('0' as int + d) as char
  }

  predicate IsDigits(s: string) {
    forall k :: 0 <= k < |s| ==> '0' <= s[k] <= '9'
  }

  /** `n.toString()` for a non-negative integer: its decimal digits, without leading zeros. */
  function ToDecimal(n: nat): (r: string)
    ensures |r| >= 1 && IsDigits(r)
    ensures n >= 10 ==> r[0] != '0'
  {
    if n < 10 then [DigitChar(n)] else ToDecimal(n / 10) + [DigitChar(n % 10)]
  }

  /** The value of a string of decimal digits (leading zeros allowed). */
  function DecimalValue(s: string): nat
    requires IsDigits(s)
  {
    if s == [] then 0 else DecimalValue(s[..|s| - 1]) * 10 + (s[|s| - 1] as int - '0' as int)
  }

  /** Reading back the decimal rendering of `n` gives `n`. */
  lemma {:induction false} DecimalRoundTrip(n: nat)
    ensures DecimalValue(ToDecimal(n)) == n
  {
    if n >= 10 {
      DecimalRoundTrip(n / 10);
      var s := ToDecimal(n);
      assert s[..|s| - 1] == ToDecimal(n / 10);
    }
  }

  /** Numbers from `10^4` up have at least five digits. */
  lemma {:induction false} DecimalWide(n: nat)
    requires n >= 10000
    ensures |ToDecimal(n)| >= 5
  {
    var a := n / 10;
    var b := a / 10;
    var c := b / 10;
    assert c >= 10 && b >= 100 && a >= 1000;
    assert |ToDecimal(c)| >= 2;
    assert |ToDecimal(b)| >= 3;
    assert |ToDecimal(a)| >= 4;
  }

  /** Numbers below `10^4` have at most four digits. */
  lemma {:induction false} DecimalLength(n: nat)
    requires n < 10000
    ensures |ToDecimal(n)| <= 4
  {
    if n >= 10 {
      DecimalLength3(n / 10);
    }
  }

  lemma {:induction false} DecimalLength3(n: nat)
    requires n < 1000
    ensures |ToDecimal(n)| <= 3
  {
    if n >= 10 {
      DecimalLength2(n / 10);
    }
  }

  lemma {:induction false} DecimalLength2(n: nat)
    requires n < 100
    ensures |ToDecimal(n)| <= 2
  {
  }

  /** Leading zeros do not change a decimal value. */
  lemma {:induction false} LeadingZeros(z: string, s: string)
    requires forall k :: 0 <= k < |z| ==> z[k] == '0'
    requires IsDigits(s)
    ensures IsDigits(z + s) && DecimalValue(z + s) == DecimalValue(s)
  {
    if s == [] {
      ZerosValue(z);
      assert z + s == z;
    } else {
      LeadingZeros(z, s[..|s| - 1]);
      assert (z + s)[..|z + s| - 1] == z + s[..|s| - 1];
    }
  }

  lemma {:induction false} ZerosValue(z: string)
    requires forall k :: 0 <= k < |z| ==> z[k] == '0'
    ensures IsDigits(z) && DecimalValue(z) == 0
  {
    if z != [] {
      ZerosValue(z[..|z| - 1]);
    }
  }

  /** `width` copies of `c`. */
  function Repeat(c: char, width: nat): (r: string)
    ensures |r| == width && forall k :: 0 <= k < width ==> r[k] == c
  {
    if width == 0 then [] else [c] + Repeat(c, width - 1)
  }

  /** `s.padStart(width, fill)`: `s` unchanged when it is already `width` long, else fill characters in front. */
  function PadStart(s: string, width: nat, fill: char): (r: string)
    ensures |s| >= width ==> r == s
    ensures |s| < width ==> |r| == width && r[width - |s|..] == s
    ensures forall k :: 0 <= k < |r| - |s| ==> r[k] == fill
  {
    if |s| >= width then s else Repeat(fill, width - |s|) + s
  }

  /** `n.toString().padStart(4, '0')`: the four-character form of a postcode. */
  function Pad4(n: nat): string {
    PadStart(ToDecimal(n), 4, '0')
  }

  /** Below `10^4` the four-character form has exactly four digits and reads back as `n`. */
  lemma {:induction false} Pad4Shape(n: nat)
    requires n < 10000
    ensures |Pad4(n)| == 4 && IsDigits(Pad4(n))
    ensures DecimalValue(Pad4(n)) == n
  {
    var d := ToDecimal(n);
    DecimalLength(n);
    DecimalRoundTrip(n);
    var z := Repeat('0', 4 - |d|);
    assert Pad4(n) == z + d;
    LeadingZeros(z, d);
  }

  /** Distinct numbers below `10^4` have distinct four-character forms. */
  lemma {:induction false} Pad4Injective(a: nat, b: nat)
    requires a < 10000 && b < 10000
    ensures Pad4(a) == Pad4(b) <==> a == b
  {
    Pad4Shape(a);
    Pad4Shape(b);
  }

  /** The four digits of a number below `10^4`, most significant first. */
  function Digits4(n: nat): (r: string)
    requires n < 10000
    ensures |r| == 4
  {
    [DigitChar(n / 10 / 10 / 10), DigitChar(n / 10 / 10 % 10), DigitChar(n / 10 % 10), DigitChar(n % 10)]
  }

  /** Division by ten of a number written as its leading part and its last digit. */
  lemma {:induction false} DivTen(x: nat, d: nat)
    requires d < 10
    ensures (10 * x + d) / 10 == x && (10 * x + d) % 10 == d
  {
  }

  /** The digit character of a decimal digit character's value is that character. */
  lemma {:induction false} DigitCharOf(c: char)
    requires '0' <= c <= '9'
    ensures c as int - '0' as int < 10 && DigitChar(c as int - '0' as int) == c
  {
  }

  /** Zero padding to four characters spells out all four digits. */
  lemma {:induction false} Pad4Digits(n: nat)
    requires n < 10000
    ensures Pad4(n) == Digits4(n)
  {
    var m := n / 10;
    var q := m / 10;
    var p := q / 10;
    DivTen(m, n % 10);
    DivTen(q, m % 10);
    DivTen(p, q % 10);
    if n < 10 {
      Pad4Digits1(n);
    } else if n < 100 {
      Pad4Digits2(n, m);
    } else if n < 1000 {
      Pad4Digits3(n, m, q);
    } else {
      Pad4Digits4(n, m, q, p);
    }
  }

  lemma {:induction false} Pad4Digits1(n: nat)
    requires n < 10
    ensures Pad4(n) == Digits4(n)
  {
    assert ToDecimal(n) == [DigitChar(n)];
    assert Pad4(n) == Repeat('0', 3) + [DigitChar(n)];
  }

  lemma {:induction false} Pad4Digits2(n: nat, m: nat)
    requires 10 <= n < 100 && m == n / 10 && 1 <= m < 10
    ensures Pad4(n) == Digits4(n)
  {
    assert ToDecimal(m) == [DigitChar(m)];
    assert ToDecimal(n) == [DigitChar(m), DigitChar(n % 10)];
    assert Pad4(n) == Repeat('0', 2) + ToDecimal(n);
  }

  lemma {:induction false} Pad4Digits3(n: nat, m: nat, q: nat)
    requires 100 <= n < 1000 && m == n / 10 && q == m / 10 && 10 <= m < 100 && 1 <= q < 10
    ensures Pad4(n) == Digits4(n)
  {
    assert ToDecimal(q) == [DigitChar(q)];
    assert ToDecimal(m) == [DigitChar(q), DigitChar(m % 10)];
    assert ToDecimal(n) == [DigitChar(q), DigitChar(m % 10), DigitChar(n % 10)];
    assert Pad4(n) == Repeat('0', 1) + ToDecimal(n);
  }

  lemma {:induction false} Pad4Digits4(n: nat, m: nat, q: nat, p: nat)
    requires 1000 <= n < 10000 && m == n / 10 && q == m / 10 && p == q / 10
    requires 100 <= m < 1000 && 10 <= q < 100 && 1 <= p < 10
    ensures Pad4(n) == Digits4(n)
  {
    assert ToDecimal(p) == [DigitChar(p)];
    assert ToDecimal(q) == [DigitChar(p), DigitChar(q % 10)];
    assert ToDecimal(m) == [DigitChar(p), DigitChar(q % 10), DigitChar(m % 10)];
    assert ToDecimal(n) == [DigitChar(p), DigitChar(q % 10), DigitChar(m % 10), DigitChar(n % 10)];
  }

  /** The value of a digit string with one more digit at the end. */
  lemma {:induction false} DecimalSnoc(s: string)
    requires IsDigits(s) && s != []
    ensures IsDigits(s[..|s| - 1])
    ensures DecimalValue(s) == 10 * DecimalValue(s[..|s| - 1]) + (s[|s| - 1] as int - '0' as int)
  {
  }

  /** Four decimal digits, read as a number and padded back to four characters, are unchanged. */
  lemma {:induction false} Pad4OfValue(q: string)
    requires |q| == 4 && IsDigits(q)
    ensures DecimalValue(q) < 10000 && Pad4(DecimalValue(q)) == q
  {
    var a, b, c, d := q[0] as int - '0' as int, q[1] as int - '0' as int, q[2] as int - '0' as int, q[3] as int - '0' as int;
    DecimalSnoc(q[..1]);
    assert q[..1][..0] == [];
    DecimalSnoc(q[..2]);
    assert q[..2][..1] == q[..1];
    DecimalSnoc(q[..3]);
    assert q[..3][..2] == q[..2];
    DecimalSnoc(q);
    assert q[..4][..3] == q[..3] && q[..4] == q;
    var n := 10 * (10 * (10 * a + b) + c) + d;
    assert DecimalValue(q) == n;
    SpellDigits(q);
    Digits4Of(a, b, c, d);
    Pad4Digits(n);
  }

  /** Four digit characters are the digit characters of their values. */
  lemma {:induction false} SpellDigits(q: string)
    requires |q| == 4 && IsDigits(q)
    ensures var a, b, c, d := q[0] as int - '0' as int, q[1] as int - '0' as int, q[2] as int - '0' as int, q[3] as int - '0' as int;
      && 0 <= a < 10 && 0 <= b < 10 && 0 <= c < 10 && 0 <= d < 10
      && q == [DigitChar(a), DigitChar(b), DigitChar(c), DigitChar(d)]
  {
    DigitCharOf(q[0]);
    DigitCharOf(q[1]);
    DigitCharOf(q[2]);
    DigitCharOf(q[3]);
  }

  /** The four digits of a number given by its four digits. */
  lemma {:induction false} Digits4Of(a: nat, b: nat, c: nat, d: nat)
    requires a < 10 && b < 10 && c < 10 && d < 10
    ensures 10 * (10 * (10 * a + b) + c) + d < 10000
    ensures Digits4(10 * (10 * (10 * a + b) + c) + d) == [DigitChar(a), DigitChar(b), DigitChar(c), DigitChar(d)]
  {
    var ab := 10 * a + b;
    var abc := 10 * ab + c;
    var n := 10 * abc + d;
    DivTen(abc, d);
    DivTen(ab, c);
    DivTen(a, b);
    assert n / 10 == abc && abc / 10 == ab && ab / 10 == a;
  }

  /** The four digits of `n` as numbers, with `n` their weighted sum. */
  lemma {:induction false} DigitsOf(n: nat) returns (d3: nat, d2: nat, d1: nat, d0: nat)
    requires n < 10000
    ensures d3 < 10 && d2 < 10 && d1 < 10 && d0 < 10
    ensures n == 1000 * d3 + 100 * d2 + 10 * d1 + d0
    ensures Pad4(n) == [DigitChar(d3), DigitChar(d2), DigitChar(d1), DigitChar(d0)]
  {
    Pad4Digits(n);
    var m := n / 10;
    var q := m / 10;
    d3, d2, d1, d0 := q / 10, q % 10, m % 10, n % 10;
    assert n == 10 * m + d0;
    assert m == 10 * q + d1;
    assert q == 10 * d3 + d2;
  }

  /** Strings of equal length compare at their first differing character. */
  lemma {:induction false} LessAt(x: string, y: string, i: nat)
    requires |x| == |y| && i < |x|
    requires x[..i] == y[..i] && x[i] != y[i]
    ensures Less(x, y) <==> x[i] < y[i]
  {
    if i > 0 {
      assert x[1..][..i - 1] == x[..i][1..];
      assert y[1..][..i - 1] == y[..i][1..];
      LessAt(x[1..], y[1..], i - 1);
    }
  }

  /** For four-character postcodes, string order and numeric order agree. */
  lemma {:induction false} Pad4Order(a: nat, b: nat)
    requires a < 10000 && b < 10000
    ensures Less(Pad4(a), Pad4(b)) <==> a < b
  {
    var a3, a2, a1, a0 := DigitsOf(a);
    var b3, b2, b1, b0 := DigitsOf(b);
    WeightedOrder(a3, a2, a1, a0, b3, b2, b1, b0);
    LessDigits4(a3, a2, a1, a0, b3, b2, b1, b0);
  }

  /** Four-digit strings compare as their first differing digits. */
  lemma {:induction false} LessDigits4(a3: nat, a2: nat, a1: nat, a0: nat, b3: nat, b2: nat, b1: nat, b0: nat)
    requires a3 < 10 && a2 < 10 && a1 < 10 && a0 < 10 && b3 < 10 && b2 < 10 && b1 < 10 && b0 < 10
    ensures var x, y := [DigitChar(a3), DigitChar(a2), DigitChar(a1), DigitChar(a0)],
                        [DigitChar(b3), DigitChar(b2), DigitChar(b1), DigitChar(b0)];
      && (a3 != b3 ==> (Less(x, y) <==> a3 < b3))
      && (a3 == b3 && a2 != b2 ==> (Less(x, y) <==> a2 < b2))
      && (a3 == b3 && a2 == b2 && a1 != b1 ==> (Less(x, y) <==> a1 < b1))
      && (a3 == b3 && a2 == b2 && a1 == b1 && a0 != b0 ==> (Less(x, y) <==> a0 < b0))
      && (a3 == b3 && a2 == b2 && a1 == b1 && a0 == b0 ==> !Less(x, y))
  {
    var x, y := [DigitChar(a3), DigitChar(a2), DigitChar(a1), DigitChar(a0)],
                [DigitChar(b3), DigitChar(b2), DigitChar(b1), DigitChar(b0)];
    if a3 != b3 {
      assert x[..0] == y[..0];
      DigitAt(x, y, 0, a3, b3);
    } else if a2 != b2 {
      assert x[..1] == y[..1];
      DigitAt(x, y, 1, a2, b2);
    } else if a1 != b1 {
      assert x[..2] == y[..2];
      DigitAt(x, y, 2, a1, b1);
    } else if a0 != b0 {
      assert x[..3] == y[..3];
      DigitAt(x, y, 3, a0, b0);
    } else {
      LessIrreflexive(x);
    }
  }

  /** Equal-length strings that first differ in a digit compare as those digits. */
  lemma {:induction false} DigitAt(x: string, y: string, i: nat, d: nat, e: nat)
    requires |x| == |y| && i < |x| && x[..i] == y[..i]
    requires d < 10 && e < 10 && d != e && x[i] == DigitChar(d) && y[i] == DigitChar(e)
    ensures Less(x, y) <==> d < e
  {
    DigitCharOrder(d, e);
    DigitCharOrder(e, d);
    LessAt(x, y, i);
  }

  /** Digit characters are ordered as their values. */
  lemma {:induction false} DigitCharOrder(d: nat, e: nat)
    requires d < 10 && e < 10
    ensures DigitChar(d) < DigitChar(e) <==> d < e
  {
  }

  /** Numbers given by four digits compare at their first differing digit. */
  lemma {:induction false} WeightedOrder(a3: nat, a2: nat, a1: nat, a0: nat, b3: nat, b2: nat, b1: nat, b0: nat)
    requires a3 < 10 && a2 < 10 && a1 < 10 && a0 < 10 && b3 < 10 && b2 < 10 && b1 < 10 && b0 < 10
    ensures var a, b := 1000 * a3 + 100 * a2 + 10 * a1 + a0, 1000 * b3 + 100 * b2 + 10 * b1 + b0;
      && (a3 != b3 ==> (a < b <==> a3 < b3))
      && (a3 == b3 && a2 != b2 ==> (a < b <==> a2 < b2))
      && (a3 == b3 && a2 == b2 && a1 != b1 ==> (a < b <==> a1 < b1))
      && (a3 == b3 && a2 == b2 && a1 == b1 ==> (a < b <==> a0 < b0))
  {
  }

  /**
   * `a` sorts strictly before `b` under the default comparison of `Array.prototype.sort`
   * (character by character; a proper prefix sorts first).
   */
  predicate Less(a: string, b: string) {
    if a == [] then b != []
    else if b == [] then false
    else if a[0] != b[0] then a[0] < b[0]
    else Less(a[1..], b[1..])
  }

  predicate LessEq(a: string, b: string) {
    a == b || Less(a, b)
  }

  lemma {:induction false} LessIrreflexive(a: string)
    ensures !Less(a, a)
  {
    if a != [] {
      LessIrreflexive(a[1..]);
    }
  }

  /** Any two strings are comparable. */
  lemma {:induction false} LessTotal(a: string, b: string)
    ensures Less(a, b) || a == b || Less(b, a)
  {
    if a != [] && b != [] && a[0] == b[0] {
      LessTotal(a[1..], b[1..]);
      if a[1..] == b[1..] {
        assert a == [a[0]] + a[1..] && b == [b[0]] + b[1..];
      }
    }
  }

  lemma {:induction false} LessAsymmetric(a: string, b: string)
    ensures Less(a, b) ==> !Less(b, a)
  {
    if a != [] && b != [] && a[0] == b[0] {
      LessAsymmetric(a[1..], b[1..]);
    }
  }

  lemma {:induction false} LessTransitive(a: string, b: string, c: string)
    requires Less(a, b) && Less(b, c)
    ensures Less(a, c)
  {
    if a != [] && a[0] == b[0] && b[0] == c[0] {
      LessTransitive(a[1..], b[1..], c[1..]);
    }
  }
}

=== FILE: textscan.dfy ===
/**
 * The text tier of member extraction: the page's visible text is cut into trimmed non-blank lines,
 * every line holding an email address opens a new member, and the lines up to the next such line
 * fill in that member's phone, address, company, designation and website.
 */
module TextScan {
  import opened Wrappers
  import opened Text
  import opened Members

  /** Lines containing any of these are navigation and interface text and are skipped. */
  const BoilerplateMarkers: seq<string> :=
    ["Skip to"] + ["STEP"] + ["Load More"] + ["Toggle"] + ["Filter"] + ["Sort by"]

  /** A line containing any of these is taken as an address. */
  const AddressMarkers: seq<string> :=
    [" VIC "] + [" NSW "] + [" QLD "] + [" SA "] + [" WA "] + [", VIC,"] + [", NSW,"] +
    [", QLD,"] + [", SA,"] + [", WA,"]

  /** A line containing any of these (and short, without `@` or `http`) is taken as a company. */
  const CompanyMarkers: seq<string> :=
    ["Pty Ltd"] + ["& Associates"] + ["Limited"] + ["Partners"] + ["Group"] + ["Accounting"] +
    ["Advisory"] + ["Chartered"]

  /** A line that is exactly one of these is taken as a designation. */
  const TextDesignations: set<string> := {"CA", "FCA", "CPA", "FCPA"}

  /** How many lines above an email line are searched for the member's name. */
  const NameWindow: nat := 8

  /** Whether `s` contains one of `markers` (a chain of `includes` tests joined by `||`). */
  predicate ContainsAny(s: string, markers: seq<string>) {
    markers != [] && (Contains(s, markers[0]) || ContainsAny(s, markers[1..]))
  }

  predicate IsBoilerplate(line: string) {
    ContainsAny(line, BoilerplateMarkers)
  }

  predicate IsAddressLine(line: string) {
    ContainsAny(line, AddressMarkers)
  }

  predicate IsCompanyLine(line: string) {
    ContainsAny(line, CompanyMarkers) && |line| < 100 && '@' !in line && !Contains(line, "http")
  }

  /* ---------------------------------------------------------------------------
   * Lines of the page
   * ------------------------------------------------------------------------- */

  /** `xs.map(f)`. */
  function MapSeq<A, B>(f: A -> B, xs: seq<A>): (r: seq<B>)
    ensures |r| == |xs| && forall j :: 0 <= j < |xs| ==> r[j] == f(xs[j])
  {
    seq(|xs|, j requires 0 <= j < |xs| => f(xs[j]))
  }

  /** Mapping a concatenation maps each part. */
  lemma MapSeqAppend<A, B>(f: A -> B, x: seq<A>, y: seq<A>)
    ensures MapSeq(f, x + y) == MapSeq(f, x) + MapSeq(f, y)
  {
    var l, r := MapSeq(f, x + y), MapSeq(f, x) + MapSeq(f, y);
    forall j | 0 <= j < |l|
      ensures l[j] == r[j]
    {
      if j < |x| {
        assert (x + y)[j] == x[j];
      } else {
        assert (x + y)[j] == y[j - |x|];
      }
    }
  }

  /** Every piece, trimmed. */
  function Trimmed(pieces: seq<string>): (r: seq<string>)
    ensures |r| == |pieces| && forall j :: 0 <= j < |pieces| ==> r[j] == Trim(pieces[j])
  {
    MapSeq(Trim, pieces)
  }

  /**
   * `innerText.split('\n').filter(line => line.trim().length > 0)`, each line then trimmed: the
   * trimmed text of every non-blank piece, and nothing else.
   */
  function PageLines(text: string): (r: seq<string>)
    ensures forall k :: 0 <= k < |r| ==> r[k] != [] && r[k] in Trimmed(Split(text, '\n'))
    ensures var ts := Trimmed(Split(text, '\n'));
            forall j :: 0 <= j < |ts| && ts[j] != [] ==> ts[j] in r
  {
    var ts := Trimmed(Split(text, '\n'));
    NonEmpty(ts)
  }

  /** A text without a line break is one line: its trimmed text, or nothing when it is blank. */
  lemma {:induction false} PageLinesOfLine(text: string)
    requires '\n' !in text
    ensures PageLines(text) == if Trim(text) == [] then [] else [Trim(text)]
  {
    SplitPiece(text, '\n');
    assert Trimmed([text]) == [Trim(text)];
    NonEmptySnoc([], Trim(text));
  }

  /** A line break between two texts keeps the lines of each, in order, and adds or merges none. */
  lemma {:induction false} PageLinesJoin(a: string, b: string)
    ensures PageLines(a + ['\n'] + b) == PageLines(a) + PageLines(b)
  {
    SplitAround(a, b, '\n');
    var x, y := Split(a, '\n'), Split(b, '\n');
    TrimmedAppend(x, y);
    NonEmptyAppend(Trimmed(x), Trimmed(y));
  }

  lemma TrimmedAppend(x: seq<string>, y: seq<string>)
    ensures Trimmed(x + y) == Trimmed(x) + Trimmed(y)
  {
    MapSeqAppend(Trim, x, y);
  }


  /* ---------------------------------------------------------------------------
   * Starting a member at an email line
   * ------------------------------------------------------------------------- */

  /** A line above an email line that may hold the member's name. */
  predicate NameCandidate(m: Matchers, t: string) {
    m.nameShaped(t) && '@' !in t && !Contains(t, "http") && !Contains(t, "www") && 5 < |t| < 60
  }

  /** The first name candidate among `lines[j..i]`, scanning downwards from `j`. */
  function FindName(m: Matchers, lines: seq<string>, j: nat, i: nat): Option<string>
    requires j <= i <= |lines|
    decreases i - j
  {
    if j == i then None
    else if NameCandidate(m, lines[j]) then Some(lines[j])
    else FindName(m, lines, j + 1, i)
  }

  /**
   * The name search finds nothing exactly when no line of the window is a candidate; otherwise it
   * finds the earliest candidate of the window.
   */
  lemma {:induction false} FindNameSpec(m: Matchers, lines: seq<string>, j: nat, i: nat)
    requires j <= i <= |lines|
    ensures var r := FindName(m, lines, j, i);
      && (r.None? <==> forall k :: j <= k < i ==> !NameCandidate(m, lines[k]))
      && (r.Some? ==> exists k :: j <= k < i && lines[k] == r.value && NameCandidate(m, lines[k])
                        && forall k' :: j <= k' < k ==> !NameCandidate(m, lines[k']))
    decreases i - j
  {
    if j < i {
      if NameCandidate(m, lines[j]) {
        assert FindName(m, lines, j, i) == Some(lines[j]);
      } else {
        FindNameSpec(m, lines, j + 1, i);
        var r := FindName(m, lines, j + 1, i);
        assert FindName(m, lines, j, i) == r;
        if r.Some? {
          var k :| j + 1 <= k < i && lines[k] == r.value && NameCandidate(m, lines[k])
                   && forall k' :: j + 1 <= k' < k ==> !NameCandidate(m, lines[k']);
          assert j <= k < i;
        }
      }
    }
  }

  function WindowStart(i: nat): nat {
    if i >= NameWindow then i - NameWindow else 0
  }

  /**
   * The member opened by the email line `i`: its email is the match, and its name is the first
   * candidate among the (up to) eight lines above, split only when it has two or more tokens.
   */
  function StartMember(m: Matchers, lines: seq<string>, i: nat, email: string): (r: Member)
    requires i <= |lines|
    ensures r.email == email
    ensures r.phone == [] && r.businessAddress == [] && r.company == [] && r.designation == []
    ensures r.companyWebsite == None
    ensures FindName(m, lines, WindowStart(i), i).None? ==> r.name == [] && r.firstName == []
    ensures FindName(m, lines, WindowStart(i), i).Some? ==> r.name == FindName(m, lines, WindowStart(i), i).value
    ensures var p := SplitText(r.name);
      && (p.Some? ==> r.firstName == r.preferredName == p.value.first && r.middleName == p.value.middle && r.lastName == p.value.last)
      && (p.None? ==> r.firstName == r.preferredName == r.middleName == r.lastName == [])
  {
    var empty := Member("", "", "", "", "", "", "", "", email, None, "");
    match FindName(m, lines, WindowStart(i), i)
    case None =>
      assert SplitText("").None? by { WordsOfEmpty(); }
      empty
    case Some(name) =>
      match SplitText(name)
      case None => empty.(name := name)
      case Some(p) =>
        empty.(name := name, firstName := p.first, lastName := p.last, middleName := p.middle,
               preferredName := p.first)
  }

  /* ---------------------------------------------------------------------------
   * Filling a member from the lines that follow
   * ------------------------------------------------------------------------- */

  function AddressHit(line: string): Option<string> {
    if IsAddressLine(line) then Some(line) else None
  }

  function CompanyHit(line: string): Option<string> {
    if IsCompanyLine(line) then Some(line) else None
  }

  function DesignationHit(line: string): Option<string> {
    if line in TextDesignations then Some(line) else None
  }

  /**
   * One line's updates to the open member: each of phone, address, company, designation and
   * website is set from this line when it is still empty and the line supplies it.
   */
  function Absorb(m: Matchers, cur: Member, line: string): (r: Member)
    ensures r.email == cur.email && r.name == cur.name && r.preferredName == cur.preferredName
    ensures r.firstName == cur.firstName && r.middleName == cur.middleName && r.lastName == cur.lastName
    ensures cur.phone != [] ==> r.phone == cur.phone
    ensures cur.businessAddress != [] ==> r.businessAddress == cur.businessAddress
    ensures cur.company != [] ==> r.company == cur.company
    ensures cur.designation != [] ==> r.designation == cur.designation
    ensures Truthy(cur.companyWebsite) ==> r.companyWebsite == cur.companyWebsite
  {
    var phone := if m.phone(line).Some? && cur.phone == [] then m.phone(line).value else cur.phone;
    var address := if IsAddressLine(line) && cur.businessAddress == [] then line else cur.businessAddress;
    var company := if IsCompanyLine(line) && cur.company == [] then line else cur.company;
    var designation := if line in TextDesignations && cur.designation == [] then line else cur.designation;
    var website := if m.website(line).Some? && !Truthy(cur.companyWebsite) then m.website(line) else cur.companyWebsite;
    cur.(phone := phone, businessAddress := address, company := company, designation := designation,
         companyWebsite := website)
  }

  /** The open member after the non-boilerplate lines among `lines[from..to]`. */
  function Fill(m: Matchers, cur: Member, lines: seq<string>, from: nat, to: nat): Member
    requires from <= to <= |lines|
    decreases |lines| - from
  {
    if from == to then cur
    else Fill(m, if IsBoilerplate(lines[from]) then cur else Absorb(m, cur, lines[from]), lines, from + 1, to)
  }

  /** The first non-empty value `hit` gives for a non-boilerplate line among `lines[from..to]`. */
  function FirstHit(hit: string -> Option<string>, lines: seq<string>, from: nat, to: nat): Option<string>
    requires from <= to <= |lines|
    decreases |lines| - from
  {
    if from == to then None
    else if !IsBoilerplate(lines[from]) && Truthy(hit(lines[from])) then
      hit(lines[from])
    else FirstHit(hit, lines, from + 1, to)
  }

  /**
   * The first hit is missing exactly when no non-boilerplate line of the range supplies a
   * non-empty value; otherwise it is the value of the earliest line that does.
   */
  lemma {:induction false} FirstHitSpec(hit: string -> Option<string>, lines: seq<string>, from: nat, to: nat)
    requires from <= to <= |lines|
    ensures var r := FirstHit(hit, lines, from, to);
      && (r.None? <==> forall k :: from <= k < to && !IsBoilerplate(lines[k]) ==> !Truthy(hit(lines[k])))
      && (r.Some? ==> exists k :: from <= k < to && !IsBoilerplate(lines[k]) && hit(lines[k]) == r && Truthy(r) &&
                        forall k' :: from <= k' < k && !IsBoilerplate(lines[k']) ==> !Truthy(hit(lines[k'])))
    decreases |lines| - from
  {
    if from < to {
      if !IsBoilerplate(lines[from]) && Truthy(hit(lines[from])) {
        assert FirstHit(hit, lines, from, to) == hit(lines[from]);
      } else {
        FirstHitSpec(hit, lines, from + 1, to);
        var r := FirstHit(hit, lines, from + 1, to);
        assert FirstHit(hit, lines, from, to) == r;
        if r.Some? {
          var k :| from + 1 <= k < to && !IsBoilerplate(lines[k]) && hit(lines[k]) == r && Truthy(r) &&
                   forall k' :: from + 1 <= k' < k && !IsBoilerplate(lines[k']) ==> !Truthy(hit(lines[k']));
          assert from <= k < to;
        }
      }
    }
  }

  /** A field keeps a non-empty value, or takes the first hit, or stays empty. */
  function Settle(v: string, h: Option<string>): string {
    if v != [] then v else if h.Some? then h.value else v
  }

  /** The website keeps a truthy value, or takes the first hit, or stays as it was. */
  function SettleLink(v: Option<string>, h: Option<string>): Option<string> {
    if Truthy(v) then v else if h.Some? then h else v
  }

  /** What `hit` supplies from one line: its value when that is non-empty. */
  function Hit(hit: string -> Option<string>, line: string): (r: Option<string>)
    ensures r.Some? ==> r == hit(line) && r.value != []
    ensures r.None? ==> !Truthy(hit(line))
  {
    if Truthy(hit(line)) then hit(line) else None
  }

  /** Absorbing a line settles each field with what the line supplies. */
  lemma {:induction false} AbsorbSettles(m: Matchers, cur: Member, line: string)
    requires Sound(m)
    ensures var r := Absorb(m, cur, line);
            && r.phone == Settle(cur.phone, Hit(m.phone, line))
            && r.businessAddress == Settle(cur.businessAddress, Hit(AddressHit, line))
            && r.company == Settle(cur.company, Hit(CompanyHit, line))
            && r.designation == Settle(cur.designation, Hit(DesignationHit, line))
            && r.companyWebsite == SettleLink(cur.companyWebsite, Hit(m.website, line))
  {
    HitsNonEmpty(m, line);
  }

  /** Settling with a non-empty value and then with another is settling with the first one. */
  lemma {:induction false} SettleChain(v: string, h: Option<string>, f: Option<string>)
    requires h.Some? ==> h.value != []
    ensures Settle(Settle(v, h), f) == Settle(v, if h.Some? then h else f)
  {
  }

  lemma {:induction false} SettleLinkChain(v: Option<string>, h: Option<string>, f: Option<string>)
    requires h.Some? ==> h.value != []
    ensures SettleLink(SettleLink(v, h), f) == SettleLink(v, if h.Some? then h else f)
  {
  }

  /** The four text fields a member is filled in with. */
  datatype Field = Phone | Address | Company | Designation

  function Get(f: Field, x: Member): string {
    match f
    case Phone => x.phone
    case Address => x.businessAddress
    case Company => x.company
    case Designation => x.designation
  }

  /** Where a field's value comes from on one line. */
  function Source(m: Matchers, f: Field): string -> Option<string> {
    match f
    case Phone => m.phone
    case Address => AddressHit
    case Company => CompanyHit
    case Designation => DesignationHit
  }

  /**
   * Filling a member sets each field to the first value the lines supply, unless it was already
   * set, and leaves the identity fields alone.
   */
  lemma {:induction false} FillFirstHits(m: Matchers, cur: Member, lines: seq<string>, from: nat, to: nat)
    requires Sound(m)
    requires from <= to <= |lines|
    ensures var r := Fill(m, cur, lines, from, to);
            && r.email == cur.email && r.name == cur.name && r.preferredName == cur.preferredName
            && r.firstName == cur.firstName && r.middleName == cur.middleName && r.lastName == cur.lastName
            && r.phone == Settle(cur.phone, FirstHit(m.phone, lines, from, to))
            && r.businessAddress == Settle(cur.businessAddress, FirstHit(AddressHit, lines, from, to))
            && r.company == Settle(cur.company, FirstHit(CompanyHit, lines, from, to))
            && r.designation == Settle(cur.designation, FirstHit(DesignationHit, lines, from, to))
            && r.companyWebsite == SettleLink(cur.companyWebsite, FirstHit(m.website, lines, from, to))
  {
    FillKeepsIdentity(m, cur, lines, from, to);
    FillField(m, Phone, cur, lines, from, to);
    FillField(m, Address, cur, lines, from, to);
    FillField(m, Company, cur, lines, from, to);
    FillField(m, Designation, cur, lines, from, to);
    FillLink(m, cur, lines, from, to);
  }

  /** Filling never touches the email or any part of the name. */
  lemma {:induction false} FillKeepsIdentity(m: Matchers, cur: Member, lines: seq<string>, from: nat, to: nat)
    requires from <= to <= |lines|
    ensures var r := Fill(m, cur, lines, from, to);
            && r.email == cur.email && r.name == cur.name && r.preferredName == cur.preferredName
            && r.firstName == cur.firstName && r.middleName == cur.middleName && r.lastName == cur.lastName
    decreases |lines| - from
  {
    if from < to {
      var line := lines[from];
      FillKeepsIdentity(m, if IsBoilerplate(line) then cur else Absorb(m, cur, line), lines, from + 1, to);
    }
  }

  /** A text field ends up as it was when already set, and otherwise as the first value supplied. */
  lemma {:induction false} FillField(m: Matchers, f: Field, cur: Member, lines: seq<string>, from: nat, to: nat)
    requires Sound(m)
    requires from <= to <= |lines|
    ensures Get(f, Fill(m, cur, lines, from, to)) == Settle(Get(f, cur), FirstHit(Source(m, f), lines, from, to))
    decreases |lines| - from
  {
    if from < to {
      var line := lines[from];
      var next := if IsBoilerplate(line) then cur else Absorb(m, cur, line);
      FillField(m, f, next, lines, from + 1, to);
      assert Fill(m, cur, lines, from, to) == Fill(m, next, lines, from + 1, to);
      FirstHitStep(Source(m, f), lines, from, to);
      if !IsBoilerplate(line) {
        AbsorbField(m, f, cur, line);
        SettleChain(Get(f, cur), Hit(Source(m, f), line), FirstHit(Source(m, f), lines, from + 1, to));
      }
    }
  }

  /** The first hit from a line on: that line's own value if it supplies one, else the next line's. */
  lemma {:induction false} FirstHitStep(hit: string -> Option<string>, lines: seq<string>, from: nat, to: nat)
    requires from < to <= |lines|
    ensures FirstHit(hit, lines, from, to)
         == if !IsBoilerplate(lines[from]) && Hit(hit, lines[from]).Some? then Hit(hit, lines[from])
            else FirstHit(hit, lines, from + 1, to)
  {
  }

  lemma {:induction false} AbsorbField(m: Matchers, f: Field, cur: Member, line: string)
    requires Sound(m)
    ensures Get(f, Absorb(m, cur, line)) == Settle(Get(f, cur), Hit(Source(m, f), line))
  {
    AbsorbSettles(m, cur, line);
  }

  /** The website ends up as it was when already truthy, and otherwise as the first link supplied. */
  lemma {:induction false} FillLink(m: Matchers, cur: Member, lines: seq<string>, from: nat, to: nat)
    requires Sound(m)
    requires from <= to <= |lines|
    ensures Fill(m, cur, lines, from, to).companyWebsite == SettleLink(cur.companyWebsite, FirstHit(m.website, lines, from, to))
    decreases |lines| - from
  {
    if from < to {
      var line := lines[from];
      var next := if IsBoilerplate(line) then cur else Absorb(m, cur, line);
      FillLink(m, next, lines, from + 1, to);
      assert Fill(m, cur, lines, from, to) == Fill(m, next, lines, from + 1, to);
      FirstHitStep(m.website, lines, from, to);
      if !IsBoilerplate(line) {
        AbsorbSettles(m, cur, line);
        SettleLinkChain(cur.companyWebsite, Hit(m.website, line), FirstHit(m.website, lines, from + 1, to));
      }
    }
  }

  /** What each hit function gives for one line is empty only when the line supplies nothing. */
  lemma {:induction false} HitsNonEmpty(m: Matchers, line: string)
    requires Sound(m)
    ensures m.phone(line).Some? ==> Truthy(m.phone(line))
    ensures m.website(line).Some? ==> Truthy(m.website(line))
    ensures IsAddressLine(line) ==> line != []
    ensures IsCompanyLine(line) ==> line != []
    ensures line in TextDesignations ==> line != []
  {
    if IsAddressLine(line) {
      MarkerMeansNonEmpty(line, AddressMarkers);
    }
    if IsCompanyLine(line) {
      MarkerMeansNonEmpty(line, CompanyMarkers);
    }
  }

  /** Only a non-empty string can contain one of a list of non-empty markers. */
  lemma {:induction false} MarkerMeansNonEmpty(s: string, markers: seq<string>)
    requires forall k :: 0 <= k < |markers| ==> markers[k] != []
    requires ContainsAny(s, markers)
    ensures s != []
  {
    if !Contains(s, markers[0]) {
      MarkerMeansNonEmpty(s, markers[1..]);
    }
  }

  /* ---------------------------------------------------------------------------
   * The reference: one member per email line
   * ------------------------------------------------------------------------- */

  /** A line that opens a member: not boilerplate, and holding an email address. */
  predicate IsEmailLine(m: Matchers, line: string) {
    !IsBoilerplate(line) && m.email(line).Some?
  }

  /** The index of the first email line at or after `i`, or the number of lines if there is none. */
  function NextEmail(m: Matchers, lines: seq<string>, i: nat): (e: nat)
    requires i <= |lines|
    ensures i <= e <= |lines|
    ensures e < |lines| ==> IsEmailLine(m, lines[e])
    ensures forall j :: i <= j < e ==> !IsEmailLine(m, lines[j])
    decreases |lines| - i
  {
    if i == |lines| || IsEmailLine(m, lines[i]) then i else NextEmail(m, lines, i + 1)
  }

  /** The member of email line `e`: opened there and filled from the lines up to the next email line. */
  function Record(m: Matchers, lines: seq<string>, e: nat): Member
    requires e < |lines| && IsEmailLine(m, lines[e])
  {
    Fill(m, StartMember(m, lines, e, m.email(lines[e]).value), lines, e, NextEmail(m, lines, e + 1))
  }

  /**
   * The members of the email lines at or after `i`, one per email line, in page order: there are
   * none exactly when no email line is left, and the first is the member of the next email line.
   */
  function Collect(m: Matchers, lines: seq<string>, i: nat): (r: seq<Member>)
    requires i <= |lines|
    ensures r == [] <==> NextEmail(m, lines, i) == |lines|
    ensures r != [] ==> r[0] == Record(m, lines, NextEmail(m, lines, i))
    decreases |lines| - i
  {
    if i == |lines| then []
    else if IsEmailLine(m, lines[i]) then [Record(m, lines, i)] + Collect(m, lines, i + 1)
    else Collect(m, lines, i + 1)
  }

  /** The member still open at line `i`, completed with the lines before the next email line. */
  function Flush(m: Matchers, lines: seq<string>, cur: Option<Member>, i: nat): seq<Member>
    requires i <= |lines|
  {
    if cur.Some? then [Fill(m, cur.value, lines, i, NextEmail(m, lines, i))] else []
  }

  /* ---------------------------------------------------------------------------
   * The extraction loop
   * ------------------------------------------------------------------------- */

  /** One step of the reference at a line that is not an email line. */
  lemma {:induction false} PlainLineStep(m: Matchers, lines: seq<string>, cur: Option<Member>, i: nat)
    requires i < |lines| && !IsEmailLine(m, lines[i])
    ensures Collect(m, lines, i) == Collect(m, lines, i + 1)
    ensures Flush(m, lines, cur, i)
         == Flush(m, lines, if cur.Some? && !IsBoilerplate(lines[i]) then Some(Absorb(m, cur.value, lines[i])) else cur, i + 1)
  {
    var e := NextEmail(m, lines, i + 1);
    if cur.Some? {
      var next := if IsBoilerplate(lines[i]) then cur.value else Absorb(m, cur.value, lines[i]);
      assert Fill(m, cur.value, lines, i, e) == Fill(m, next, lines, i + 1, e);
    }
  }

  /** One step of the reference at an email line. */
  lemma {:induction false} EmailLineStep(m: Matchers, lines: seq<string>, cur: Option<Member>, i: nat)
    requires i < |lines| && IsEmailLine(m, lines[i])
    ensures Flush(m, lines, cur, i) == if cur.Some? then [cur.value] else []
    ensures Collect(m, lines, i)
         == Flush(m, lines, Some(Absorb(m, StartMember(m, lines, i, m.email(lines[i]).value), lines[i])), i + 1)
            + Collect(m, lines, i + 1)
  {
    EmailLineFlush(m, lines, cur, i);
    EmailLineRecord(m, lines, i);
  }

  /** At an email line the open member is complete: nothing before the next email line is left. */
  lemma {:induction false} EmailLineFlush(m: Matchers, lines: seq<string>, cur: Option<Member>, i: nat)
    requires i < |lines| && IsEmailLine(m, lines[i])
    ensures Flush(m, lines, cur, i) == if cur.Some? then [cur.value] else []
  {
    assert NextEmail(m, lines, i) == i;
  }

  /** The member of an email line is the one it opens, after absorbing the line itself. */
  lemma {:induction false} EmailLineRecord(m: Matchers, lines: seq<string>, i: nat)
    requires i < |lines| && IsEmailLine(m, lines[i])
    ensures Record(m, lines, i)
         == Fill(m, Absorb(m, StartMember(m, lines, i, m.email(lines[i]).value), lines[i]), lines, i + 1,
                 NextEmail(m, lines, i + 1))
  {
    var n := NextEmail(m, lines, i + 1);
    var start := StartMember(m, lines, i, m.email(lines[i]).value);
    assert Fill(m, start, lines, i, n) == Fill(m, Absorb(m, start, lines[i]), lines, i + 1, n);
  }

  /** The loop invariant survives an email line: the open member is pushed and a new one opened. */
  lemma {:induction false} EmailLineKeeps(m: Matchers, lines: seq<string>, members: seq<Member>, cur: Option<Member>, i: nat)
    requires Sound(m)
    requires i < |lines| && IsEmailLine(m, lines[i])
    requires members + Flush(m, lines, cur, i) + Collect(m, lines, i) == Collect(m, lines, 0)
    ensures var next := Absorb(m, StartMember(m, lines, i, m.email(lines[i]).value), lines[i]);
            (members + if cur.Some? then [cur.value] else []) + Flush(m, lines, Some(next), i + 1)
              + Collect(m, lines, i + 1) == Collect(m, lines, 0)
  {
    EmailLineStep(m, lines, cur, i);
  }

  /** The loop invariant survives any other line: the open member, if any, absorbs it. */
  lemma {:induction false} PlainLineKeeps(m: Matchers, lines: seq<string>, members: seq<Member>, cur: Option<Member>, i: nat)
    requires i < |lines| && !IsEmailLine(m, lines[i])
    requires members + Flush(m, lines, cur, i) + Collect(m, lines, i) == Collect(m, lines, 0)
    ensures var next := if cur.Some? && !IsBoilerplate(lines[i]) then Some(Absorb(m, cur.value, lines[i])) else cur;
            members + Flush(m, lines, next, i + 1) + Collect(m, lines, i + 1) == Collect(m, lines, 0)
  {
    PlainLineStep(m, lines, cur, i);
  }

  /** Before the first line nothing is pushed or open, and everything is still to collect. */
  lemma {:induction false} TracksStart(m: Matchers, lines: seq<string>)
    ensures Tracks(m, lines, [], None, 0)
  {
    assert [] + Flush(m, lines, None, 0) + Collect(m, lines, 0) == Collect(m, lines, 0);
  }

  /** At the end of the lines the open member is complete and nothing is left to collect. */
  lemma {:induction false} EndKeeps(m: Matchers, lines: seq<string>, members: seq<Member>, cur: Option<Member>)
    requires Tracks(m, lines, members, cur, |lines|)
    ensures (members + if cur.Some? && cur.value.email != [] then [cur.value] else []) == Collect(m, lines, 0)
  {
    assert Collect(m, lines, |lines|) == [];
    if cur.Some? {
      assert Flush(m, lines, cur, |lines|) == [cur.value];
    }
  }

  /**
   * The scan has reached line `i` consistently with the reference: the members pushed so far,
   * the open member completed, and the members of the remaining email lines make up the result.
   */
  ghost predicate Tracks(m: Matchers, lines: seq<string>, members: seq<Member>, cur: Option<Member>, i: nat)
    requires i <= |lines|
  {
    && (cur.Some? ==> cur.value.email != [])
    && members + Flush(m, lines, cur, i) + Collect(m, lines, i) == Collect(m, lines, 0)
  }

  /** The scan's state at line `i`: the count is the number pushed, and it tracks the reference. */
  ghost predicate Scanned(m: Matchers, lines: seq<string>, count: nat, members: seq<Member>, cur: Option<Member>, i: nat)
    requires i <= |lines|
  {
    count == |members| && (Sound(m) ==> Tracks(m, lines, members, cur, i))
  }

  /**
   * The loop body for line `i`: an email line pushes the open member (if it has an email) and
   * counts it, then opens a new one; the open member then takes what the line supplies.
   * Boilerplate is skipped.
   */
  method ScanLine(m: Matchers, lines: seq<string>, i: nat, count: nat, members: seq<Member>, cur: Option<Member>)
    returns (count': nat, members': seq<Member>, cur': Option<Member>)
    requires i < |lines|
    ensures (count', members') == (count, members)
         || (cur.Some? && count' == count + 1 && members' == members + [cur.value])
    ensures Scanned(m, lines, count, members, cur, i) ==> Scanned(m, lines, count', members', cur', i + 1)
  {
    var line := lines[i];
    var found := if IsBoilerplate(line) then None else m.email(line);
    count', members', cur' := count, members, cur;
    if found.Some? {
      var start := StartMember(m, lines, i, found.value);
      if cur.Some? && cur.value.email != [] {
        members' := members + [cur.value];
        count' := count + 1;
      }
      cur' := Some(start);
      if start.email != [] {
        cur' := Some(Absorb(m, start, line));
      }
      assert Sound(m) && Tracks(m, lines, members, cur, i) ==> Tracks(m, lines, members', cur', i + 1) by {
        if Sound(m) && Tracks(m, lines, members, cur, i) {
          assert members' == members + if cur.Some? then [cur.value] else [];
          EmailLineKeeps(m, lines, members, cur, i);
        }
      }
    } else {
      if !IsBoilerplate(line) && cur.Some? && cur.value.email != [] {
        cur' := Some(Absorb(m, cur.value, line));
      }
      assert Sound(m) && Tracks(m, lines, members, cur, i) ==> Tracks(m, lines, members', cur', i + 1) by {
        if Sound(m) && Tracks(m, lines, members, cur, i) {
          PlainLineKeeps(m, lines, members, cur, i);
        }
      }
    }
  }

  /**
   * The text tier as written: one pass over the lines keeping the open member, pushing it when the
   * next email line opens another and once more at the end. It yields one member per email line,
   * each filled from the lines up to the next one; the count is the number of members.
   */
  method TextExtract(m: Matchers, text: string) returns (totalCount: nat, members: seq<Member>)
    ensures totalCount == |members|
    ensures Sound(m) ==> members == Collect(m, PageLines(text), 0)
  {
    totalCount, members := ScanLines(m, PageLines(text));
  }

  /** The pass of the text tier over the page's lines. */
  method ScanLines(m: Matchers, lines: seq<string>) returns (totalCount: nat, members: seq<Member>)
    ensures totalCount == |members|
    ensures Sound(m) ==> members == Collect(m, lines, 0)
  {
    var cur: Option<Member> := None;
    members := [];
    totalCount := 0;
    var i := 0;
    TracksStart(m, lines);
    while i < |lines|
      invariant 0 <= i <= |lines|
      invariant Scanned(m, lines, totalCount, members, cur, i)
    {
      totalCount, members, cur := ScanLine(m, lines, i, totalCount, members, cur);
      i := i + 1;
    }
    totalCount, members := PushLast(m, lines, totalCount, members, cur);
  }

  /** After the last line: the member still open is pushed when it has an email address. */
  method PushLast(m: Matchers, lines: seq<string>, count: nat, members: seq<Member>, cur: Option<Member>)
    returns (totalCount: nat, members': seq<Member>)
    ensures Scanned(m, lines, count, members, cur, |lines|) ==> totalCount == |members'|
    ensures Scanned(m, lines, count, members, cur, |lines|) && Sound(m) ==> members' == Collect(m, lines, 0)
  {
    if Sound(m) && Tracks(m, lines, members, cur, |lines|) {
      EndKeeps(m, lines, members, cur);
    }
    totalCount, members' := count, members;
    if cur.Some? && cur.value.email != [] {
      members' := members + [cur.value];
      totalCount := count + 1;
    }
  }

  /**
   * Every member of the text tier: its email is its line's match; each other field is the first
   * value supplied by a non-boilerplate line from that email line up to the next one.
   */
  lemma {:induction false} RecordFields(m: Matchers, lines: seq<string>, e: nat)
    requires Sound(m)
    requires e < |lines| && IsEmailLine(m, lines[e])
    ensures var r, n := Record(m, lines, e), NextEmail(m, lines, e + 1);
      && r.email == m.email(lines[e]).value
      && r.phone == Settle([], FirstHit(m.phone, lines, e, n))
      && r.businessAddress == Settle([], FirstHit(AddressHit, lines, e, n))
      && r.company == Settle([], FirstHit(CompanyHit, lines, e, n))
      && r.designation == Settle([], FirstHit(DesignationHit, lines, e, n))
      && r.companyWebsite == FirstHit(m.website, lines, e, n)
  {
    var n := NextEmail(m, lines, e + 1);
    FillFirstHits(m, StartMember(m, lines, e, m.email(lines[e]).value), lines, e, n);
  }
}

=== FILE: wrappers.dfy ===
/** The optional-value and outcome types shared by every module of the model. */
module Wrappers {

  /** JavaScript's `null`/`undefined` on one side, a present value on the other. */
  datatype Option<+T> = None | Some(value: T) {

    /** Returns the value in Some, or the default when None. */
    function GetOr(default: T): T {
      match this
      case Some(v) => v
      case None => default
    }
  }

  /** The outcome of an operation that may throw: the value, or the thrown message. */
  datatype Result<+R> = Success(value: R) | Failure(error: string)
}
